=== FILE: README.md ===
# switcher-rust protocol core, modelled in Dafny

This project models the protocol layer of `switcher-rust`, a command-line
client for Switcher networked power plugs, together with the small in-memory
registries around it. Everything is written as pure functions over byte
sequences, hex strings and maps. The modules follow the repository's files:

| module | models |
|---|---|
| `Types` | bytes, `Option`/`Result`, `str::repeat` |
| `Hex` | the `hex` crate's `encode`/`decode`, `from_str_radix(_, 16)`, `{:02X}` and decimal `{}` formatting |
| `Crc16` | the bitwise CRC with the CRC-16/XMODEM parameters (polynomial 0x1021 of ITU-T V.41, not reflected, no final xor) from a chosen initial register |
| `Device` | `SwitcherDevice`, `DeviceState`, `DeviceStatus` and `from_discovery_packet` (`src/device.rs`) |
| `Control` | the four request templates, the device-name field, `sign_packet` and the reply interpreters (`src/control.rs`) |
| `Session` | the TCP exchanges of `login`, `get_status`, `send_control_command`, `set_device_name`, and the `turn_on`/`turn_off` two-poll policy (`src/control.rs`) |
| `Pairing` | `PairingConfig`: the alias map and the paired-device map (`src/pairing.rs`) |
| `Cache` | `DeviceCache`: last-seen times, discovery counts and the saturating age cutoff (`src/cache.rs`) |
| `Discovery` | the listener's first-seen insert-or-skip rule, the cache/network merge and the cache-only guard (`src/discovery.rs`) |
| `Utils` | the 8-digit hex timestamp and the relative-time buckets (`src/utils.rs`) |
| `Cli` | the argument table of `resolve_device_info` (`src/main.rs`) |

The clock is always a parameter (`now`, in whole seconds since the epoch). A
TCP connection is a `Peer` value. It says whether the plug accepts the
connection, whether each of the two writes succeeds and what each read
returns. The packets the client writes are recorded as a list,
as they appear on the wire.

Two details of the code that the model keeps as written:

- `sign_packet` appends 8 hex characters (two 2-byte digests), and the second
  CRC runs over a 34-byte buffer: 2 digest bytes and 32 bytes of `0x30`.
- `set_device_name` checks the name only after it has connected and logged
  in (`src/control.rs:111-118`). So a bad name costs a round trip, and the
  login request has already been written. `Session.RenameValidatedAfterLogin`
  states this order.

## Model

| member | source | states |
|---|---|---|
| `Device.FromDiscoveryPacket` | src/device.rs:29-116 | a record is produced only for a 165-byte datagram starting with `FE F0`; its type is always "Switcher Power Plug", its state is never Unknown, and its name has no NUL byte and is at most 32 bytes |
| `Device.DiscoveryDecoding` | src/device.rs:29-116 | the decoder returns a record exactly for 165-byte datagrams with the magic prefix and type bytes `01 A8`; that record is then the one read straight off the bytes, so none of the hex-length guards or `?` parses can fail |
| `Device.OtherDatagramsRejected` | src/device.rs:29-50 | a wrong length, a wrong prefix or a type code other than `01 A8` yields `None`, even when everything else is well formed |
| `Device.AnnouncementDecoded` | src/device.rs:34-115 | on an accepted datagram every field agrees with the byte-level reading: id = hex of bytes 18..21, key = hex of byte 40, address from bytes 76..80, MAC from 80..86, state from 133, power from 135..137 |
| `Device.AnnouncedFromHex` | src/device.rs:92-104 | the state and power the decoder reads from hex positions 266..268 and 270..278 are byte 133 (`01` is On, anything else Off) and the little-endian value of bytes 135, 136 |
| `Device.TypeCodeRecognised` | src/device.rs:46-50 | the hex comparison with "01a8" holds exactly when the two type bytes are `0x01, 0xA8` |
| `Device.NulPosition` | src/device.rs:39-43 | the name ends at the first zero byte, or at the field's end when it has none; no byte before it is zero |
| `Device.AddressField` | src/device.rs:53-75 | hex positions 152..160 of the datagram give the dotted quad of bytes 76, 77, 78, 79 in that order |
| `Device.IpFromHexEncode` | src/device.rs:57-75 | the pair reversal before parsing and the low-byte-first printing cancel: four bytes come out in natural order, each in decimal |
| `Device.ReversedPairsParse` | src/device.rs:58-68 | reversing the four hex pairs and parsing as `u32` reads the four bytes little-endian, and the parse cannot fail |
| `Device.OctetsOf` | src/device.rs:69-75 | masking and shifting a `u32` built from four bytes returns those bytes |
| `Device.DottedQuadShape` | src/device.rs:69-75 | the address text is 7 to 15 characters |
| `Device.MacField` | src/device.rs:77-90 | hex positions 160..172 give the MAC text of bytes 80..86 |
| `Device.MacFromHexEncode` | src/device.rs:81-90 | each `u8::from_str_radix` of a pair of the encoded bytes succeeds and the MAC text is that of the bytes |
| `Device.ParseOctetsEncode` | src/device.rs:84-89 | parsing the two-character groups of encoded bytes gives the bytes back |
| `Device.MacTextShape` | src/device.rs:82-90 | the MAC text is always 17 characters: upper-case hex pairs separated by five colons |
| `Device.StateField` | src/device.rs:92-98 | the state is On exactly when byte 133 is `0x01`, and Off otherwise |
| `Device.StateFromHexEncode` | src/device.rs:93-98 | on the hex text of one byte, "01" is On and every other byte reads Off |
| `Device.PowerField` | src/device.rs:100-104 | the power is the little-endian `u16` of bytes 135 and 136 |
| `Device.PowerFromHexEncode` | src/device.rs:101-104 | swapping the first two hex pairs and parsing as `u16` gives `b0 + 256*b1`, and the `unwrap_or(0)` fallback never fires |
| `Hex.EncodeIsLowerHex` | src/device.rs:34-37 | `hex::encode` writes lowercase digits only |
| `Hex.DecodeEncode` | src/control.rs:263 | decoding the hex of bytes gives the bytes back |
| `Hex.EncodeDecode` | src/control.rs:345 | on lowercase even-length hex, decoding succeeds and re-encoding gives the same text, so the two are inverse there |
| `Hex.DecodeDefined` | src/control.rs:345 | `hex::decode` succeeds exactly on even-length strings of hex digits of either case |
| `Hex.DecodeAppend` | src/control.rs:367-370 | decoding a concatenation of decodable pieces is the concatenation of their decodings |
| `Hex.EncodeAppend` | src/device.rs:34-37 | encoding distributes over concatenation |
| `Hex.EncodeSlice` | src/device.rs:53-57 | hex characters `2i..2j` of encoded bytes are the encoding of bytes `i..j` |
| `Hex.EncodeInjective` | src/device.rs:46-48 | distinct byte strings have distinct encodings |
| `Hex.DecodeSlice` | src/control.rs:263 | bytes `i..j` of a decoded string decode from its characters `2i..2j` |
| `Hex.DecodeAt` | src/control.rs:345 | byte `k` of a decoded string is read from characters `2k` and `2k+1` |
| `Hex.FromStrRadix16` | src/device.rs:58-68 | on unsigned input without a sign, `from_str_radix(_, 16)` succeeds exactly on a non-empty digit string whose value fits the type, and then returns that value |
| `Hex.ValueEncode` | src/device.rs:58-68 | the hex text of bytes is their big-endian value |
| `Hex.ParseEncoded` | src/device.rs:58-68 | parsing the hex of bytes returns their big-endian value whenever it fits the type |
| `Hex.ParseByte` | src/device.rs:84-89 | `u8::from_str_radix` undoes the two-digit encoding of a byte |
| `Hex.Decimal` | src/device.rs:69-75 | `{}` prints at least one digit, no leading zero, and one digit exactly for values below 10 |
| `Hex.DecimalRoundTrip` | src/device.rs:69-75 | the decimal text reads back as the number |
| `Hex.DecimalByteLength` | src/device.rs:69-75 | a byte prints with one to three digits |
| `Crc16.ChecksumAppend` | src/control.rs:348-350 | the digest is a left fold: a split input is digested piece by piece from the intermediate register |
| `Crc16.ChecksumInjective` | src/control.rs:348-350 | the same bytes digested from two different registers never give the same digest |
| `Crc16.UpdateByteInjective` | src/control.rs:348-350 | two different bytes fed into the same register give different registers |
| `Crc16.SingleByteChangeDetected` | src/control.rs:346-350 | changing any single byte of the input always changes the digest |
| `Control.NameToHex` | src/control.rs:319-340 | names of 2 to 32 bytes are accepted and all others rejected with their length; an accepted name gives exactly 64 lowercase hex characters, the hex of the name followed by zero bytes |
| `Control.NameFieldBytes` | src/control.rs:332-339 | the name field decodes to the name followed by zero bytes up to 32 bytes |
| `Control.NameFieldReadsBack` | src/control.rs:332-339 | a name without zero bytes, padded into the field, is recovered by the discovery decoder's cut at the first zero |
| `Control.ZeroPadEncodes` | src/control.rs:336-337 | `"00".repeat(k)` is the hex of `k` zero bytes |
| `Control.SetNamePacket` | src/control.rs:299-317 | the rename template is built only for a valid name; an invalid one gives the name-length error |
| `Control.SlicedCrcHex` | src/control.rs:352-354 | taking hex characters 6..8 then 4..6 of `(crc as u32).to_be_bytes()` gives the digest low byte first |
| `Control.SignPacket` | src/control.rs:342-371 | the signed packet is the input followed by exactly 8 hex characters; the input is an unchanged prefix |
| `Control.SigningKey` | src/control.rs:356-357 | the second CRC runs over a 34-byte buffer |
| `Control.KeyDecodes` | src/control.rs:356-357 | the key text decodes to the first digest low byte first, then 32 bytes `0x30` |
| `Control.SignPacketParts` | src/control.rs:346-370 | the 8 appended characters are the sliced CRC (seed 0x1021) of the payload, then the sliced CRC of the key buffer |
| `Control.SignatureEncodes` | src/control.rs:352-365 | the hex of the four signature bytes is the two sliced digests |
| `Control.SignatureText` | src/control.rs:363-370 | two digests written low byte first, in hex, are the two sliced texts one after the other |
| `Control.SignPacketText` | src/control.rs:342-371 | signing appends the hex of the payload's four signature bytes |
| `Control.SignPacketWire` | src/control.rs:342-371 | on the wire a signed packet is the payload bytes followed by their signature |
| `Control.SignedPacketsAuthentic` | src/control.rs:342-371 | every signed packet passes the receiver's check: its last four bytes are the signature of the rest |
| `Control.TamperedPayloadRejected` | src/control.rs:346-371 | a signature does not fit a payload in which any one byte was changed |
| `Control.TemplateTextIsHex` | src/control.rs:272-317 | every constant part of the four templates is hex |
| `Control.TemplatesDecode` | src/control.rs:272-317 | with even-length hex fields, all four requests are valid hex, so the decoding `sign_packet` unwraps cannot fail |
| `Control.LoginDecodes` | src/control.rs:272-278 | the login request is valid hex for any even-length hex timestamp |
| `Control.StatusDecodes` | src/control.rs:292-297 | the status request is valid hex for even-length hex fields |
| `Control.ControlDecodes` | src/control.rs:280-290 | the control request is valid hex for even-length hex fields and the command "1" or "0" |
| `Control.RenameDecodes` | src/control.rs:299-317 | the rename request is valid hex for even-length hex fields |
| `Control.SessionHeaderHex` | src/control.rs:280-297 | the part shared by the requests after login is hex when its fields are |
| `Control.SessionHeaderLayout` | src/control.rs:292-297 | with 8-character session id and timestamp and a 6-character device id, the shared part is 86 characters, with the fields at characters 16, 48 and 80 |
| `Control.SessionLayout` | src/control.rs:292-297 | the fields keep their offsets whatever tail follows the shared part |
| `Control.TemplateLayout` | src/control.rs:272-317 | the payloads are 156 (login), 88 (status), 178 (control) and 224 (rename) hex characters, with every field at its fixed offset |
| `Control.LoginLayout` | src/control.rs:272-278 | the login payload is 156 characters with the timestamp at 48..56 |
| `Control.ControlLayout` | src/control.rs:280-290 | the control payload is 178 characters with the command at character 167 |
| `Control.RenameLayout` | src/control.rs:309-316 | the rename payload is 224 characters with the name field at 160..224 |
| `Control.SessionFields` | src/control.rs:292-297 | in bytes, a request after login carries the session id at 8..12, the timestamp at 24..28 and the device id at 40..43 |
| `Control.LoginFields` | src/control.rs:272-278 | the login request carries the timestamp in bytes 24..28 |
| `Control.CommandField` | src/control.rs:280-290 | the control payload has "0" and the command at characters 166..168 |
| `Control.LoginLengthField` | src/control.rs:272-278 | the signed login request is 0x52 bytes, the value of its header byte 2 |
| `Control.StatusLengthField` | src/control.rs:292-297 | the signed status request is 0x30 bytes, the value of its header byte 2 |
| `Control.ControlLengthField` | src/control.rs:280-290 | the signed control request is 0x5d bytes, the value of its header byte 2 |
| `Control.RenameLengthField` | src/control.rs:309-316 | the signed rename request is 0x74 bytes, the value of its header byte 2 |
| `Control.LengthByte` | src/control.rs:367-370 | signing leaves header byte 2 in place, so a payload whose byte 2 announces its signed length keeps doing so |
| `Control.ParseLoginResponse` | src/control.rs:259-265 | a reply under 20 bytes is an error; otherwise the session id is the 8 lowercase hex characters of bytes 16..20 |
| `Control.ParseStatusResponse` | src/control.rs:179-207 | a reply under 50 bytes is an error; otherwise a status whose power fits a `u16` |
| `Control.StatusFallbacks` | src/control.rs:188-202 | for every accepted length: byte 75, when present, reads 1 as On, 0 as Off and anything else as Unknown, and its absence reads Off; bytes 77, 78, when both present, give the power little-endian, and their absence reads 0 |
| `Control.StatusReplyRoundTrip` | src/control.rs:188-207 | a reply carrying state On or Off at byte 75 and a power value at bytes 77, 78 parses back to exactly that state and power |
| `Control.CheckRenameResponse` | src/control.rs:124-129 | the rename acknowledgement succeeds exactly when it is at least 20 bytes |
| `Session.Received` | src/control.rs:175-176 | a read returns the first bytes the plug sent, at most the 1024 of the buffer |
| `Session.ReceivedPrefix` | src/control.rs:175-176 | the buffer holds at least `n` bytes exactly when the plug sent at least `n`, and they are the first ones sent |
| `Session.Wire` | src/control.rs:171-173 | a written request is the payload bytes followed by a valid 4-byte signature |
| `Session.WireAuthentic` | src/control.rs:248-250 | a request as written is authentic |
| `Session.SessionId` | src/control.rs:263 | the session id is 8 hex characters that decode to bytes 16..20 of the login reply |
| `Session.Login` | src/control.rs:242-266 | a failed write of the login request ends the login with a write error and nothing written; otherwise exactly the signed login request is written and the reply decides |
| `Session.ReadLoginReply` | src/control.rs:252-265 | a failed read is a read error, a short reply the too-short error, and otherwise the session id |
| `Session.TimestampIsHex` | src/control.rs:246 | the timestamp stamped into every request is 8 hex characters for every clock reading below 2^32 |
| `Session.AfterLogin` | src/control.rs:165-173 | a connection writes the login request and then the request proper, and every packet on it is authentic |
| `Session.GetStatus` | src/control.rs:137-208 | a refused connection writes nothing; the status succeeds exactly when the login succeeds, the status request is written and a reply of at least 50 bytes arrives; at most two packets, all authentic |
| `Session.StatusExchange` | src/control.rs:168-207 | once logged in, a failed write is a write error; otherwise exactly the signed status request is written and the reply is parsed by the status rules |
| `Session.ReadStatusReply` | src/control.rs:175-207 | a failed read is an error, otherwise the buffered reply is interpreted |
| `Session.SendControlCommand` | src/control.rs:210-240 | the command succeeds exactly when connect and login succeed and the control request is written; a failed control write is a write error; no reply is read |
| `Session.ControlCommandWrites` | src/control.rs:210-240 | a command puts two packets on the wire when it succeeds; one when the login is refused or the control write fails; none when the connection or the login write fails |
| `Session.ControlExchange` | src/control.rs:231-239 | once logged in, the step succeeds exactly when the control request is written, and then exactly the signed control request is on the wire; otherwise it is a write error |
| `Session.SetDeviceName` | src/control.rs:110-135 | the rename succeeds exactly when connect and login succeed, the name is 2 to 32 bytes, the rename request is written and the acknowledgement has at least 20 bytes |
| `Session.RenameExchange` | src/control.rs:117-129 | a bad name fails with its length before anything more is written; with a good one a failed write is a write error, and otherwise exactly the signed rename request is written |
| `Session.ReadRenameReply` | src/control.rs:123-129 | a failed read is an error, otherwise the acknowledgement's length decides |
| `Session.RenameValidatedAfterLogin` | src/control.rs:110-121 | with a bad name the login request has gone out (when its write succeeded) and no rename request follows; the name error is reported exactly when connect and login succeeded |
| `Session.WireBytes` | src/control.rs:171-173 | the payload part of a written request is the decoded template |
| `Session.LoginRequestContent` | src/control.rs:246-250 | the login request carries the clock reading big-endian in bytes 24..28, and byte 2 gives its length |
| `Session.StatusRequestContent` | src/control.rs:165-173 | the status request echoes reply bytes 16..20 as its session id, carries the clock reading and the device id, and byte 2 gives its length |
| `Session.StatusRequestWritten` | src/control.rs:165-173 | after an accepted login the connection writes the login request and then the status request |
| `Session.StatusRequestSecond` | src/control.rs:165-173 | the second packet written is the signed status request for the session id just received |
| `Session.StatusRequestFields` | src/control.rs:292-297 | as written, the status request carries session id, timestamp and device id at bytes 8, 24 and 40 |
| `Session.SessionWireFields` | src/control.rs:280-316 | every request after login carries those three fields at those bytes on the wire |
| `Session.CommandByteField` | src/control.rs:280-290 | byte 83 of the control request is 1 for "1" and 0 for "0" |
| `Session.CommandBytesText` | src/control.rs:39 | the command characters "1" and "0" become the bytes 1 and 0 |
| `Session.ControlRequestContent` | src/control.rs:225-236 | the control request echoes the session id, carries the clock reading and the device id, and the command in byte 83 |
| `Session.ControlRequestWritten` | src/control.rs:225-236 | after an accepted login the connection writes the login request and then the control request |
| `Session.ControlRequestSecond` | src/control.rs:225-236 | the second packet written is the signed control request |
| `Session.ControlRequestFields` | src/control.rs:280-290 | as written, the control request carries session id, timestamp, device id and the command byte |
| `Session.ControlSessionFields` | src/control.rs:280-290 | as written, the control request carries session id, timestamp and device id at bytes 8, 24 and 40 |
| `Session.ControlCommandWire` | src/control.rs:280-290 | as written, the control request has the command in byte 83 and its length in byte 2 |
| `Session.RenameRequestContent` | src/control.rs:117-121 | the rename request echoes the session id, carries the clock reading and the device id, and the name zero-padded to 32 bytes in bytes 80..112 |
| `Session.RenameRequestWritten` | src/control.rs:117-121 | after an accepted login the connection writes the login request and then what the rename step writes |
| `Session.RenameRequestSecond` | src/control.rs:117-121 | with a valid name the second packet written is the signed rename request |
| `Session.RenameRequestFields` | src/control.rs:309-316 | as written, the rename request carries the session fields and the padded name |
| `Session.NameBytesField` | src/control.rs:309-316 | the rename payload is 112 bytes with the padded name in bytes 80..112 |
| `Session.GetStatusParsesReply` | src/control.rs:175-207 | after an accepted login the status is the interpretation of the buffered reply |
| `Session.LoginErrorPropagates` | src/control.rs:242-265 | on an accepted connection whose login fails, the login's own error (`WriteFailed` for a failed write, `ReadFailed` for a failed or timed-out read, `LoginResponseTooShort` otherwise) is what `get_status`, `send_control_command` and `set_device_name` return, with only the login request written, if anything |
| `Session.LoggedInResults` | src/control.rs:110-240 | once logged in, `get_status` returns the status read (`ReadFailed` when the read fails) or `WriteFailed`, `send_control_command` succeeds exactly when its write does, and `set_device_name` returns the rename exchange's result for the session id the login gave |
| `Session.GetStatusReadsReply` | src/control.rs:188-207 | a plug reporting On or Off and a power reading is read back as exactly that |
| `Session.Confirm` | src/control.rs:39-65 | after the command at most two polls; a failed send makes no poll and is reported unchanged; two successful polls that both miss the target end in `CommandNotConfirmed(target)` after two polls |
| `Session.ConfirmMatchesReference` | src/control.rs:39-65 | the run succeeds exactly when the command went out and the first poll, or the second after a successful non-matching first, shows the target |
| `Session.ConfirmPropagatesErrors` | src/control.rs:47-63 | a failed poll ends the run with its error; the second poll is made exactly when the first succeeded without the target; when both succeed without it the run fails as not confirmed |
| `Session.UnknownNeverConfirms` | src/control.rs:49-64 | a plug reporting Unknown uses both polls and the switch fails as not confirmed |
| `Session.Switch` | src/control.rs:32-69 | for any target state: at most two polls; when the command does not go out, the run fails with the send's error and no poll; and the switch succeeds exactly when the command went out and the first poll, or the second after a successful non-matching first, shows the target |
| `Session.TurnOn` | src/control.rs:32-69 | `turn_on` makes at most two polls and succeeds exactly when the login succeeded, the command was written and a poll confirms On in the sense of `ConfirmedBy` |
| `Session.TurnOff` | src/control.rs:71-108 | `turn_off` makes at most two polls and succeeds exactly when the login succeeded, the command was written and a poll confirms Off in the sense of `ConfirmedBy` |
| `Pairing.Empty` | src/pairing.rs:24-30 | a new registry is empty and consistent |
| `Pairing.PairDevice` | src/pairing.rs:32-70 | an alias in use is refused and nothing changes; otherwise the device is recorded under its id and the alias leads to it |
| `Pairing.UnpairDevice` | src/pairing.rs:72-93 | an unknown alias is refused and nothing changes; otherwise the alias and its device are both removed |
| `Pairing.GetDeviceByAlias` | src/pairing.rs:95-98 | on a consistent registry a record is found exactly for known aliases, and it carries that alias and the aliased id |
| `Pairing.UpdateDeviceInfo` | src/pairing.rs:105-114 | reports whether the id is paired; changes no key and no alias; refreshes only that record |
| `Pairing.PairPreservesConsistency` | src/pairing.rs:32-70 | pairing keeps `aliases[a] = id` exactly when `devices[id].alias = a` |
| `Pairing.UnpairPreservesConsistency` | src/pairing.rs:72-93 | unpairing keeps the two maps consistent |
| `Pairing.UpdatePreservesConsistency` | src/pairing.rs:105-114 | updating keeps the two maps consistent |
| `Pairing.PairThenLookUp` | src/pairing.rs:32-98 | after a successful pair the alias finds the device just paired |
| `Pairing.RepairDropsOldAlias` | src/pairing.rs:45-52 | re-pairing a device under a new alias removes its old alias, so it keeps exactly one |
| `Pairing.PairLeavesOthers` | src/pairing.rs:43-62 | pairing leaves every other device and its alias untouched |
| `Pairing.PairIntoEmpty` | src/pairing.rs:24-70 | pairing one device into an empty registry gives one device and one alias |
| `Pairing.UnpairUndoesPair` | src/pairing.rs:32-93 | unpairing a newly paired device restores both maps |
| `Pairing.UnpairForgets` | src/pairing.rs:72-98 | after unpairing neither the alias nor its device is found |
| `Cache.EmptyCache` | src/cache.rs:23-28 | a new cache is empty |
| `Cache.AddDevice` | src/cache.rs:30-49 | the key set grows by the id; a new id enters with count 1, a known one gets count + 1; either way it holds the new device stamped `now`, and no other entry changes |
| `Cache.Cutoff` | src/cache.rs:53 | the saturating cutoff is `now - maxAge`, or 0 exactly when `maxAge >= now` |
| `Cache.FreshDevices` | src/cache.rs:51-60 | exactly the devices last seen at or after the cutoff |
| `Cache.RemoveOldDevices` | src/cache.rs:62-68 | keeps exactly the entries last seen at or after the cutoff, unchanged |
| `Cache.AddAll` | src/discovery.rs:117-119 | after adding a list, the keys are the old ones and the list's ids; each listed id holds the last record the list has for it, stamped `now`; every count is the old one (0 for a new id) plus the id's occurrences in the list; other entries are unchanged |
| `Cache.AddAllDistinct` | src/discovery.rs:117-119 | for a list without repeated ids, each listed device is stored as it is, with count + 1, or 1 when it is new |
| `Cache.AddDeviceGrowsByAtMostOne` | src/cache.rs:30-49 | adding grows the cache by at most one entry, and by none for a known id |
| `Cache.AddDeviceKeepsKeys` | src/cache.rs:30-49 | adding keeps every record under its own id |
| `Cache.AddedIsFresh` | src/cache.rs:30-60 | a device just added is fresh for every window |
| `Cache.WideWindowKeepsAll` | src/cache.rs:51-68 | when the window reaches back past the epoch, everything is fresh and nothing is removed |
| `Cache.FreshMonotone` | src/cache.rs:51-60 | a wider window keeps at least as much |
| `Cache.RemoveOldIsSubMap` | src/cache.rs:62-68 | removal leaves a sub-map of the cache |
| `Cache.RemoveOldIdempotent` | src/cache.rs:62-68 | removing twice at the same `now` removes nothing more |
| `Cache.FreshAfterRemove` | src/cache.rs:51-68 | after removal every remaining device is fresh, and the fresh devices are unchanged |
| `Cache.RefreshKeepsFound` | src/discovery.rs:113-121 | after the refresh every device just found is cached, stamped `now`, holding the last record found for its id, which is the device itself when no id was found twice |
| `Discovery.Decoded` | src/discovery.rs:205-208 | each datagram heard is decoded by `from_discovery_packet` |
| `Discovery.Heard` | src/discovery.rs:208-224 | a record is inserted only if its id is absent; an undecodable datagram changes nothing |
| `Discovery.Listen` | src/discovery.rs:204-231 | every map key equals its record's id, and every id was announced by some datagram |
| `Discovery.ListenSnoc` | src/discovery.rs:204-231 | the listener's map after one more datagram is one more insert-or-skip step |
| `Discovery.ListenHoldsAnnounced` | src/discovery.rs:208-218 | an id is held exactly when some datagram announced it |
| `Discovery.FirstAnnouncementExists` | src/discovery.rs:208-218 | every announcement has a first one at or before it |
| `Discovery.FirstAnnouncementKept` | src/discovery.rs:208-218 | the record held for an id is the one from the first datagram announcing it |
| `Discovery.ListenKeepsFirst` | src/discovery.rs:208-218 | the first announcement wins: held exactly when announced, and then the first one's record |
| `Discovery.UndecodableIgnored` | src/discovery.rs:219-224 | a datagram that does not decode can be dropped anywhere from the stream without changing the result |
| `Discovery.RepeatSkipped` | src/discovery.rs:210-217 | a record heard again under a known id, changed or not, leaves the map as it was |
| `Cache.LastWith` | src/discovery.rs:106-109 | the last record in a list with a given id exists exactly when the id occurs; it is a member of the list with that id, and no device after it in the list has that id |
| `Discovery.MergeDevices` | src/discovery.rs:99-111 | the merged keys are the union of cached and network ids; a network record wins over a cached one; each id maps to its own record |
| `Discovery.DiscoverFromCacheOnly` | src/discovery.rs:46-64 | with caching off the result is empty; otherwise it fails exactly when no cache is available, and else holds exactly the ids of the fresh cached records, each mapped to its cached device |
| `Discovery.CacheOnlyFindsAdded` | src/discovery.rs:46-64 | a device just added to the cache is found by cache-only discovery at the same time, whatever the window |
| `Discovery.CacheOnlyIgnoresRemoval` | src/discovery.rs:46-64 | removing old records with the same window does not change what cache-only discovery finds |
| `Utils.LowerHexDigits` | src/utils.rs:11 | `{:x}` gives lowercase hex digits whose value is the number |
| `Utils.TimestampHex` | src/utils.rs:10-12 | `{:08x}` gives at least 8 lowercase hex characters whose value is the time |
| `Utils.ZerosValue` | src/utils.rs:11 | the zero padding is lowercase hex of value 0 |
| `Utils.LowerHexDigitsWidth` | src/utils.rs:11 | a number below `16^k` needs at most `k` hex digits |
| `Utils.TimestampHexRoundTrip` | src/utils.rs:10-12 | below 2^32 the timestamp is exactly 8 characters and `u32::from_str_radix` reads it back as the time |
| `Utils.TimestampBytes` | src/utils.rs:10-12 | the timestamp decodes to 4 bytes holding the time big-endian |
| `Utils.FormatTimestamp` | src/utils.rs:14-33 | a future time gives exactly "in the future"; a past or present one gives text starting with a digit |
| `Utils.FormatTimestampBuckets` | src/utils.rs:20-29 | a past time is "N seconds/minutes/hours/days ago" in the unit that fits, N being the whole units elapsed |
| `Utils.OneUnitFits` | src/utils.rs:21-28 | the buckets cover every elapsed time and do not overlap |
| `Cli.ResolveDeviceInfo` | src/main.rs:550-585 | address and id alone are returned unchanged; an alias alone resolves through the registry and fails when unknown; the other six combinations are each their own error |
| `Cli.OnlyTwoShapesSucceed` | src/main.rs:555-584 | of the eight argument combinations only "address and id" and "alias alone" can succeed, and the first always does |
| `Cli.AliasResolvesToItsDevice` | src/main.rs:560-568 | over a consistent registry an alias gives the id it names and that device's address |
| `Cli.PairThenResolve` | src/main.rs:560-568 | a device just paired is found again by its alias, at the address it was paired with |
| `Cli.UnpairThenResolveFails` | src/main.rs:560-565 | after unpairing, the alias is reported unknown |

## Left out

- Socket I/O beyond whether each connect, write and read succeeds and what each read returns. Also `tokio` tasks, mutexes, timeouts and `sleep` delays. A connection is a `Peer` value, and the listener's datagrams are a sequence.
- The unbounded connect in `send_control_command` (`src/control.rs:217`). It is transport behaviour: a connection either is accepted or is not.
- Reading the clock (`current_timestamp`, `elapsed`). The time is a parameter; each connection of a switch gets its own reading.
- `Cache.AddAll`: stamps every device of the list with one clock reading `now`, while `add_device` reads the clock on each call (`src/cache.rs:31`). The readings differ by at most the loop's running time.
- `src/config.rs` in full, and the `CacheManager`/`PairingManager` wrappers: file persistence and JSON. Loading a cache or registry that can fail is an `Option` parameter.
- `src/main.rs` apart from `resolve_device_info`: argument parsing, printing, prompts and logging setup.
- `String::from_utf8_lossy` on the device name: names stay the raw bytes up to the first zero.
- `get_paired_devices`: it only lists the map's values.
- The iteration order of `HashMap`s. `get_fresh_devices` returns an id-keyed map. The merge takes its two lists in whatever order the maps yield.
- The flags in `discover_with_cache` that decide whether the cache is saved and paired devices updated. Only the merge and the refresh of the cache are modelled.
- The 1024-byte receive buffer of the discovery listener: a longer datagram truncated to 1024 bytes is still not 165 bytes, so the decoder rejects it either way.
- Integer overflow where it is not part of the logic: `discovery_count += 1` (`src/cache.rs:37`), `cache_max_age * 2` (`src/discovery.rs:121`) and `now - last_seen` in `src/main.rs`. Counts and times are unbounded naturals.
- `Session.GetStatus`: requires a clock reading below 2^32, where `{:08x}` gives exactly 8 characters. A later time gives a longer timestamp: at an odd length the source's `unwrap` panics, and at an even length every later field moves. The other exchanges carry the same requirement.
- `Session.GetStatus`: requires the device id to be even-length hex, because `sign_packet` unwraps the decoding of the whole request. The same holds for `Session.SendControlCommand`, `Session.SetDeviceName`, `Session.TurnOn` and `Session.TurnOff`.
- `Control.SignPacket`: requires its input to decode as hex, in place of the source's `unwrap` panic.
- `Control.ParseStatusResponse`: its own contract states only the error case and the power bound. The field-by-field reading, for every accepted length, is stated by `Control.StatusFallbacks` and `Control.StatusReplyRoundTrip`.
- `Hex.FromStrRadix16`: does not model the single leading `+` that Rust's `from_str_radix` accepts on unsigned types. The source passes it only text produced by `hex::encode`, which never carries a sign.
- A failed `write_all` is modelled as writing nothing. A real socket may have sent part of the packet before failing.
- `Crc16`: the register is computed bit by bit from the XMODEM parameters with initial value 0x1021. No lemma ties it to a published check value, because evaluating sixteen-bit xors on literals is beyond what the verifier does cheaply.

=== FILE: cache.dfy ===
/** The device cache of `src/cache.rs`: every device seen on the network,
    keyed by device id, with when it was last seen and how often it was
    discovered. The clock reading `current_timestamp` supplies is the
    parameter `now`. */
module Cache {
  import opened Types
  import opened Device

  datatype CachedDevice = CachedDevice(device: SwitcherDevice, lastSeen: nat, discoveryCount: nat)

  datatype DeviceCache = DeviceCache(devices: map<string, CachedDevice>, lastUpdated: nat)

  /** `DeviceCache::new`. */
  function EmptyCache(now: nat): (cache: DeviceCache)
    ensures |cache.devices| == 0
  {
    DeviceCache(map[], now)
  }

  /** Every record sits under its own device id. */
  predicate KeyedById(cache: DeviceCache) {
    forall id :: id in cache.devices ==> cache.devices[id].device.deviceId == id
  }

  /** `add_device`: a device seen again replaces its record, is stamped
      with `now` and has its count raised by one; a new device enters with
      count one. */
  function AddDevice(cache: DeviceCache, device: SwitcherDevice, now: nat): (r: DeviceCache)
    ensures r.devices.Keys == cache.devices.Keys + {device.deviceId}
    ensures r.devices[device.deviceId].device == device && r.devices[device.deviceId].lastSeen == now
    ensures r.devices[device.deviceId].discoveryCount
         == if device.deviceId in cache.devices then cache.devices[device.deviceId].discoveryCount + 1 else 1
    ensures forall id :: id in cache.devices && id != device.deviceId ==> r.devices[id] == cache.devices[id]
    ensures r.lastUpdated == now
  {
    var id := device.deviceId;
    if id in cache.devices then
      var cached := cache.devices[id];
      DeviceCache(cache.devices[id := CachedDevice(device, now, cached.discoveryCount + 1)], now)
    else
      DeviceCache(cache.devices[id := CachedDevice(device, now, 1)], now)
  }

  /** `now.saturating_sub(max_age_seconds)`: the oldest last-seen time
      that still counts as fresh. */
  function Cutoff(now: nat, maxAge: nat): (cutoff: nat)
    ensures cutoff <= now
    ensures cutoff == 0 || cutoff + maxAge == now
    ensures cutoff == 0 <==> maxAge >= now
  {
    if maxAge >= now then 0 else now - maxAge
  }

  /** A record seen no earlier than the cutoff. */
  predicate IsFresh(cached: CachedDevice, now: nat, maxAge: nat) {
    cached.lastSeen >= Cutoff(now, maxAge)
  }

  /** `get_fresh_devices`: the devices of the fresh records. The source
      collects them in the map's iteration order, which is unspecified, so
      they are returned keyed by device id. */
  function FreshDevices(cache: DeviceCache, maxAge: nat, now: nat): (recent: map<string, SwitcherDevice>)
    ensures forall id :: id in recent <==> id in cache.devices && IsFresh(cache.devices[id], now, maxAge)
    ensures forall id :: id in recent ==> recent[id] == cache.devices[id].device
  {
    map id | id in cache.devices && IsFresh(cache.devices[id], now, maxAge) :: cache.devices[id].device
  }

  /** `remove_old_devices`: keep exactly the fresh records. */
  function RemoveOldDevices(cache: DeviceCache, maxAge: nat, now: nat): (r: DeviceCache)
    ensures forall id :: id in r.devices <==> id in cache.devices && IsFresh(cache.devices[id], now, maxAge)
    ensures forall id :: id in r.devices ==> r.devices[id] == cache.devices[id]
    ensures r.lastUpdated == now
  {
    DeviceCache(map id | id in cache.devices && IsFresh(cache.devices[id], now, maxAge) :: cache.devices[id], now)
  }

  /** The ids of a list of devices. */
  function Ids(ds: seq<SwitcherDevice>): set<string> {
    set d | d in ds :: d.deviceId
  }

  /** `d` sits in `ds` with no device of id `id` after it. */
  predicate IsLastWith(ds: seq<SwitcherDevice>, id: string, d: SwitcherDevice) {
    exists i :: 0 <= i < |ds| && ds[i] == d && forall j :: i < j < |ds| ==> ds[j].deviceId != id
  }

  /** The last device of `ds` with id `id`, if any. */
  function LastWith(ds: seq<SwitcherDevice>, id: string): (r: Option<SwitcherDevice>)
    ensures r.Some? <==> id in Ids(ds)
    ensures r.Some? ==> r.value in ds && r.value.deviceId == id
    ensures r.Some? ==> IsLastWith(ds, id, r.value)
    decreases |ds|
  {
    if |ds| == 0 then None
    else
      var n := |ds| - 1;
      assert ds == ds[..n] + [ds[n]];
      if ds[n].deviceId == id then Some(ds[n]) else LastWith(ds[..n], id)
  }

  /** How many devices of `ds` have id `id`. */
  function Occurrences(ds: seq<SwitcherDevice>, id: string): (k: nat)
    ensures k > 0 <==> id in Ids(ds)
    ensures k <= |ds|
    decreases |ds|
  {
    if |ds| == 0 then 0
    else
      var n := |ds| - 1;
      assert ds == ds[..n] + [ds[n]];
      Occurrences(ds[..n], id) + if ds[n].deviceId == id then 1 else 0
  }

  /** The discovery count a cache holds for `id`, zero when it has none. */
  function CountOf(cache: DeviceCache, id: string): nat {
    if id in cache.devices then cache.devices[id].discoveryCount else 0
  }

  /** The ids of a list are those of all but its last device, and the
      last device's. */
  lemma IdsSnoc(ds: seq<SwitcherDevice>)
    requires |ds| > 0
    ensures Ids(ds) == Ids(ds[..|ds| - 1]) + {ds[|ds| - 1].deviceId}
  {
    assert ds == ds[..|ds| - 1] + [ds[|ds| - 1]];
  }

  /** The loop at `src/discovery.rs:117-119`: add every device of a list,
      one after the other, at the same time `now`. Each listed id ends up
      holding the last record the list has for it, counted once more per
      occurrence. */
  function AddAll(cache: DeviceCache, ds: seq<SwitcherDevice>, now: nat): (r: DeviceCache)
    ensures r.devices.Keys == cache.devices.Keys + Ids(ds)
    ensures forall d :: d in ds ==> r.devices[d.deviceId].lastSeen == now
    ensures forall id :: id in Ids(ds) ==> r.devices[id].device == LastWith(ds, id).value
    ensures forall id :: id in r.devices ==> r.devices[id].discoveryCount == CountOf(cache, id) + Occurrences(ds, id)
    ensures forall id :: id in cache.devices && id !in Ids(ds) ==> r.devices[id] == cache.devices[id]
    decreases |ds|
  {
    if |ds| == 0 then cache
    else
      var n := |ds| - 1;
      var prev := AddAll(cache, ds[..n], now);
      StepKeysAndStamps(cache, ds, ds[..n], prev, now);
      StepKeepsLast(ds, ds[..n], prev, now);
      StepCounts(cache, ds, ds[..n], prev, now);
      AddDevice(prev, ds[n], now)
  }

  /** The key and stamp step of `AddAll`: adding the last device extends
      the keys by its id, stamps it `now` and leaves the entries of other
      ids as they were. */
  lemma StepKeysAndStamps(cache: DeviceCache, ds: seq<SwitcherDevice>, init: seq<SwitcherDevice>, prev: DeviceCache, now: nat)
    requires |ds| > 0 && init == ds[..|ds| - 1]
    requires prev.devices.Keys == cache.devices.Keys + Ids(init)
    requires forall d :: d in init ==> prev.devices[d.deviceId].lastSeen == now
    requires forall id :: id in cache.devices && id !in Ids(init) ==> prev.devices[id] == cache.devices[id]
    ensures var r := AddDevice(prev, ds[|ds| - 1], now);
      && r.devices.Keys == cache.devices.Keys + Ids(ds)
      && (forall d :: d in ds ==> r.devices[d.deviceId].lastSeen == now)
      && (forall id :: id in cache.devices && id !in Ids(ds) ==> r.devices[id] == cache.devices[id])
  {
    var last := ds[|ds| - 1];
    assert ds == init + [last];
    IdsSnoc(ds);
  }

  /** The record step of `AddAll`: if every id of the list without its last
      device holds the last record for it, so does every id of the whole
      list once the last device is added. */
  lemma StepKeepsLast(ds: seq<SwitcherDevice>, init: seq<SwitcherDevice>, prev: DeviceCache, now: nat)
    requires |ds| > 0 && init == ds[..|ds| - 1]
    requires Ids(init) <= prev.devices.Keys
    requires forall id :: id in Ids(init) ==> prev.devices[id].device == LastWith(init, id).value
    ensures var r := AddDevice(prev, ds[|ds| - 1], now);
      forall id :: id in Ids(ds) ==> r.devices[id].device == LastWith(ds, id).value
  {
    forall id | id in Ids(ds)
      ensures AddDevice(prev, ds[|ds| - 1], now).devices[id].device == LastWith(ds, id).value
    {
      StepKeepsLastAt(ds, prev, now, id);
    }
  }

  /** `StepKeepsLast` for one id. */
  lemma StepKeepsLastAt(ds: seq<SwitcherDevice>, prev: DeviceCache, now: nat, id: string)
    requires |ds| > 0 && id in Ids(ds)
    requires id != ds[|ds| - 1].deviceId ==>
      id in prev.devices && LastWith(ds[..|ds| - 1], id).Some? && prev.devices[id].device == LastWith(ds[..|ds| - 1], id).value
    ensures AddDevice(prev, ds[|ds| - 1], now).devices[id].device == LastWith(ds, id).value
  {
  }

  /** The count step of `AddAll`: the counts stay the cached ones plus the
      occurrences so far once the last device is added. */
  lemma StepCounts(cache: DeviceCache, ds: seq<SwitcherDevice>, init: seq<SwitcherDevice>, prev: DeviceCache, now: nat)
    requires |ds| > 0 && init == ds[..|ds| - 1]
    requires forall id :: id in prev.devices ==> prev.devices[id].discoveryCount == CountOf(cache, id) + Occurrences(init, id)
    requires cache.devices.Keys + Ids(init) <= prev.devices.Keys
    ensures var r := AddDevice(prev, ds[|ds| - 1], now);
      forall id :: id in r.devices ==> r.devices[id].discoveryCount == CountOf(cache, id) + Occurrences(ds, id)
  {
    var n := |ds| - 1;
    var last := ds[n];
    var r := AddDevice(prev, last, now);
    forall id | id in r.devices
      ensures r.devices[id].discoveryCount == CountOf(cache, id) + Occurrences(ds, id)
    {
      assert Occurrences(ds, id) == Occurrences(ds[..n], id) + if last.deviceId == id then 1 else 0;
      if id != last.deviceId {
        assert r.devices[id] == prev.devices[id];
      } else if id !in prev.devices {
        assert Occurrences(ds[..n], id) == 0;
      }
    }
  }

  /** No two devices of the list share an id. */
  predicate DistinctIds(ds: seq<SwitcherDevice>) {
    forall i, j :: 0 <= i < j < |ds| ==> ds[i].deviceId != ds[j].deviceId
  }

  /** In a list without repeated ids, a device is the last with its id and
      occurs once. */
  lemma {:induction false} OnlyOneWithId(ds: seq<SwitcherDevice>, i: nat)
    requires DistinctIds(ds) && i < |ds|
    ensures LastWith(ds, ds[i].deviceId) == Some(ds[i])
    ensures Occurrences(ds, ds[i].deviceId) == 1
    decreases |ds|
  {
    var n := |ds| - 1;
    var id := ds[i].deviceId;
    if i < n {
      assert ds[n].deviceId != id;
      assert DistinctIds(ds[..n]) && ds[..n][i] == ds[i];
      OnlyOneWithId(ds[..n], i);
    }
  }

  /** Adding a list without repeated ids stores each listed device as it
      is, counted once more than before, or once when it is new. */
  lemma AddAllDistinct(cache: DeviceCache, ds: seq<SwitcherDevice>, now: nat)
    requires DistinctIds(ds)
    ensures var r := AddAll(cache, ds, now);
      forall i :: 0 <= i < |ds| ==>
        r.devices[ds[i].deviceId].device == ds[i]
        && r.devices[ds[i].deviceId].discoveryCount
           == if ds[i].deviceId in cache.devices then cache.devices[ds[i].deviceId].discoveryCount + 1 else 1
  {
    forall i | 0 <= i < |ds| {
      AddAllDistinctAt(cache, ds, now, i);
    }
  }

  /** `AddAllDistinct` for one position of the list. */
  lemma AddAllDistinctAt(cache: DeviceCache, ds: seq<SwitcherDevice>, now: nat, i: nat)
    requires DistinctIds(ds) && i < |ds|
    ensures var r := AddAll(cache, ds, now);
      r.devices[ds[i].deviceId].device == ds[i]
      && r.devices[ds[i].deviceId].discoveryCount
         == if ds[i].deviceId in cache.devices then cache.devices[ds[i].deviceId].discoveryCount + 1 else 1
  {
    assert ds[i].deviceId in Ids(ds);
    OnlyOneWithId(ds, i);
  }

  // ---------------------------------------------------------------------
  // Properties

  /** Adding grows the cache by at most one entry. */
  lemma AddDeviceGrowsByAtMostOne(cache: DeviceCache, device: SwitcherDevice, now: nat)
    ensures |cache.devices| <= |AddDevice(cache, device, now).devices| <= |cache.devices| + 1
    ensures device.deviceId in cache.devices ==> |AddDevice(cache, device, now).devices| == |cache.devices|
  {
    var r := AddDevice(cache, device, now);
    if device.deviceId in cache.devices {
      assert r.devices.Keys == cache.devices.Keys;
    } else {
      assert r.devices.Keys == cache.devices.Keys + {device.deviceId};
      assert |r.devices.Keys| == |cache.devices.Keys| + 1;
    }
  }

  /** Adding keeps every record under its own id. */
  lemma AddDeviceKeepsKeys(cache: DeviceCache, device: SwitcherDevice, now: nat)
    requires KeyedById(cache)
    ensures KeyedById(AddDevice(cache, device, now))
  {
  }

  /** A device just added is fresh for every window. */
  lemma AddedIsFresh(cache: DeviceCache, device: SwitcherDevice, now: nat, maxAge: nat)
    ensures device.deviceId in FreshDevices(AddDevice(cache, device, now), maxAge, now)
  {
  }

  /** A window reaching back to the epoch or further keeps everything. */
  lemma WideWindowKeepsAll(cache: DeviceCache, maxAge: nat, now: nat)
    requires maxAge >= now
    ensures FreshDevices(cache, maxAge, now).Keys == cache.devices.Keys
    ensures RemoveOldDevices(cache, maxAge, now).devices == cache.devices
  {
  }

  /** A wider window keeps at least as much. */
  lemma FreshMonotone(cache: DeviceCache, narrow: nat, wide: nat, now: nat)
    requires narrow <= wide
    ensures FreshDevices(cache, narrow, now).Keys <= FreshDevices(cache, wide, now).Keys
  {
  }

  /** Removing old records leaves a sub-map of the cache. */
  lemma RemoveOldIsSubMap(cache: DeviceCache, maxAge: nat, now: nat)
    ensures var r := RemoveOldDevices(cache, maxAge, now);
      r.devices.Keys <= cache.devices.Keys && forall id :: id in r.devices ==> r.devices[id] == cache.devices[id]
  {
  }

  /** Removing old records twice at the same time removes nothing more. */
  lemma RemoveOldIdempotent(cache: DeviceCache, maxAge: nat, now: nat)
    ensures var once := RemoveOldDevices(cache, maxAge, now);
      RemoveOldDevices(once, maxAge, now) == once
  {
    var once := RemoveOldDevices(cache, maxAge, now);
    var twice := RemoveOldDevices(once, maxAge, now);
    assert twice.devices == once.devices;
  }

  /** After old records are removed, every remaining device is fresh, and
      the fresh devices are what the cache held. */
  lemma FreshAfterRemove(cache: DeviceCache, maxAge: nat, now: nat)
    ensures var r := RemoveOldDevices(cache, maxAge, now);
      FreshDevices(r, maxAge, now).Keys == r.devices.Keys
      && FreshDevices(r, maxAge, now) == FreshDevices(cache, maxAge, now)
  {
    var r := RemoveOldDevices(cache, maxAge, now);
    assert FreshDevices(r, maxAge, now) == FreshDevices(cache, maxAge, now);
  }

  /** The refresh at `src/discovery.rs:117-121`: after the devices just
      found are added and records older than twice the window are removed,
      every device just found is in the cache, stamped `now`, holding the
      last record found for its id; when no id was found twice, that is
      the device itself. */
  lemma RefreshKeepsFound(cache: DeviceCache, found: seq<SwitcherDevice>, maxAge: nat, now: nat)
    ensures var r := RemoveOldDevices(AddAll(cache, found, now), 2 * maxAge, now);
      forall d :: d in found ==>
        d.deviceId in r.devices && r.devices[d.deviceId].lastSeen == now
        && r.devices[d.deviceId].device == LastWith(found, d.deviceId).value
    ensures var r := RemoveOldDevices(AddAll(cache, found, now), 2 * maxAge, now);
      DistinctIds(found) ==> forall i :: 0 <= i < |found| ==> r.devices[found[i].deviceId].device == found[i]
  {
    var added := AddAll(cache, found, now);
    var r := RemoveOldDevices(added, 2 * maxAge, now);
    forall d | d in found
      ensures d.deviceId in r.devices && r.devices[d.deviceId].lastSeen == now
      ensures r.devices[d.deviceId].device == LastWith(found, d.deviceId).value
    {
      assert d.deviceId in Ids(found);
      assert IsFresh(added.devices[d.deviceId], now, 2 * maxAge);
    }
    if DistinctIds(found) {
      AddAllDistinct(cache, found, now);
    }
  }
}

=== FILE: cli.dfy ===
/** The command line's choice of target device (`resolve_device_info` in
    `src/main.rs`): either an address and a device id given directly, or
    the alias of a paired device, and nothing else. The pairing registry the
    source loads from disk is a parameter, `None` when it cannot be loaded. */
module Cli {
  import opened Types
  import opened Device
  import opened Pairing

  datatype ResolveError =
    | PairingUnavailable
    | UnknownAlias(alias: string)
    | DirectAndAlias
    | DirectIncomplete
    | NothingGiven
    | MixedWithAlias

  /** The two shapes of arguments that can name a device. */
  predicate IsDirect(ip: Option<string>, deviceId: Option<string>, alias: Option<string>) {
    ip.Some? && deviceId.Some? && alias.None?
  }

  predicate IsByAlias(ip: Option<string>, deviceId: Option<string>, alias: Option<string>) {
    ip.None? && deviceId.None? && alias.Some?
  }

  /** `resolve_device_info`: the address and device id to talk to. */
  function ResolveDeviceInfo(ip: Option<string>, deviceId: Option<string>, alias: Option<string>,
                             pairing: Option<PairingConfig>): (r: Result<(string, string), ResolveError>)
    ensures r.Ok? ==> IsDirect(ip, deviceId, alias) || IsByAlias(ip, deviceId, alias)
    ensures IsDirect(ip, deviceId, alias) ==> r == Ok((ip.value, deviceId.value))
    ensures IsByAlias(ip, deviceId, alias) ==>
      (r.Ok? <==> pairing.Some? && GetDeviceByAlias(pairing.value, alias.value).Some?)
    ensures IsByAlias(ip, deviceId, alias) && r.Ok? ==>
      var paired := GetDeviceByAlias(pairing.value, alias.value).value;
      r.value == (paired.device.ipAddress, paired.device.deviceId)
    ensures IsByAlias(ip, deviceId, alias) && pairing.Some? && r.Err? ==> r.error == UnknownAlias(alias.value)
    ensures ip.Some? && deviceId.Some? && alias.Some? ==> r == Err(DirectAndAlias)
    ensures (ip.Some? != deviceId.Some?) && alias.None? ==> r == Err(DirectIncomplete)
    ensures ip.None? && deviceId.None? && alias.None? ==> r == Err(NothingGiven)
    ensures (ip.Some? != deviceId.Some?) && alias.Some? ==> r == Err(MixedWithAlias)
  {
    match (ip, deviceId, alias)
    case (Some(address), Some(id), None) => Ok((address, id))
    case (None, None, Some(name)) =>
      if pairing.None? then Err(PairingUnavailable)
      else
        var found := GetDeviceByAlias(pairing.value, name);
        if found.None? then Err(UnknownAlias(name))
        else Ok((found.value.device.ipAddress, found.value.device.deviceId))
    case (Some(_), Some(_), Some(_)) => Err(DirectAndAlias)
    case (Some(_), None, None) => Err(DirectIncomplete)
    case (None, Some(_), None) => Err(DirectIncomplete)
    case (None, None, None) => Err(NothingGiven)
    case (None, Some(_), Some(_)) => Err(MixedWithAlias)
    case (Some(_), None, Some(_)) => Err(MixedWithAlias)
  }

  /** Which of `ip`, `device_id` and `alias` were given, as three bits. */
  function Shape(ip: Option<string>, deviceId: Option<string>, alias: Option<string>): (code: nat)
    ensures code < 8
  {
    (if ip.Some? then 4 else 0) + (if deviceId.Some? then 2 else 0) + (if alias.Some? then 1 else 0)
  }

  /** Of the eight shapes of arguments, only "address and id" (6) and
      "alias alone" (1) can succeed; the other six always fail, whatever the
      registry holds. */
  lemma OnlyTwoShapesSucceed(ip: Option<string>, deviceId: Option<string>, alias: Option<string>,
                             pairing: Option<PairingConfig>)
    ensures ResolveDeviceInfo(ip, deviceId, alias, pairing).Ok? ==> Shape(ip, deviceId, alias) in {6, 1}
    ensures Shape(ip, deviceId, alias) == 6 ==> ResolveDeviceInfo(ip, deviceId, alias, pairing).Ok?
  {
  }

  /** Over a consistent registry the alias leads to the device id it is
      recorded for. */
  lemma AliasResolvesToItsDevice(alias: string, cfg: PairingConfig)
    requires Consistent(cfg) && alias in cfg.aliases
    ensures var r := ResolveDeviceInfo(None, None, Some(alias), Some(cfg));
      r.Ok? && r.value.1 == cfg.aliases[alias] && r.value.0 == cfg.devices[cfg.aliases[alias]].device.ipAddress
  {
  }

  /** A device just paired under an alias is found again through it, at
      the address it was paired with. */
  lemma PairThenResolve(cfg: PairingConfig, device: SwitcherDevice, alias: string, now: nat)
    requires alias !in cfg.aliases
    ensures var paired := PairDevice(cfg, device, alias, now).config;
      ResolveDeviceInfo(None, None, Some(alias), Some(paired)) == Ok((device.ipAddress, device.deviceId))
  {
    PairThenLookUp(cfg, device, alias, now);
  }

  /** After an alias is unpaired it no longer resolves. */
  lemma UnpairThenResolveFails(cfg: PairingConfig, alias: string, now: nat)
    requires Consistent(cfg) && alias in cfg.aliases
    ensures var c := UnpairDevice(cfg, alias, now).config;
      ResolveDeviceInfo(None, None, Some(alias), Some(c)) == Err(UnknownAlias(alias))
  {
    UnpairForgets(cfg, alias, now);
  }
}

=== FILE: control.dfy ===
/** The packet layer of `SwitcherController` (`src/control.rs`): the hex
    templates of the four requests, the device-name field, the two-stage
    CRC signature appended to every request, and the interpretation of the
    plug's replies. Everything here is a pure function of its inputs; the
    connections that carry the packets are modelled in `Session`. */
module Control {
  import opened Types
  import opened Hex
  import opened Crc16
  import opened Device

  const SWITCHER_PORT: nat := 9957
  const MIN_LOGIN_RESPONSE_LEN: nat := 20
  const MIN_STATUS_RESPONSE_LEN: nat := 50
  const MIN_RENAME_RESPONSE_LEN: nat := 20
  const DEVICE_STATE_BYTE_POS: nat := 75
  const POWER_BYTE_POS: nat := 77
  const MIN_NAME_LENGTH: nat := 2
  const MAX_NAME_LENGTH: nat := 32
  /** The rename packet's name field: 32 bytes, so 64 hex characters. */
  const NAME_FIELD_HEX_LENGTH: nat := 64
  const ON_COMMAND: string := "1"
  const OFF_COMMAND: string := "0"
  const PAD_72_ZEROS: string := Repeat("0", 72)
  /** The second CRC runs over the two first-stage bytes and this filler. */
  const KEY_FILLER_HEX: string := Repeat("30", 32)

  /** Why an exchange with the plug failed. The transport errors stand for
      the I/O failures and timeouts of the socket calls. */
  datatype Error =
    | ConnectFailed
    | WriteFailed
    | ReadFailed
    | LoginResponseTooShort
    | NoStatusResponse
    | NoRenameResponse
    | InvalidNameLength(length: nat)
    | CommandNotConfirmed(target: DeviceState)

  // ---------------------------------------------------------------------
  // Request templates, exactly as the format strings lay them out.

  function LoginPacket(timestamp: string): string {
    "fef052000232a10000000000340001000000000000000000" + timestamp
      + "00000000000000000000f0fe00" + PAD_72_ZEROS + "00"
  }

  /** The part the three requests sent after login share: a header naming
      the request, the session id, the timestamp and the device id. */
  function SessionHeader(header: string, sessionId: string, timestamp: string, deviceId: string): string {
    header + sessionId + "340001000000000000000000" + timestamp
      + "00000000000000000000f0fe" + deviceId
  }

  function ControlPacket(sessionId: string, timestamp: string, deviceId: string, command: string): string {
    SessionHeader("fef05d0002320102", sessionId, timestamp, deviceId)
      + PAD_72_ZEROS + "000106000" + command + "00" + "00000000"
  }

  function StatusPacket(sessionId: string, timestamp: string, deviceId: string): string {
    SessionHeader("fef0300002320103", sessionId, timestamp, deviceId) + "00"
  }

  function RenamePacket(sessionId: string, timestamp: string, deviceId: string, nameHex: string): string {
    SessionHeader("fef0740002320202", sessionId, timestamp, deviceId) + PAD_72_ZEROS + "00" + nameHex
  }

  /** `string_to_hexadecimal_device_name`: a name of 2 to 32 bytes becomes
      its hex followed by zero bytes up to 32 bytes; any other length is
      refused. The length is the name's UTF-8 byte count. */
  function NameToHex(name: seq<Byte>): (r: Result<string, Error>)
    ensures r.Ok? <==> MIN_NAME_LENGTH <= |name| <= MAX_NAME_LENGTH
    ensures r.Err? ==> r.error == InvalidNameLength(|name|)
    ensures r.Ok? ==> |r.value| == NAME_FIELD_HEX_LENGTH && IsLowerHex(r.value)
    ensures r.Ok? ==> r.value == Encode(name + Repeat<Byte>([0], MAX_NAME_LENGTH - |name|))
  {
    if |name| < MIN_NAME_LENGTH || |name| > MAX_NAME_LENGTH then Err(InvalidNameLength(|name|))
    else
      var hexName := Encode(name);
      var zerosNeeded := NAME_FIELD_HEX_LENGTH - |hexName|;
      assert zerosNeeded / 2 == MAX_NAME_LENGTH - |name|;
      ZeroPadEncodes(zerosNeeded / 2);
      EncodeAppend(name, Repeat<Byte>([0], zerosNeeded / 2));
      EncodeIsLowerHex(name + Repeat<Byte>([0], zerosNeeded / 2));
      Ok(hexName + Repeat("00", zerosNeeded / 2))
  }

  /** `build_set_name_packet`: the name is validated first. */
  function SetNamePacket(sessionId: string, timestamp: string, deviceId: string, newName: seq<Byte>): (r: Result<string, Error>)
    ensures r.Ok? <==> NameToHex(newName).Ok?
    ensures r.Err? ==> r.error == InvalidNameLength(|newName|)
    ensures r.Ok? ==> r.value == RenamePacket(sessionId, timestamp, deviceId, NameToHex(newName).value)
  {
    match NameToHex(newName)
    case Err(e) => Err(e)
    case Ok(nameHex) => Ok(RenamePacket(sessionId, timestamp, deviceId, nameHex))
  }

  // ---------------------------------------------------------------------
  // Signing

  /** The hex of `(crc as u32).to_be_bytes()` is "0000" and the digest's two
      bytes; its last two pairs, swapped, give the digest low byte first. */
  function SlicedCrcHex(crc: Register): (s: string)
    ensures s == Encode([crc % 0x100, crc / 0x100])
  {
    var h := Encode([0, 0, crc / 0x100, crc % 0x100]);
    EncodeFour(0, 0, crc / 0x100, crc % 0x100);
    EncodeAppend([crc % 0x100], [crc / 0x100]);
    EncodeOne(crc % 0x100);
    EncodeOne(crc / 0x100);
    assert [crc % 0x100] + [crc / 0x100] == [crc % 0x100, crc / 0x100];
    h[6..8] + h[4..6]
  }

  /** `sign_packet`. The payload must be valid hex: the source unwraps its
      decoding. */
  function SignPacket(hexPacket: string): (signed: string)
    requires Decode(hexPacket).Some?
    ensures |signed| == |hexPacket| + 8 && signed[..|hexPacket|] == hexPacket
  {
    var binaryPacket := Decode(hexPacket).value;
    var packetCrc := Checksum(SIGNING_SEED, binaryPacket);
    var packetCrcSliced := SlicedCrcHex(packetCrc);
    var keyHex := packetCrcSliced + KEY_FILLER_HEX;
    KeyDecodes(packetCrc);
    var binaryKey := Decode(keyHex).value;
    var keyCrc := Checksum(SIGNING_SEED, binaryKey);
    hexPacket + packetCrcSliced + SlicedCrcHex(keyCrc)
  }

  /** The 34-byte buffer the second CRC runs over. */
  function SigningKey(packetCrc: Register): (key: seq<Byte>)
    ensures |key| == 34
  {
    [packetCrc % 0x100, packetCrc / 0x100] + Repeat<Byte>([0x30], 32)
  }

  lemma KeyDecodes(packetCrc: Register)
    ensures Decode(SlicedCrcHex(packetCrc) + KEY_FILLER_HEX) == Some(SigningKey(packetCrc))
  {
    EncodeRepeat(0x30, 32);
    assert EncodeByte(0x30) == "30";
    EncodeAppend([packetCrc % 0x100, packetCrc / 0x100], Repeat<Byte>([0x30], 32));
    DecodeEncode(SigningKey(packetCrc));
  }

  /** The four signature bytes of a payload, read straight off the bytes:
      the payload's CRC low byte first, then the CRC of `SigningKey`, low
      byte first. */
  function Signature(payload: seq<Byte>): (sig: seq<Byte>)
    ensures |sig| == 4
  {
    var c1 := Checksum(SIGNING_SEED, payload);
    var c2 := Checksum(SIGNING_SEED, SigningKey(c1));
    var lo1: Byte, hi1: Byte, lo2: Byte, hi2: Byte := c1 % 0x100, c1 / 0x100, c2 % 0x100, c2 / 0x100;
    [lo1, hi1, lo2, hi2]
  }

  /** What a receiver would check: the last four bytes are the signature
      of everything before them. */
  predicate Authentic(wire: seq<Byte>) {
    |wire| >= 4 && wire[|wire| - 4..] == Signature(wire[..|wire| - 4])
  }

  /** On the wire a signed packet is the payload followed by its four
      signature bytes. */
  lemma SignPacketWire(hexPacket: string)
    requires Decode(hexPacket).Some?
    ensures Decode(SignPacket(hexPacket))
         == Some(Decode(hexPacket).value + Signature(Decode(hexPacket).value))
  {
    var sig := Signature(Decode(hexPacket).value);
    SignPacketText(hexPacket);
    DecodeEncode(sig);
    DecodeAppend(hexPacket, Encode(sig));
  }

  /** As text, signing appends the hex of the signature. */
  lemma SignPacketText(hexPacket: string)
    requires Decode(hexPacket).Some?
    ensures SignPacket(hexPacket) == hexPacket + Encode(Signature(Decode(hexPacket).value))
  {
    var payload := Decode(hexPacket).value;
    var c1 := Checksum(SIGNING_SEED, payload);
    var s1, s2 := SlicedCrcHex(c1), SlicedCrcHex(Checksum(SIGNING_SEED, SigningKey(c1)));
    SignPacketParts(hexPacket);
    SignatureEncodes(payload);
    AppendAssoc(hexPacket, s1, s2);
  }

  /** The hex of the signature is the two sliced digests. */
  lemma SignatureEncodes(payload: seq<Byte>)
    ensures var c1 := Checksum(SIGNING_SEED, payload);
      Encode(Signature(payload)) == SlicedCrcHex(c1) + SlicedCrcHex(Checksum(SIGNING_SEED, SigningKey(c1)))
  {
    var c1 := Checksum(SIGNING_SEED, payload);
    var c2 := Checksum(SIGNING_SEED, SigningKey(c1));
    SignatureBytes(payload);
    SignatureText(c1, c2);
  }

  lemma SignPacketParts(hexPacket: string)
    requires Decode(hexPacket).Some?
    ensures var c1 := Checksum(SIGNING_SEED, Decode(hexPacket).value);
      SignPacket(hexPacket)
      == hexPacket + SlicedCrcHex(c1) + SlicedCrcHex(Checksum(SIGNING_SEED, SigningKey(c1)))
  {
    var c1 := Checksum(SIGNING_SEED, Decode(hexPacket).value);
    KeyDecodes(c1);
  }

  lemma SignatureBytes(payload: seq<Byte>)
    ensures var c1 := Checksum(SIGNING_SEED, payload);
      var c2 := Checksum(SIGNING_SEED, SigningKey(c1));
      Signature(payload) == [c1 % 0x100, c1 / 0x100, c2 % 0x100, c2 / 0x100]
  {
  }

  lemma SignatureText(c1: Register, c2: Register)
    ensures Encode([c1 % 0x100, c1 / 0x100, c2 % 0x100, c2 / 0x100]) == SlicedCrcHex(c1) + SlicedCrcHex(c2)
  {
    assert [c1 % 0x100, c1 / 0x100, c2 % 0x100, c2 / 0x100] == [c1 % 0x100, c1 / 0x100] + [c2 % 0x100, c2 / 0x100];
    EncodeAppend([c1 % 0x100, c1 / 0x100], [c2 % 0x100, c2 / 0x100]);
  }

  lemma SignedPacketsAuthentic(hexPacket: string)
    requires Decode(hexPacket).Some?
    ensures Decode(SignPacket(hexPacket)).Some?
    ensures Authentic(Decode(SignPacket(hexPacket)).value)
  {
    SignPacketWire(hexPacket);
    var payload := Decode(hexPacket).value;
    var wire := payload + Signature(payload);
    assert wire[..|wire| - 4] == payload;
    assert wire[|wire| - 4..] == Signature(payload);
  }

  /** A signature stays bound to its payload: replacing any one payload byte
      by a different value invalidates it. */
  lemma TamperedPayloadRejected(prefix: seq<Byte>, x: Byte, y: Byte, suffix: seq<Byte>)
    requires x != y
    ensures !Authentic(prefix + [y] + suffix + Signature(prefix + [x] + suffix))
  {
    var original := prefix + [x] + suffix;
    var tampered := prefix + [y] + suffix;
    var wire := tampered + Signature(original);
    assert wire[..|wire| - 4] == tampered;
    assert wire[|wire| - 4..] == Signature(original);
    SingleByteChangeDetected(SIGNING_SEED, prefix, x, y, suffix);
    var c, d := Checksum(SIGNING_SEED, original), Checksum(SIGNING_SEED, tampered);
    assert c == c / 0x100 * 0x100 + c % 0x100;
    assert d == d / 0x100 * 0x100 + d % 0x100;
  }

  // ---------------------------------------------------------------------
  // Shape of the requests

  /** The constant parts of the templates are hex. */
  lemma TemplateTextIsHex()
    ensures IsHex("fef052000232a10000000000340001000000000000000000")
    ensures IsHex("00000000000000000000f0fe00") && IsHex("00000000000000000000f0fe")
    ensures IsHex("340001000000000000000000") && IsHex(PAD_72_ZEROS)
    ensures IsHex("fef05d0002320102") && IsHex("fef0300002320103") && IsHex("fef0740002320202")
    ensures IsHex("000106000") && IsHex("00") && IsHex("00000000")
  {
    LoginHeadIsHex();
    GapIsHex();
    PadIsHex();
    HeadersAreHex();
  }

  lemma GapIsHex()
    ensures IsHex("00000000000000000000f0fe00") && IsHex("00000000000000000000f0fe")
  {
  }

  lemma PadIsHex()
    ensures IsHex(PAD_72_ZEROS)
  {
    assert IsHex("0");
    HexRepeat("0", 72);
  }

  lemma HeadersAreHex()
    ensures IsHex("fef05d0002320102") && IsHex("fef0300002320103") && IsHex("fef0740002320202")
    ensures IsHex("000106000") && IsHex("00") && IsHex("00000000")
  {
  }

  lemma LoginHeadIsHex()
    ensures IsHex("340001000000000000000000")
    ensures IsHex("fef052000232a10000000000340001000000000000000000")
  {
    var head := "fef052000232a10000000000";
    var tail := "340001000000000000000000";
    assert IsHex(head);
    assert IsHex(tail);
    HexAppend(head, tail);
    assert head + tail == "fef052000232a10000000000340001000000000000000000";
  }

  /** A one-character command; the controller sends "1" or "0". */
  predicate IsCommand(command: string) {
    command == ON_COMMAND || command == OFF_COMMAND
  }

  /** Hex fields of even length make every request valid hex, so the
      decoding `sign_packet` unwraps cannot fail. */
  lemma TemplatesDecode(sessionId: string, timestamp: string, deviceId: string, command: string, nameHex: string)
    requires IsHex(sessionId) && IsHex(timestamp) && IsHex(deviceId) && IsHex(nameHex)
    requires |sessionId| % 2 == 0 && |timestamp| % 2 == 0 && |deviceId| % 2 == 0 && |nameHex| % 2 == 0
    requires IsCommand(command)
    ensures Decode(LoginPacket(timestamp)).Some?
    ensures Decode(StatusPacket(sessionId, timestamp, deviceId)).Some?
    ensures Decode(ControlPacket(sessionId, timestamp, deviceId, command)).Some?
    ensures Decode(RenamePacket(sessionId, timestamp, deviceId, nameHex)).Some?
  {
    LoginDecodes(timestamp);
    StatusDecodes(sessionId, timestamp, deviceId);
    ControlDecodes(sessionId, timestamp, deviceId, command);
    RenameDecodes(sessionId, timestamp, deviceId, nameHex);
  }

  lemma LoginDecodes(timestamp: string)
    requires IsHex(timestamp) && |timestamp| % 2 == 0
    ensures Decode(LoginPacket(timestamp)).Some?
  {
    LoginHeadIsHex();
    GapIsHex();
    PadIsHex();
    var head := "fef052000232a10000000000340001000000000000000000";
    HexAppend(head, timestamp);
    HexAppend(head + timestamp, "00000000000000000000f0fe00");
    HexAppend(head + timestamp + "00000000000000000000f0fe00", PAD_72_ZEROS);
    assert IsHex("00");
    HexAppend(head + timestamp + "00000000000000000000f0fe00" + PAD_72_ZEROS, "00");
    DecodeDefined(LoginPacket(timestamp));
  }

  lemma StatusDecodes(sessionId: string, timestamp: string, deviceId: string)
    requires IsHex(sessionId) && IsHex(timestamp) && IsHex(deviceId)
    requires |sessionId| % 2 == 0 && |timestamp| % 2 == 0 && |deviceId| % 2 == 0
    ensures Decode(StatusPacket(sessionId, timestamp, deviceId)).Some?
  {
    HeadersAreHex();
    var h := SessionHeader("fef0300002320103", sessionId, timestamp, deviceId);
    SessionHeaderHex("fef0300002320103", sessionId, timestamp, deviceId);
    HexAppend(h, "00");
    DecodeDefined(StatusPacket(sessionId, timestamp, deviceId));
  }

  lemma ControlDecodes(sessionId: string, timestamp: string, deviceId: string, command: string)
    requires IsHex(sessionId) && IsHex(timestamp) && IsHex(deviceId) && IsCommand(command)
    requires |sessionId| % 2 == 0 && |timestamp| % 2 == 0 && |deviceId| % 2 == 0
    ensures Decode(ControlPacket(sessionId, timestamp, deviceId, command)).Some?
  {
    HeadersAreHex();
    PadIsHex();
    assert IsHex(command);
    var h := SessionHeader("fef05d0002320102", sessionId, timestamp, deviceId);
    SessionHeaderHex("fef05d0002320102", sessionId, timestamp, deviceId);
    var a := h + PAD_72_ZEROS;
    HexAppend(h, PAD_72_ZEROS);
    var b := a + "000106000";
    HexAppend(a, "000106000");
    var c := b + command;
    HexAppend(b, command);
    var d := c + "00";
    HexAppend(c, "00");
    var p := d + "00000000";
    HexAppend(d, "00000000");
    assert |p| % 2 == 0;
    assert p == ControlPacket(sessionId, timestamp, deviceId, command);
    DecodeDefined(p);
  }

  lemma RenameDecodes(sessionId: string, timestamp: string, deviceId: string, nameHex: string)
    requires IsHex(sessionId) && IsHex(timestamp) && IsHex(deviceId) && IsHex(nameHex)
    requires |sessionId| % 2 == 0 && |timestamp| % 2 == 0 && |deviceId| % 2 == 0 && |nameHex| % 2 == 0
    ensures Decode(RenamePacket(sessionId, timestamp, deviceId, nameHex)).Some?
  {
    HeadersAreHex();
    PadIsHex();
    var h := SessionHeader("fef0740002320202", sessionId, timestamp, deviceId);
    SessionHeaderHex("fef0740002320202", sessionId, timestamp, deviceId);
    var a := h + PAD_72_ZEROS;
    HexAppend(h, PAD_72_ZEROS);
    var b := a + "00";
    HexAppend(a, "00");
    var p := b + nameHex;
    HexAppend(b, nameHex);
    assert |p| % 2 == 0;
    assert p == RenamePacket(sessionId, timestamp, deviceId, nameHex);
    DecodeDefined(p);
  }

  lemma SessionHeaderHex(header: string, sessionId: string, timestamp: string, deviceId: string)
    requires IsHex(header) && IsHex(sessionId) && IsHex(timestamp) && IsHex(deviceId)
    ensures IsHex(SessionHeader(header, sessionId, timestamp, deviceId))
  {
    LoginHeadIsHex();
    GapIsHex();
    var tail, gap := "340001000000000000000000", "00000000000000000000f0fe";
    HexAppend(header, sessionId);
    HexAppend(header + sessionId, tail);
    HexAppend(header + sessionId + tail, timestamp);
    HexAppend(header + sessionId + tail + timestamp, gap);
    HexAppend(header + sessionId + tail + timestamp + gap, deviceId);
  }

  /** With a 16-character header, an 8-character session id and timestamp
      and a 6-character device id, the shared part is 86 characters with
      each field at a fixed offset. */
  lemma SessionHeaderLayout(header: string, sessionId: string, timestamp: string, deviceId: string)
    requires |header| == 16 && |sessionId| == 8 && |timestamp| == 8 && |deviceId| == 6
    ensures var h := SessionHeader(header, sessionId, timestamp, deviceId);
      |h| == 86 && h[..16] == header && h[16..24] == sessionId && h[48..56] == timestamp
      && h[80..86] == deviceId
  {
    var tail, gap := "340001000000000000000000", "00000000000000000000f0fe";
    var a := header + sessionId;
    var b := a + tail + timestamp;
    var c := b + gap;
    assert a[16..24] == sessionId;
    assert (a + tail + timestamp)[16..24] == a[16..24];
    assert (b + gap + deviceId)[16..24] == b[16..24];
    assert b[48..56] == timestamp;
    assert (b + gap + deviceId)[48..56] == b[48..56];
    assert (c + deviceId)[80..86] == deviceId;
    assert (b + gap + deviceId)[..16] == header;
  }

  /** With an 8-character session id and timestamp and a 6-character
      device id, the requests are 156 (login), 88 (status), 178 (control)
      and 224 (rename) hex characters long; the session id, timestamp and
      device id sit at characters 16, 48 and 80, the command at 167 and the
      name field at 160..224. */
  lemma TemplateLayout(sessionId: string, timestamp: string, deviceId: string, command: string, nameHex: string)
    requires |sessionId| == 8 && |timestamp| == 8 && |deviceId| == 6 && |command| == 1
    requires |nameHex| == NAME_FIELD_HEX_LENGTH
    ensures var p := LoginPacket(timestamp);
      |p| == 156 && p[48..56] == timestamp
    ensures var p := StatusPacket(sessionId, timestamp, deviceId);
      |p| == 88 && p[16..24] == sessionId && p[48..56] == timestamp && p[80..86] == deviceId
    ensures var p := ControlPacket(sessionId, timestamp, deviceId, command);
      |p| == 178 && p[16..24] == sessionId && p[48..56] == timestamp && p[80..86] == deviceId
      && p[167..168] == command
    ensures var p := RenamePacket(sessionId, timestamp, deviceId, nameHex);
      |p| == 224 && p[16..24] == sessionId && p[48..56] == timestamp && p[80..86] == deviceId
      && p[160..224] == nameHex
  {
    LoginLayout(timestamp);
    SessionLayout("fef0300002320103", sessionId, timestamp, deviceId, "00");
    ControlLayout(sessionId, timestamp, deviceId, command);
    RenameLayout(sessionId, timestamp, deviceId, nameHex);
  }

  lemma LoginLayout(timestamp: string)
    requires |timestamp| == 8
    ensures var p := LoginPacket(timestamp);
      |p| == 156 && p[48..56] == timestamp
  {
    var head := "fef052000232a10000000000340001000000000000000000";
    var tail := "00000000000000000000f0fe00" + PAD_72_ZEROS + "00";
    assert |tail| == 100;
    var a := head + timestamp;
    assert a[48..56] == timestamp;
    var p := a + "00000000000000000000f0fe00" + PAD_72_ZEROS + "00";
    assert p == LoginPacket(timestamp);
    assert p[48..56] == a[48..56];
  }

  lemma ControlLayout(sessionId: string, timestamp: string, deviceId: string, command: string)
    requires |sessionId| == 8 && |timestamp| == 8 && |deviceId| == 6 && |command| == 1
    ensures var p := ControlPacket(sessionId, timestamp, deviceId, command);
      |p| == 178 && p[16..24] == sessionId && p[48..56] == timestamp && p[80..86] == deviceId
      && p[167..168] == command
  {
    SessionLayout("fef05d0002320102", sessionId, timestamp, deviceId,
                  PAD_72_ZEROS + "000106000" + command + "00" + "00000000");
    var h := SessionHeader("fef05d0002320102", sessionId, timestamp, deviceId);
    var a := h + PAD_72_ZEROS + "000106000" + command;
    assert |a| == 168 && a[167..168] == command;
    var p := a + "00" + "00000000";
    assert p == ControlPacket(sessionId, timestamp, deviceId, command);
    assert p[167..168] == a[167..168];
  }

  lemma RenameLayout(sessionId: string, timestamp: string, deviceId: string, nameHex: string)
    requires |sessionId| == 8 && |timestamp| == 8 && |deviceId| == 6
    requires |nameHex| == NAME_FIELD_HEX_LENGTH
    ensures var p := RenamePacket(sessionId, timestamp, deviceId, nameHex);
      |p| == 224 && p[16..24] == sessionId && p[48..56] == timestamp && p[80..86] == deviceId
      && p[160..224] == nameHex
  {
    SessionLayout("fef0740002320202", sessionId, timestamp, deviceId, PAD_72_ZEROS + "00" + nameHex);
    var r := SessionHeader("fef0740002320202", sessionId, timestamp, deviceId) + PAD_72_ZEROS + "00";
    assert |r| == 160 && (r + nameHex)[160..224] == nameHex;
    assert r + nameHex == RenamePacket(sessionId, timestamp, deviceId, nameHex);
  }

  /** The control and rename requests are the session header followed by
      a request-specific tail. */
  lemma PacketsSplit(sessionId: string, timestamp: string, deviceId: string, command: string, nameHex: string)
    ensures ControlPacket(sessionId, timestamp, deviceId, command)
         == SessionHeader("fef05d0002320102", sessionId, timestamp, deviceId)
            + (PAD_72_ZEROS + "000106000" + command + "00" + "00000000")
    ensures RenamePacket(sessionId, timestamp, deviceId, nameHex)
         == SessionHeader("fef0740002320202", sessionId, timestamp, deviceId) + (PAD_72_ZEROS + "00" + nameHex)
  {
    var h := SessionHeader("fef05d0002320102", sessionId, timestamp, deviceId);
    var tail := PAD_72_ZEROS + "000106000" + command + "00" + "00000000";
    calc {
      ControlPacket(sessionId, timestamp, deviceId, command);
      h + PAD_72_ZEROS + "000106000" + command + "00" + "00000000";
      { assert h + PAD_72_ZEROS + "000106000" == h + (PAD_72_ZEROS + "000106000"); }
      h + (PAD_72_ZEROS + "000106000") + command + "00" + "00000000";
      { assert h + (PAD_72_ZEROS + "000106000") + command == h + (PAD_72_ZEROS + "000106000" + command); }
      h + (PAD_72_ZEROS + "000106000" + command) + "00" + "00000000";
      { assert h + (PAD_72_ZEROS + "000106000" + command) + "00" == h + (PAD_72_ZEROS + "000106000" + command + "00"); }
      h + (PAD_72_ZEROS + "000106000" + command + "00") + "00000000";
      h + tail;
    }
    var r := SessionHeader("fef0740002320202", sessionId, timestamp, deviceId);
    calc {
      RenamePacket(sessionId, timestamp, deviceId, nameHex);
      r + PAD_72_ZEROS + "00" + nameHex;
      { assert r + PAD_72_ZEROS + "00" == r + (PAD_72_ZEROS + "00"); }
      r + (PAD_72_ZEROS + "00") + nameHex;
      r + (PAD_72_ZEROS + "00" + nameHex);
    }
  }

  /** Every request after login carries the session id in bytes 8..12,
      the timestamp in bytes 24..28 and the device id in bytes 40..43. */
  lemma SessionFields(header: string, sessionId: string, timestamp: string, deviceId: string, rest: string)
    requires |header| == 16 && |sessionId| == 8 && |timestamp| == 8 && |deviceId| == 6
    requires Decode(SessionHeader(header, sessionId, timestamp, deviceId) + rest).Some?
    ensures var b := Decode(SessionHeader(header, sessionId, timestamp, deviceId) + rest).value;
      Decode(sessionId) == Some(b[8..12]) && Decode(timestamp) == Some(b[24..28])
      && Decode(deviceId) == Some(b[40..43])
  {
    var p := SessionHeader(header, sessionId, timestamp, deviceId) + rest;
    SessionLayout(header, sessionId, timestamp, deviceId, rest);
    DecodeSlice(p, 8, 12);
    DecodeSlice(p, 24, 28);
    DecodeSlice(p, 40, 43);
  }

  /** The login request carries the timestamp in bytes 24..28. */
  lemma LoginFields(timestamp: string)
    requires |timestamp| == 8 && IsHex(timestamp)
    ensures Decode(LoginPacket(timestamp)).Some?
    ensures Decode(timestamp) == Some(Decode(LoginPacket(timestamp)).value[24..28])
  {
    LoginDecodes(timestamp);
    LoginLayout(timestamp);
    DecodeSlice(LoginPacket(timestamp), 24, 28);
  }

  /** The control request carries the command as the byte "00" or "01"
      at characters 166..168. */
  lemma CommandField(sessionId: string, timestamp: string, deviceId: string, command: string)
    requires |sessionId| == 8 && |timestamp| == 8 && |deviceId| == 6 && IsCommand(command)
    ensures var p := ControlPacket(sessionId, timestamp, deviceId, command);
      |p| == 178 && p[166..168] == "0" + command
  {
    var h := SessionHeader("fef05d0002320102", sessionId, timestamp, deviceId);
    SessionHeaderLayout("fef05d0002320102", sessionId, timestamp, deviceId);
    var x := h + PAD_72_ZEROS + "000106000";
    assert |x| == 167 && x[166] == '0';
    var p := x + command + "00" + "00000000";
    assert p == ControlPacket(sessionId, timestamp, deviceId, command);
    assert p[166] == x[166] && p[167] == command[0];
  }

  lemma SessionLayout(header: string, sessionId: string, timestamp: string, deviceId: string, rest: string)
    requires |header| == 16 && |sessionId| == 8 && |timestamp| == 8 && |deviceId| == 6
    ensures var p := SessionHeader(header, sessionId, timestamp, deviceId) + rest;
      |p| == 86 + |rest| && p[..6] == header[..6] && p[16..24] == sessionId && p[48..56] == timestamp
      && p[80..86] == deviceId
  {
    var h := SessionHeader(header, sessionId, timestamp, deviceId);
    SessionHeaderLayout(header, sessionId, timestamp, deviceId);
    assert (h + rest)[16..24] == h[16..24];
    assert (h + rest)[48..56] == h[48..56];
    assert (h + rest)[80..86] == h[80..86];
    assert (h + rest)[..6] == h[..16][..6];
  }

  /** Byte 2 of every signed request is its own length in bytes: 0x52 for
      login, 0x30 for status, 0x5d for control and 0x74 for rename. */
  lemma LoginLengthField(timestamp: string)
    requires |timestamp| == 8 && IsHex(timestamp)
    ensures Decode(LoginPacket(timestamp)).Some?
    ensures Decode(SignPacket(LoginPacket(timestamp))).Some?
    ensures var w := Decode(SignPacket(LoginPacket(timestamp))).value;
      |w| == w[2] == 0x52
  {
    LoginDecodes(timestamp);
    var p := LoginPacket(timestamp);
    var head := "fef052000232a10000000000340001000000000000000000";
    assert head[4] == '5' && head[5] == '2';
    KeepsHead(head, timestamp);
    KeepsHead(head + timestamp, "00000000000000000000f0fe00");
    KeepsHead(head + timestamp + "00000000000000000000f0fe00", PAD_72_ZEROS);
    KeepsHead(head + timestamp + "00000000000000000000f0fe00" + PAD_72_ZEROS, "00");
    HeaderDigits();
    LengthByte(p, 0x52);
  }

  lemma StatusLengthField(sessionId: string, timestamp: string, deviceId: string)
    requires |sessionId| == 8 && |timestamp| == 8 && |deviceId| == 6
    requires IsHex(sessionId) && IsHex(timestamp) && IsHex(deviceId)
    ensures Decode(StatusPacket(sessionId, timestamp, deviceId)).Some?
    ensures Decode(SignPacket(StatusPacket(sessionId, timestamp, deviceId))).Some?
    ensures var w := Decode(SignPacket(StatusPacket(sessionId, timestamp, deviceId))).value;
      |w| == w[2] == 0x30
  {
    StatusDecodes(sessionId, timestamp, deviceId);
    var p := StatusPacket(sessionId, timestamp, deviceId);
    SessionLayout("fef0300002320103", sessionId, timestamp, deviceId, "00");
    assert p[4] == p[..6][4] && p[5] == p[..6][5];
    HeaderDigits();
    LengthByte(p, 0x30);
  }

  lemma ControlLengthField(sessionId: string, timestamp: string, deviceId: string, command: string)
    requires |sessionId| == 8 && |timestamp| == 8 && |deviceId| == 6
    requires IsHex(sessionId) && IsHex(timestamp) && IsHex(deviceId) && IsCommand(command)
    ensures Decode(ControlPacket(sessionId, timestamp, deviceId, command)).Some?
    ensures Decode(SignPacket(ControlPacket(sessionId, timestamp, deviceId, command))).Some?
    ensures var w := Decode(SignPacket(ControlPacket(sessionId, timestamp, deviceId, command))).value;
      |w| == w[2] == 0x5d
  {
    ControlDecodes(sessionId, timestamp, deviceId, command);
    var p := ControlPacket(sessionId, timestamp, deviceId, command);
    SessionLayout("fef05d0002320102", sessionId, timestamp, deviceId,
                  PAD_72_ZEROS + "000106000" + command + "00" + "00000000");
    assert p[4] == p[..6][4] && p[5] == p[..6][5];
    HeaderDigits();
    LengthByte(p, 0x5d);
  }

  lemma RenameLengthField(sessionId: string, timestamp: string, deviceId: string, nameHex: string)
    requires |sessionId| == 8 && |timestamp| == 8 && |deviceId| == 6 && |nameHex| == NAME_FIELD_HEX_LENGTH
    requires IsHex(sessionId) && IsHex(timestamp) && IsHex(deviceId) && IsHex(nameHex)
    ensures Decode(RenamePacket(sessionId, timestamp, deviceId, nameHex)).Some?
    ensures Decode(SignPacket(RenamePacket(sessionId, timestamp, deviceId, nameHex))).Some?
    ensures var w := Decode(SignPacket(RenamePacket(sessionId, timestamp, deviceId, nameHex))).value;
      |w| == w[2] == 0x74
  {
    RenameDecodes(sessionId, timestamp, deviceId, nameHex);
    var p := RenamePacket(sessionId, timestamp, deviceId, nameHex);
    SessionLayout("fef0740002320202", sessionId, timestamp, deviceId, PAD_72_ZEROS + "00" + nameHex);
    assert p[4] == p[..6][4] && p[5] == p[..6][5];
    HeaderDigits();
    LengthByte(p, 0x74);
  }

  lemma KeepsHead(s: string, t: string)
    requires |s| >= 6
    ensures (s + t)[4] == s[4] && (s + t)[5] == s[5]
  {
  }

  lemma HeaderDigits()
    ensures Digit('5') * 16 + Digit('2') == 0x52 && Digit('3') * 16 + Digit('0') == 0x30
    ensures Digit('5') * 16 + Digit('d') == 0x5d && Digit('7') * 16 + Digit('4') == 0x74
  {
  }

  /** Byte 2 of a signed packet is read from characters 4 and 5 of the
      payload, which the signature leaves in place. */
  lemma LengthByte(hexPacket: string, n: Byte)
    requires Decode(hexPacket).Some? && |hexPacket| + 8 == 2 * n && |hexPacket| >= 6
    requires Digit(hexPacket[4]) * 16 + Digit(hexPacket[5]) == n
    ensures Decode(SignPacket(hexPacket)).Some?
    ensures var w := Decode(SignPacket(hexPacket)).value;
      |w| == w[2] == n
  {
    var signed := SignPacket(hexPacket);
    SignPacketWire(hexPacket);
    assert Decode(signed).Some?;
    assert signed[..|hexPacket|] == hexPacket;
    assert signed[4] == hexPacket[4] && signed[5] == hexPacket[5];
    assert |Decode(signed).value| * 2 == |signed|;
    DecodeAt(signed, 2);
  }

  /** The name field of an accepted name decodes to the name followed by
      zero bytes up to 32 bytes. */
  lemma NameFieldBytes(name: seq<Byte>)
    requires MIN_NAME_LENGTH <= |name| <= MAX_NAME_LENGTH
    ensures Decode(NameToHex(name).value) == Some(name + Repeat<Byte>([0], MAX_NAME_LENGTH - |name|))
  {
    DecodeEncode(name + Repeat<Byte>([0], MAX_NAME_LENGTH - |name|));
  }

  lemma ZeroPadEncodes(k: nat)
    ensures Encode(Repeat<Byte>([0], k)) == Repeat("00", k)
  {
    assert EncodeByte(0) == "00";
    EncodeRepeat(0, k);
  }

  /** A name without zero bytes set through the rename packet's 32-byte
      field reads back unchanged by the truncation at the first zero that
      the discovery decoder applies to the same field. */
  lemma NameFieldReadsBack(name: seq<Byte>)
    requires MIN_NAME_LENGTH <= |name| <= MAX_NAME_LENGTH
    requires forall i :: 0 <= i < |name| ==> name[i] != 0
    ensures Decode(NameToHex(name).value).Some?
    ensures var field := Decode(NameToHex(name).value).value;
      |field| == MAX_NAME_LENGTH && field[..NulPosition(field)] == name
  {
    NameFieldBytes(name);
    var field := Decode(NameToHex(name).value).value;
    var padding := Repeat<Byte>([0], MAX_NAME_LENGTH - |name|);
    assert field == name + padding;
    var n := NulPosition(field);
    assert forall i :: 0 <= i < |name| ==> field[i] == name[i];
    assert n <= |name| by {
      if |name| < |field| {
        assert field[|name|] == padding[0] == 0;
      }
    }
  }

  // ---------------------------------------------------------------------
  // Replies

  /** The login reply must hold at least 20 bytes; the session id is the hex
      of bytes 16..20. */
  function ParseLoginResponse(response: seq<Byte>): (r: Result<string, Error>)
    ensures r.Ok? <==> |response| >= MIN_LOGIN_RESPONSE_LEN
    ensures r.Err? ==> r.error == LoginResponseTooShort
    ensures r.Ok? ==> |r.value| == 8 && IsLowerHex(r.value) && Decode(r.value) == Some(response[16..20])
  {
    if |response| < MIN_LOGIN_RESPONSE_LEN then Err(LoginResponseTooShort)
    else
      DecodeEncode(response[16..20]);
      EncodeIsLowerHex(response[16..20]);
      Ok(Encode(response[16..20]))
  }

  /** The status reply must hold at least 50 bytes. The state is byte 75
      when the reply reaches it and off otherwise; the power is the
      little-endian `u16` at bytes 77 and 78 when the reply reaches them and
      zero otherwise. */
  function ParseStatusResponse(response: seq<Byte>): (r: Result<DeviceStatus, Error>)
    ensures r.Ok? <==> |response| >= MIN_STATUS_RESPONSE_LEN
    ensures r.Err? ==> r.error == NoStatusResponse
    ensures r.Ok? ==> r.value.powerConsumption < U16_LIMIT
  {
    if |response| < MIN_STATUS_RESPONSE_LEN then Err(NoStatusResponse)
    else
      var state :=
        if |response| > DEVICE_STATE_BYTE_POS then
          match response[DEVICE_STATE_BYTE_POS]
          case 0x01 => On
          case 0x00 => Off
          case _ => Unknown
        else Off;
      var power :=
        if |response| > POWER_BYTE_POS + 1 then
          response[POWER_BYTE_POS] as int + 0x100 * response[POWER_BYTE_POS + 1] as int
        else 0;
      Ok(DeviceStatus(state, power))
  }

  /** The byte a plug reports for a known state. */
  function StateByte(state: DeviceState): Byte
    requires state != Unknown
  {
    if state == On then 0x01 else 0x00
  }

  /** A full-length status reply carrying `state` and `power`: `frame`
      supplies every other byte. */
  function StatusReply(frame: seq<Byte>, state: DeviceState, power: nat): (reply: seq<Byte>)
    requires |frame| > POWER_BYTE_POS + 1 && state != Unknown && power < U16_LIMIT
    ensures |reply| == |frame|
  {
    frame[..DEVICE_STATE_BYTE_POS] + [StateByte(state), frame[DEVICE_STATE_BYTE_POS + 1]]
      + [power % 0x100, power / 0x100] + frame[POWER_BYTE_POS + 2..]
  }

  /** Parsing a reply that carries a state and a power reading gives them
      back. */
  lemma StatusReplyRoundTrip(frame: seq<Byte>, state: DeviceState, power: nat)
    requires |frame| > POWER_BYTE_POS + 1 && state != Unknown && power < U16_LIMIT
    ensures ParseStatusResponse(StatusReply(frame, state, power)) == Ok(DeviceStatus(state, power))
  {
    var reply := StatusReply(frame, state, power);
    assert reply[75] == StateByte(state);
    assert reply[77] == power % 0x100 && reply[78] == power / 0x100;
  }

  /** How each field of an accepted reply is read, whatever its length:
      byte 75, when present, is 1 for on, 0 for off and anything else
      unknown, and its absence reads as off; bytes 77 and 78, when both
      present, are the power little-endian, and their absence reads as
      zero. */
  lemma StatusFallbacks(response: seq<Byte>)
    requires |response| >= MIN_STATUS_RESPONSE_LEN
    ensures |response| <= DEVICE_STATE_BYTE_POS ==> ParseStatusResponse(response).value.state == Off
    ensures |response| > DEVICE_STATE_BYTE_POS && response[DEVICE_STATE_BYTE_POS] <= 1
        ==> ParseStatusResponse(response).value.state == (if response[DEVICE_STATE_BYTE_POS] == 1 then On else Off)
    ensures |response| > DEVICE_STATE_BYTE_POS && response[DEVICE_STATE_BYTE_POS] > 1
        ==> ParseStatusResponse(response).value.state == Unknown
    ensures |response| <= POWER_BYTE_POS + 1 ==> ParseStatusResponse(response).value.powerConsumption == 0
    ensures |response| > POWER_BYTE_POS + 1 ==>
      ParseStatusResponse(response).value.powerConsumption
      == response[POWER_BYTE_POS] as int + 256 * response[POWER_BYTE_POS + 1] as int
  {
  }

  /** The rename acknowledgement only has to be at least 20 bytes long. */
  function CheckRenameResponse(response: seq<Byte>): (r: Result<(), Error>)
    ensures r.Ok? <==> |response| >= MIN_RENAME_RESPONSE_LEN
    ensures r.Err? ==> r.error == NoRenameResponse
  {
    if |response| < MIN_RENAME_RESPONSE_LEN then Err(NoRenameResponse) else Ok(())
  }
}

=== FILE: crc16.dfy ===
/** The 16-bit CRC the packet signer uses: the CRC-16/XMODEM parameter set
    (generator polynomial 0x1021 of ITU-T V.41, most significant bit
    first, no input or output reflection, no final xor) computed bit by bit
    from a caller-chosen initial register. The client always starts from
    0x1021 instead of XMODEM's 0. Registers are naturals below 2^16 and the
    exclusive or is spelled out on their binary digits. */
module Crc16 {
  import opened Types

  type Register = r: int | 0 <= r < 0x1_0000

  /** x^16 + x^12 + x^5 + 1, with the x^16 term implicit. */
  const POLY: Register := 0x1021

  /** The initial register value used for both digests of a signature. */
  const SIGNING_SEED: Register := 0x1021

  function Pow2(n: nat): (r: nat)
    ensures r >= 1
  {
    if n == 0 then 1 else 2 * Pow2(n - 1)
  }

  lemma RegisterBound()
    ensures Pow2(16) == 0x1_0000
  {
    assert Pow2(4) == 16;
    assert Pow2(8) == 256;
    assert Pow2(12) == 4096;
  }

  /** Bitwise exclusive or of two naturals. */
  function Xor(a: nat, b: nat): nat
    decreases a + b
  {
    if a == 0 then b
    else if b == 0 then a
    else 2 * Xor(a / 2, b / 2) + (if a % 2 == b % 2 then 0 else 1)
  }

  /** One bit step of the shift register: shift left, and when a one falls
      out of the top, xor in the polynomial. */
  function ShiftBit(r: Register): Register {
    if r >= 0x8000 then
      RegisterBound();
      XorBound(2 * (r - 0x8000), POLY, 16);
      Xor(2 * (r - 0x8000), POLY)
    else 2 * r
  }

  function ShiftBits(r: Register, n: nat): Register
    decreases n
  {
    if n == 0 then r else ShiftBits(ShiftBit(r), n - 1)
  }

  /** A data byte enters the top half of the register. */
  function EnterByte(r: Register, b: Byte): Register {
    RegisterBound();
    XorBound(r, b as int * 0x100, 16);
    Xor(r, b as int * 0x100)
  }

  /** Feeds one data byte: it is xored into the top of the register, which
      is then shifted through eight steps. */
  function UpdateByte(r: Register, b: Byte): Register {
    ShiftBits(EnterByte(r, b), 8)
  }

  /** The digest of `data` from initial register `init`; with no final xor
      the finalized value is the register itself. */
  function Checksum(init: Register, data: seq<Byte>): Register
    decreases |data|
  {
    if |data| == 0 then init else Checksum(UpdateByte(init, data[0]), data[1..])
  }

  // ---------------------------------------------------------------------
  // Exclusive or

  lemma {:induction false} XorBound(a: nat, b: nat, n: nat)
    requires a < Pow2(n) && b < Pow2(n)
    ensures Xor(a, b) < Pow2(n)
    decreases n
  {
    if a != 0 && b != 0 {
      XorBound(a / 2, b / 2, n - 1);
    }
  }

  lemma XorParity(a: nat, b: nat)
    ensures Xor(a, b) % 2 == (if a % 2 == b % 2 then 0 else 1)
  {
  }

  lemma {:induction false} XorCommutes(a: nat, b: nat)
    ensures Xor(a, b) == Xor(b, a)
    decreases a + b
  {
    if a != 0 && b != 0 {
      XorCommutes(a / 2, b / 2);
    }
  }

  /** Xoring with a fixed value loses no information. */
  lemma {:induction false} XorInjective(a: nat, x: nat, y: nat)
    requires Xor(a, x) == Xor(a, y)
    ensures x == y
    decreases x + y
  {
    XorParity(a, x);
    XorParity(a, y);
    if a != 0 && x != 0 && y != 0 {
      XorInjective(a / 2, x / 2, y / 2);
    } else if a != 0 && x != 0 && y == 0 {
      assert 2 * Xor(a / 2, x / 2) + (if a % 2 == x % 2 then 0 else 1) == a;
      XorInjective(a / 2, x / 2, 0);
    } else if a != 0 && x == 0 && y != 0 {
      assert 2 * Xor(a / 2, y / 2) + (if a % 2 == y % 2 then 0 else 1) == a;
      XorInjective(a / 2, 0, y / 2);
    }
  }

  // ---------------------------------------------------------------------
  // Properties of the digest

  /** The digest is a left fold: a split input can be digested in two
      pieces, the second starting from the first piece's digest. */
  lemma {:induction false} ChecksumAppend(init: Register, a: seq<Byte>, b: seq<Byte>)
    ensures Checksum(init, a + b) == Checksum(Checksum(init, a), b)
    decreases |a|
  {
    if |a| == 0 {
      assert a + b == b;
    } else {
      assert (a + b)[0] == a[0];
      assert (a + b)[1..] == a[1..] + b;
      ChecksumAppend(UpdateByte(init, a[0]), a[1..], b);
    }
  }

  /** One register step loses no information: the polynomial's lowest
      coefficient is one, so the low bit of the result tells whether the
      polynomial was applied, and the rest is a plain shift. */
  lemma ShiftBitInjective(r: Register, s: Register)
    requires ShiftBit(r) == ShiftBit(s)
    ensures r == s
  {
    if r >= 0x8000 {
      XorParity(2 * (r - 0x8000), POLY);
    }
    if s >= 0x8000 {
      XorParity(2 * (s - 0x8000), POLY);
    }
    if r >= 0x8000 && s >= 0x8000 {
      XorCommutes(2 * (r - 0x8000), POLY);
      XorCommutes(2 * (s - 0x8000), POLY);
      XorInjective(POLY, 2 * (r - 0x8000), 2 * (s - 0x8000));
    }
  }

  lemma {:induction false} ShiftBitsInjective(r: Register, s: Register, n: nat)
    requires ShiftBits(r, n) == ShiftBits(s, n)
    ensures r == s
    decreases n
  {
    if n > 0 {
      ShiftBitsInjective(ShiftBit(r), ShiftBit(s), n - 1);
      ShiftBitInjective(r, s);
    }
  }

  /** Different bytes fed into the same register give different registers. */
  lemma UpdateByteInjective(r: Register, x: Byte, y: Byte)
    requires UpdateByte(r, x) == UpdateByte(r, y)
    ensures x == y
  {
    ShiftBitsInjective(EnterByte(r, x), EnterByte(r, y), 8);
    XorInjective(r, x as int * 0x100, y as int * 0x100);
  }

  /** Digesting the same bytes from two different registers never
      converges. */
  lemma {:induction false} ChecksumInjective(r: Register, s: Register, data: seq<Byte>)
    requires Checksum(r, data) == Checksum(s, data)
    ensures r == s
    decreases |data|
  {
    if |data| > 0 {
      ChecksumInjective(UpdateByte(r, data[0]), UpdateByte(s, data[0]), data[1..]);
      ShiftBitsInjective(EnterByte(r, data[0]), EnterByte(s, data[0]), 8);
      var entered := data[0] as int * 0x100;
      XorCommutes(r, entered);
      XorCommutes(s, entered);
      XorInjective(entered, r, s);
    }
  }

  /** Changing any single byte of the input -- in particular flipping any
      single bit -- always changes the digest. */
  lemma SingleByteChangeDetected(init: Register, prefix: seq<Byte>, x: Byte, y: Byte, suffix: seq<Byte>)
    requires x != y
    ensures Checksum(init, prefix + [x] + suffix) != Checksum(init, prefix + [y] + suffix)
  {
    var r := Checksum(init, prefix);
    ChecksumAppend(init, prefix, [x] + suffix);
    ChecksumAppend(init, prefix, [y] + suffix);
    assert prefix + [x] + suffix == prefix + ([x] + suffix);
    assert prefix + [y] + suffix == prefix + ([y] + suffix);
    assert ([x] + suffix)[1..] == suffix;
    assert ([y] + suffix)[1..] == suffix;
    if Checksum(UpdateByte(r, x), suffix) == Checksum(UpdateByte(r, y), suffix) {
      ChecksumInjective(UpdateByte(r, x), UpdateByte(r, y), suffix);
      UpdateByteInjective(r, x, y);
    }
  }
}

=== FILE: device.dfy ===
/** The device record and the decoder for the UDP broadcast a Switcher
    power plug sends to announce itself (`src/device.rs`). The decoder works
    the way the client does: it renders the whole datagram as lowercase hex
    and reads most fields back out of that text at fixed character offsets.
    The lemmas at the end restate every field directly in terms of the
    datagram's bytes. */
module Device {
  import opened Types
  import opened Hex

  datatype DeviceState = On | Off | Unknown

  /** What the client knows about a plug. The name is kept as the raw bytes
      of the announcement's name field. */
  datatype SwitcherDevice = SwitcherDevice(
    deviceId: string,
    deviceKey: string,
    ipAddress: string,
    macAddress: string,
    name: seq<Byte>,
    deviceType: string,
    state: DeviceState,
    powerConsumption: nat)

  /** The answer to a status query. */
  datatype DeviceStatus = DeviceStatus(state: DeviceState, powerConsumption: nat)

  const DISCOVERY_PACKET_LENGTH: nat := 165
  const MAGIC: seq<Byte> := [0xfe, 0xf0]
  /** Hex of the two type bytes that mark a power plug. */
  const POWER_PLUG_TYPE: string := "01a8"
  const POWER_PLUG_NAME: string := "Switcher Power Plug"

  /** Index of the first zero byte of `bs`, or its length when it has none. */
  function NulPosition(bs: seq<Byte>): (n: nat)
    ensures n <= |bs|
    ensures forall i :: 0 <= i < n ==> bs[i] != 0
    ensures n < |bs| ==> bs[n] == 0
    decreases |bs|
  {
    if |bs| == 0 || bs[0] == 0 then 0 else 1 + NulPosition(bs[1..])
  }

  /** Four decimal numbers joined by dots, as `format!("{}.{}.{}.{}")`. */
  function DottedQuad(a: nat, b: nat, c: nat, d: nat): string {
    Decimal(a) + "." + Decimal(b) + "." + Decimal(c) + "." + Decimal(d)
  }

  /** Six bytes as upper-case `XX:XX:XX:XX:XX:XX`. */
  function MacText(bs: seq<Byte>): string
    requires |bs| == 6
  {
    UpperByte(bs[0]) + ":" + UpperByte(bs[1]) + ":" + UpperByte(bs[2]) + ":"
      + UpperByte(bs[3]) + ":" + UpperByte(bs[4]) + ":" + UpperByte(bs[5])
  }

  /** The eight hex characters of the address field are regrouped in reverse
      pair order, parsed as a `u32`, and the four bytes of the number are
      printed lowest first. */
  function IpFromHex(hexIp: string): Option<string>
    requires |hexIp| == 8
  {
    match FromStrRadix16(hexIp[6..8] + hexIp[4..6] + hexIp[2..4] + hexIp[0..2], U32_LIMIT)
    case None => None
    case Some(addr) =>
      Some(DottedQuad(addr % 0x100, addr / 0x100 % 0x100, addr / 0x1_0000 % 0x100,
                      addr / 0x100_0000 % 0x100))
  }

  /** Successive two-character groups parsed with `u8::from_str_radix`; the
      first group that does not parse makes the whole result `None`. */
  function ParseOctets(h: string): (r: Option<seq<Byte>>)
    requires |h| % 2 == 0
    ensures r.Some? ==> 2 * |r.value| == |h|
    decreases |h|
  {
    if |h| == 0 then Some([])
    else
      match (FromStrRadix16(h[..2], U8_LIMIT), ParseOctets(h[2..]))
      case (Some(b), Some(rest)) => Some([b] + rest)
      case _ => None
  }

  function MacFromHex(hexMac: string): Option<string>
    requires |hexMac| == 12
  {
    match ParseOctets(hexMac)
    case None => None
    case Some(octets) => Some(MacText(octets))
  }

  /** "01" is on; "00" and every other value read as off. */
  function StateFromHex(hexState: string): DeviceState {
    if hexState == "01" then On else Off
  }

  /** The first two bytes of the power field, swapped and parsed as a `u16`;
      a failed parse reads as zero. */
  function PowerFromHex(hexPower: string): nat
    requires |hexPower| == 8
  {
    match FromStrRadix16(hexPower[2..4] + hexPower[0..2], U16_LIMIT)
    case Some(p) => p
    case None => 0
  }

  /** `SwitcherDevice::from_discovery_packet`. */
  function FromDiscoveryPacket(data: seq<Byte>): (r: Option<SwitcherDevice>)
    ensures r.Some? ==> |data| == DISCOVERY_PACKET_LENGTH && data[..2] == MAGIC
    ensures r.Some? ==> r.value.deviceType == POWER_PLUG_NAME && r.value.state != Unknown
    ensures r.Some? ==> |r.value.name| <= 32 && forall i :: 0 <= i < |r.value.name| ==> r.value.name[i] != 0
  {
    if |data| != DISCOVERY_PACKET_LENGTH || data[0..2] != MAGIC then None
    else
      var hexData := Encode(data);
      var deviceId := Encode(data[18..21]);
      var deviceKey := Encode(data[40..41]);
      var nameBytes := data[42..74];
      var name := nameBytes[..NulPosition(nameBytes)];
      if Encode(data[74..76]) != POWER_PLUG_TYPE then None
      else if |hexData| < 160 then None
      else
        match IpFromHex(hexData[152..160])
        case None => None
        case Some(ipAddress) =>
          if |hexData| < 278 then None
          else
            match MacFromHex(hexData[160..172])
            case None => None
            case Some(macAddress) =>
              Some(SwitcherDevice(deviceId, deviceKey, ipAddress, macAddress, name, POWER_PLUG_NAME,
                                  StateFromHex(hexData[266..268]), PowerFromHex(hexData[270..278])))
  }

  // ---------------------------------------------------------------------
  // The decoder restated on bytes.

  /** A datagram the decoder accepts: the right length, the magic prefix and
      the power-plug type code at bytes 74 and 75. */
  predicate IsPowerPlugAnnouncement(data: seq<Byte>) {
    |data| == DISCOVERY_PACKET_LENGTH && data[0] == 0xfe && data[1] == 0xf0
    && data[74] == 0x01 && data[75] == 0xa8
  }

  /** The record an accepted datagram describes, read straight from its
      bytes: id bytes 18..21, key byte 40, name bytes 42..74 up to the first
      zero, address bytes 76..80 in natural order, MAC bytes 80..86, state
      byte 133 and the little-endian power at bytes 135 and 136. */
  function AnnouncedDevice(data: seq<Byte>): SwitcherDevice
    requires |data| == DISCOVERY_PACKET_LENGTH
  {
    var nameBytes := data[42..74];
    SwitcherDevice(
      Encode(data[18..21]), Encode(data[40..41]),
      DottedQuad(data[76], data[77], data[78], data[79]),
      MacText(data[80..86]),
      nameBytes[..NulPosition(nameBytes)],
      POWER_PLUG_NAME,
      if data[133] == 0x01 then On else Off,
      data[135] as int + 0x100 * data[136] as int)
  }

  /** The decoder accepts exactly the power-plug announcements, and on
      those every field is the one `AnnouncedDevice` reads from the bytes;
      none of the decoder's internal length checks or parses can fail. */
  lemma DiscoveryDecoding(data: seq<Byte>)
    ensures FromDiscoveryPacket(data)
         == if IsPowerPlugAnnouncement(data) then Some(AnnouncedDevice(data)) else None
  {
    if IsPowerPlugAnnouncement(data) {
      AnnouncementDecoded(data);
    } else {
      OtherDatagramsRejected(data);
    }
  }

  lemma OtherDatagramsRejected(data: seq<Byte>)
    requires !IsPowerPlugAnnouncement(data)
    ensures FromDiscoveryPacket(data) == None
  {
    if |data| == DISCOVERY_PACKET_LENGTH {
      assert data[0..2] == [data[0], data[1]];
      TypeCodeRecognised(data[74..76]);
    }
  }

  lemma AnnouncementDecoded(data: seq<Byte>)
    requires IsPowerPlugAnnouncement(data)
    ensures FromDiscoveryPacket(data) == Some(AnnouncedDevice(data))
  {
    assert data[0..2] == MAGIC;
    TypeCodeRecognised(data[74..76]);
    var hexData := Encode(data);
    assert Encode(data[74..76]) == POWER_PLUG_TYPE;
    assert |hexData| == 330;
    var nameBytes := data[42..74];
    var name := nameBytes[..NulPosition(nameBytes)];
    var ip := DottedQuad(data[76], data[77], data[78], data[79]);
    var mac := MacText(data[80..86]);
    AddressField(data);
    MacField(data);
    assert FromDiscoveryPacket(data)
        == Some(SwitcherDevice(Encode(data[18..21]), Encode(data[40..41]), ip, mac, name, POWER_PLUG_NAME,
                               StateFromHex(hexData[266..268]), PowerFromHex(hexData[270..278])));
    AnnouncedFromHex(data);
  }

  /** `AnnouncedDevice` agrees with the decoder's reading of the hex text. */
  lemma AnnouncedFromHex(data: seq<Byte>)
    requires IsPowerPlugAnnouncement(data)
    ensures var hexData := Encode(data);
      var nameBytes := data[42..74];
      AnnouncedDevice(data)
      == SwitcherDevice(Encode(data[18..21]), Encode(data[40..41]),
                        DottedQuad(data[76], data[77], data[78], data[79]), MacText(data[80..86]),
                        nameBytes[..NulPosition(nameBytes)], POWER_PLUG_NAME,
                        StateFromHex(hexData[266..268]), PowerFromHex(hexData[270..278]))
  {
    StateField(data);
    PowerField(data);
  }

  lemma AddressField(data: seq<Byte>)
    requires |data| == DISCOVERY_PACKET_LENGTH
    ensures IpFromHex(Encode(data)[152..160]) == Some(DottedQuad(data[76], data[77], data[78], data[79]))
  {
    EncodeSlice(data, 76, 80);
    IpFromHexEncode(data[76..80]);
  }

  lemma MacField(data: seq<Byte>)
    requires |data| == DISCOVERY_PACKET_LENGTH
    ensures MacFromHex(Encode(data)[160..172]) == Some(MacText(data[80..86]))
  {
    EncodeSlice(data, 80, 86);
    MacFromHexEncode(data[80..86]);
  }

  lemma StateField(data: seq<Byte>)
    requires |data| == DISCOVERY_PACKET_LENGTH
    ensures StateFromHex(Encode(data)[266..268]) == if data[133] == 0x01 then On else Off
  {
    EncodeAt(data, 133);
    StateFromHexEncode(data[133]);
  }

  lemma PowerField(data: seq<Byte>)
    requires |data| == DISCOVERY_PACKET_LENGTH
    ensures PowerFromHex(Encode(data)[270..278]) == data[135] as int + 0x100 * data[136] as int
  {
    EncodeSlice(data, 135, 139);
    PowerFromHexEncode(data[135..139]);
  }

  /** The type check on the hex text is a check on the two bytes. */
  lemma TypeCodeRecognised(code: seq<Byte>)
    requires |code| == 2
    ensures Encode(code) == POWER_PLUG_TYPE <==> code[0] == 0x01 && code[1] == 0xa8
  {
    var plug: seq<Byte> := [0x01, 0xa8];
    EncodeAppend([0x01], [0xa8]);
    EncodeOne(0x01);
    EncodeOne(0xa8);
    assert [0x01] + [0xa8] == plug;
    assert EncodeByte(0x01) == "01";
    assert EncodeByte(0xa8) == "a8";
    assert Encode(plug) == POWER_PLUG_TYPE;
    if Encode(code) == POWER_PLUG_TYPE {
      EncodeInjective(code, plug);
    } else {
      assert code != plug;
    }
  }

  /** The two reversals cancel: the address reads as bytes 0..4 in natural
      order, each printed in decimal. */
  lemma IpFromHexEncode(bs: seq<Byte>)
    requires |bs| == 4
    ensures IpFromHex(Encode(bs)) == Some(DottedQuad(bs[0], bs[1], bs[2], bs[3]))
  {
    var e := Encode(bs);
    var n := bs[3] as int * 0x100_0000 + bs[2] as int * 0x1_0000 + bs[1] as int * 0x100 + bs[0] as int;
    ReversedPairsParse(bs);
    assert FromStrRadix16(e[6..8] + e[4..6] + e[2..4] + e[0..2], U32_LIMIT) == Some(n);
    OctetsOf(bs[3], bs[2], bs[1], bs[0]);
  }

  /** Reversing the four pairs of the text of four bytes and parsing the
      result as a `u32` reads the bytes little-endian. */
  lemma ReversedPairsParse(bs: seq<Byte>)
    requires |bs| == 4
    ensures var e := Encode(bs);
      FromStrRadix16(e[6..8] + e[4..6] + e[2..4] + e[0..2], U32_LIMIT)
      == Some(bs[3] as int * 0x100_0000 + bs[2] as int * 0x1_0000 + bs[1] as int * 0x100 + bs[0] as int)
  {
    var e := Encode(bs);
    EncodePairs4(bs);
    var swapped := [bs[3], bs[2], bs[1], bs[0]];
    EncodeFour(bs[3], bs[2], bs[1], bs[0]);
    assert e[6..8] + e[4..6] + e[2..4] + e[0..2] == Encode(swapped);
    BigEndian4(bs[3], bs[2], bs[1], bs[0]);
    ParseEncoded(swapped, U32_LIMIT);
  }

  /** The power field's first two bytes, read little-endian. */
  lemma PowerFromHexEncode(bs: seq<Byte>)
    requires |bs| == 4
    ensures PowerFromHex(Encode(bs)) == bs[0] as int + 0x100 * bs[1] as int
  {
    var e := Encode(bs);
    EncodePairs4(bs);
    EncodeAppend([bs[1]], [bs[0]]);
    EncodeOne(bs[1]);
    EncodeOne(bs[0]);
    assert [bs[1]] + [bs[0]] == [bs[1], bs[0]];
    assert e[2..4] + e[0..2] == Encode([bs[1], bs[0]]);
    BigEndian2(bs[1], bs[0]);
    ParseEncoded([bs[1], bs[0]], U16_LIMIT);
  }

  lemma MacFromHexEncode(bs: seq<Byte>)
    requires |bs| == 6
    ensures MacFromHex(Encode(bs)) == Some(MacText(bs))
  {
    ParseOctetsEncode(bs);
  }

  /** `ParseOctets` undoes `Encode`. */
  lemma {:induction false} ParseOctetsEncode(bs: seq<Byte>)
    ensures ParseOctets(Encode(bs)) == Some(bs)
    decreases |bs|
  {
    if |bs| > 0 {
      var e := Encode(bs);
      assert e[..2] == EncodeByte(bs[0]);
      assert e[2..] == Encode(bs[1..]);
      ParseByte(bs[0]);
      ParseOctetsEncode(bs[1..]);
      assert bs == [bs[0]] + bs[1..];
    }
  }

  lemma StateFromHexEncode(b: Byte)
    ensures StateFromHex(EncodeByte(b)) == if b == 0x01 then On else Off
  {
    assert EncodeByte(0x01) == "01";
    if EncodeByte(b) == "01" {
      assert DigitValue('0') == Some(0) && DigitValue('1') == Some(1);
      assert b == 16 * (b / 16) + b % 16;
    }
  }

  /** Each two-character group of the text of four bytes is the text of
      one of them. */
  lemma EncodePairs4(bs: seq<Byte>)
    requires |bs| == 4
    ensures Encode(bs)[0..2] == EncodeByte(bs[0]) && Encode(bs)[2..4] == EncodeByte(bs[1])
    ensures Encode(bs)[4..6] == EncodeByte(bs[2]) && Encode(bs)[6..8] == EncodeByte(bs[3])
  {
    EncodeAt(bs, 0);
    EncodeAt(bs, 1);
    EncodeAt(bs, 2);
    EncodeAt(bs, 3);
  }

  lemma EncodeAt(bs: seq<Byte>, k: nat)
    requires k < |bs|
    ensures Encode(bs)[2 * k..2 * k + 2] == EncodeByte(bs[k])
  {
    EncodeSlice(bs, k, k + 1);
    assert bs[k..k + 1] == [bs[k]];
    EncodeOne(bs[k]);
  }

  lemma EncodeFour(a: Byte, b: Byte, c: Byte, d: Byte)
    ensures Encode([a, b, c, d]) == EncodeByte(a) + EncodeByte(b) + EncodeByte(c) + EncodeByte(d)
  {
    EncodeAppend([a, b, c], [d]);
    EncodeAppend([a, b], [c]);
    EncodeAppend([a], [b]);
    assert [a] + [b] == [a, b];
    assert [a, b] + [c] == [a, b, c];
    assert [a, b, c] + [d] == [a, b, c, d];
    EncodeOne(a);
    EncodeOne(b);
    EncodeOne(c);
    EncodeOne(d);
  }

  /** Masking and shifting a 32-bit number built from four bytes gives the
      bytes back. */
  lemma OctetsOf(a: Byte, b: Byte, c: Byte, d: Byte)
    ensures var n := a * 0x100_0000 + b * 0x1_0000 + c * 0x100 + d;
      n % 0x100 == d && n / 0x100 % 0x100 == c && n / 0x1_0000 % 0x100 == b
      && n / 0x100_0000 % 0x100 == a
  {
    var n := a * 0x100_0000 + b * 0x1_0000 + c * 0x100 + d;
    var q1 := a * 0x1_0000 + b * 0x100 + c;
    var q2 := a * 0x100 + b;
    assert n == q1 * 0x100 + d;
    assert n / 0x100 == q1 && n % 0x100 == d;
    assert q1 == q2 * 0x100 + c;
    assert q1 % 0x100 == c;
    assert n == q2 * 0x1_0000 + (c * 0x100 + d);
    assert n / 0x1_0000 == q2;
    assert q2 % 0x100 == b;
    assert n == a * 0x100_0000 + (b * 0x1_0000 + c * 0x100 + d);
    assert n / 0x100_0000 == a;
  }

  /** The address text is four decimal numbers separated by three dots. */
  lemma DottedQuadShape(a: Byte, b: Byte, c: Byte, d: Byte)
    ensures 7 <= |DottedQuad(a, b, c, d)| <= 15
  {
    DecimalByteLength(a);
    DecimalByteLength(b);
    DecimalByteLength(c);
    DecimalByteLength(d);
  }

  /** The first `n` groups of a MAC text: `n` upper-case hex pairs, each
      but the last followed by a colon. */
  predicate MacPrefix(p: string, n: nat) {
    n >= 1 && |p| == 3 * n - 1
    && (forall k :: 0 <= k < n - 1 ==> p[3 * k + 2] == ':')
    && (forall i :: 0 <= i < |p| && i % 3 != 2 ==> '0' <= p[i] <= '9' || 'A' <= p[i] <= 'F')
  }

  lemma MacPrefixStep(p: string, n: nat, b: Byte)
    requires MacPrefix(p, n)
    ensures MacPrefix(p + ":" + UpperByte(b), n + 1)
  {
    var u := UpperByte(b);
    var q := p + ":" + u;
    assert q[3 * n - 1] == ':' && q[3 * n] == u[0] && q[3 * n + 1] == u[1];
    forall k | 0 <= k < n ensures q[3 * k + 2] == ':' {
      if k < n - 1 { assert q[3 * k + 2] == p[3 * k + 2]; }
    }
    forall i | 0 <= i < |q| && i % 3 != 2 ensures '0' <= q[i] <= '9' || 'A' <= q[i] <= 'F' {
      if i < |p| { assert q[i] == p[i]; }
    }
  }

  /** The MAC text is always 17 characters: six upper-case pairs and five
      colons. */
  lemma MacTextShape(bs: seq<Byte>)
    requires |bs| == 6
    ensures var m := MacText(bs);
      |m| == 17
      && (forall k :: 0 <= k < 5 ==> m[3 * k + 2] == ':')
      && (forall i :: 0 <= i < 17 && i % 3 != 2 ==> '0' <= m[i] <= '9' || 'A' <= m[i] <= 'F')
  {
    var p1 := UpperByte(bs[0]);
    assert MacPrefix(p1, 1);
    var p2 := p1 + ":" + UpperByte(bs[1]);
    MacPrefixStep(p1, 1, bs[1]);
    var p3 := p2 + ":" + UpperByte(bs[2]);
    MacPrefixStep(p2, 2, bs[2]);
    var p4 := p3 + ":" + UpperByte(bs[3]);
    MacPrefixStep(p3, 3, bs[3]);
    var p5 := p4 + ":" + UpperByte(bs[4]);
    MacPrefixStep(p4, 4, bs[4]);
    MacPrefixStep(p5, 5, bs[5]);
    assert MacText(bs) == p5 + ":" + UpperByte(bs[5]);
  }

}

=== FILE: discovery.dfy ===
/** The bookkeeping of `src/discovery.rs` around the network: the listener
    that keeps the first record heard for each device id, the merge of the
    cached records with the ones heard on the network, and the cache-only
    guard. The datagrams heard, and the order in which the source walks
    its hash maps, are parameters. */
module Discovery {
  import opened Types
  import opened Device
  import opened Cache

  // ---------------------------------------------------------------------
  // The listener (src/discovery.rs:204-231)

  /** What the listener makes of each datagram heard, in order: the record
      `from_discovery_packet` decodes from it, or `None`. */
  function Decoded(ps: seq<seq<Byte>>): (heard: seq<Option<SwitcherDevice>>)
    ensures |heard| == |ps|
    ensures forall i :: 0 <= i < |ps| ==> heard[i] == FromDiscoveryPacket(ps[i])
  {
    seq(|ps|, i requires 0 <= i < |ps| => FromDiscoveryPacket(ps[i]))
  }

  /** The decoded datagram `h` announces a device with id `id`. */
  predicate Announces(h: Option<SwitcherDevice>, id: string) {
    h.Some? && h.value.deviceId == id
  }

  /** One datagram heard: a decoded record is inserted under its id unless
      a record with that id is already present; a datagram that does not
      decode changes nothing. */
  function Heard(devices: map<string, SwitcherDevice>, h: Option<SwitcherDevice>): (r: map<string, SwitcherDevice>)
    ensures h.None? ==> r == devices
    ensures h.Some? && h.value.deviceId in devices ==> r == devices
    ensures h.Some? && h.value.deviceId !in devices ==> r == devices[h.value.deviceId := h.value]
  {
    match h
    case None => devices
    case Some(device) =>
      if device.deviceId in devices then devices else devices[device.deviceId := device]
  }

  /** The map the listener holds after hearing the decoded datagrams
      `heard` in order, starting from the empty map. Every record sits under
      its own id, and every id was announced by some datagram. */
  function Listen(heard: seq<Option<SwitcherDevice>>): (devices: map<string, SwitcherDevice>)
    ensures forall id :: id in devices ==> devices[id].deviceId == id
    ensures forall id :: id in devices ==> exists i :: 0 <= i < |heard| && Announces(heard[i], id)
    decreases |heard|
  {
    if |heard| == 0 then map[]
    else
      var n := |heard| - 1;
      var before := Listen(heard[..n]);
      var r := Heard(before, heard[n]);
      assert forall id :: id in r && id !in before ==> Announces(heard[n], id);
      assert forall i :: 0 <= i < n ==> heard[..n][i] == heard[i];
      r
  }

  /** The listener's map after one more datagram. */
  lemma ListenSnoc(front: seq<Option<SwitcherDevice>>, last: Option<SwitcherDevice>)
    ensures Listen(front + [last]) == Heard(Listen(front), last)
  {
    assert (front + [last])[..|front|] == front;
  }

  /** Datagram `i` is the first of `heard` to announce `id`. */
  predicate FirstAnnouncement(heard: seq<Option<SwitcherDevice>>, id: string, i: int) {
    0 <= i < |heard| && Announces(heard[i], id) && forall j :: 0 <= j < i ==> !Announces(heard[j], id)
  }

  /** Any announcement has a first one at or before it. */
  lemma {:induction false} FirstAnnouncementExists(heard: seq<Option<SwitcherDevice>>, id: string, i: int)
    requires 0 <= i < |heard| && Announces(heard[i], id)
    ensures exists k :: 0 <= k <= i && FirstAnnouncement(heard, id, k)
    decreases i
  {
    if exists j :: 0 <= j < i && Announces(heard[j], id) {
      var j :| 0 <= j < i && Announces(heard[j], id);
      FirstAnnouncementExists(heard, id, j);
    } else {
      assert FirstAnnouncement(heard, id, i);
    }
  }

  /** The listener holds a record for `id` exactly when some datagram
      announces `id`. */
  lemma {:induction false} ListenHoldsAnnounced(heard: seq<Option<SwitcherDevice>>, id: string)
    ensures id in Listen(heard) <==> exists i :: 0 <= i < |heard| && Announces(heard[i], id)
    decreases |heard|
  {
    if |heard| > 0 {
      var n := |heard| - 1;
      var q := heard[..n];
      ListenHoldsAnnounced(q, id);
      assert Listen(heard) == Heard(Listen(q), heard[n]);
      if exists i :: 0 <= i < n && Announces(q[i], id) {
        var i :| 0 <= i < n && Announces(q[i], id);
        assert Announces(heard[i], id);
      }
      if exists i :: 0 <= i < |heard| && Announces(heard[i], id) {
        var i :| 0 <= i < |heard| && Announces(heard[i], id);
        if i < n { assert Announces(q[i], id); }
      }
    }
  }

  /** The record held for `id` is the one decoded from the first datagram
      announcing `id`. */
  lemma {:induction false} FirstAnnouncementKept(heard: seq<Option<SwitcherDevice>>, id: string, i: int)
    requires FirstAnnouncement(heard, id, i)
    ensures id in Listen(heard) && Listen(heard)[id] == heard[i].value
    decreases |heard|
  {
    var n := |heard| - 1;
    var q := heard[..n];
    var before := Listen(q);
    assert Listen(heard) == Heard(before, heard[n]);
    if i < n {
      assert FirstAnnouncement(q, id, i);
      FirstAnnouncementKept(q, id, i);
    } else {
      ListenHoldsAnnounced(q, id);
      assert id !in before;
    }
  }

  /** The first announcement wins: the listener holds a record for `id`
      exactly when some datagram announces `id`, and that record is the one
      decoded from the first such datagram. Later announcements, repeated
      or changed, are skipped. */
  lemma ListenKeepsFirst(heard: seq<Option<SwitcherDevice>>, id: string)
    ensures id in Listen(heard) <==> exists i :: 0 <= i < |heard| && Announces(heard[i], id)
    ensures id in Listen(heard) ==> exists i :: FirstAnnouncement(heard, id, i)
    ensures forall i :: FirstAnnouncement(heard, id, i) ==> id in Listen(heard) && Listen(heard)[id] == heard[i].value
  {
    ListenHoldsAnnounced(heard, id);
    if id in Listen(heard) {
      var i :| 0 <= i < |heard| && Announces(heard[i], id);
      FirstAnnouncementExists(heard, id, i);
    }
    forall i | FirstAnnouncement(heard, id, i)
      ensures id in Listen(heard) && Listen(heard)[id] == heard[i].value
    {
      FirstAnnouncementKept(heard, id, i);
    }
  }

  /** A datagram that does not decode can be dropped from anywhere in the
      stream without changing what the listener ends up with. */
  lemma {:induction false} UndecodableIgnored(a: seq<Option<SwitcherDevice>>, b: seq<Option<SwitcherDevice>>)
    ensures Listen(a + [None] + b) == Listen(a + b)
    decreases |b|
  {
    if |b| == 0 {
      assert a + [None] + b == a + [None];
      ListenSnoc(a, None);
      assert a + b == a;
    } else {
      var m := |b| - 1;
      UndecodableIgnored(a, b[..m]);
      assert a + [None] + b == (a + [None] + b[..m]) + [b[m]];
      assert a + b == (a + b[..m]) + [b[m]];
      ListenSnoc(a + [None] + b[..m], b[m]);
      ListenSnoc(a + b[..m], b[m]);
    }
  }

  /** A record heard again, however it changed, leaves the listener as it
      was. */
  lemma RepeatSkipped(heard: seq<Option<SwitcherDevice>>, device: SwitcherDevice)
    requires device.deviceId in Listen(heard)
    ensures Listen(heard + [Some(device)]) == Listen(heard)
  {
    assert (heard + [Some(device)])[..|heard|] == heard;
  }

  // ---------------------------------------------------------------------
  // The merge (src/discovery.rs:99-111)

  /** The two loops that build `device_map`: the cached records are
      inserted first and the records heard on the network after them, each
      under its own id, so a record heard on the network replaces a cached
      one with the same id. The two lists come in the iteration order of the
      maps they were collected from. */
  method MergeDevices(cached: seq<SwitcherDevice>, network: seq<SwitcherDevice>)
    returns (devices: map<string, SwitcherDevice>)
    ensures devices.Keys == Ids(cached) + Ids(network)
    ensures forall id :: id in devices ==> devices[id].deviceId == id
    ensures forall id :: id in Ids(network) ==> devices[id] == LastWith(network, id).value
    ensures forall id :: id in Ids(cached) - Ids(network) ==> devices[id] == LastWith(cached, id).value
  {
    devices := map[];
    for i := 0 to |cached|
      invariant devices.Keys == Ids(cached[..i])
      invariant forall id :: id in devices ==> devices[id] == LastWith(cached[..i], id).value
    {
      assert cached[..i + 1][..i] == cached[..i];
      devices := devices[cached[i].deviceId := cached[i]];
    }
    assert cached[..|cached|] == cached;
    var fromCache := devices;
    for i := 0 to |network|
      invariant devices.Keys == Ids(cached) + Ids(network[..i])
      invariant forall id :: id in Ids(network[..i]) ==> devices[id] == LastWith(network[..i], id).value
      invariant forall id :: id in Ids(cached) - Ids(network[..i]) ==> devices[id] == fromCache[id]
    {
      assert network[..i + 1][..i] == network[..i];
      devices := devices[network[i].deviceId := network[i]];
    }
    assert network[..|network|] == network;
  }

  // ---------------------------------------------------------------------
  // Cache-only discovery (src/discovery.rs:46-64)

  datatype DiscoveryError = CacheUnavailable

  /** `discover_from_cache_only`: with caching switched off nothing is
      returned; otherwise the fresh records of the cache, or an error when
      the cache could not be had. `cache` is `None` when the cache manager
      is missing or the cache fails to load. */
  function DiscoverFromCacheOnly(useCache: bool, cache: Option<DeviceCache>, maxAge: nat, now: nat)
    : (r: Result<map<string, SwitcherDevice>, DiscoveryError>)
    ensures !useCache ==> r == Ok(map[])
    ensures useCache ==> (r.Ok? <==> cache.Some?)
    ensures useCache && cache.Some? ==>
      forall id :: id in r.value <==> id in cache.value.devices && cache.value.devices[id].lastSeen >= Cutoff(now, maxAge)
    ensures useCache && cache.Some? ==>
      forall id :: id in r.value ==> r.value[id] == cache.value.devices[id].device
  {
    if !useCache then Ok(map[])
    else
      match cache
      case None => Err(CacheUnavailable)
      case Some(c) => Ok(FreshDevices(c, maxAge, now))
  }

  /** A device just recorded in the cache is found again by cache-only
      discovery at the same time, whatever the window. */
  lemma CacheOnlyFindsAdded(cache: DeviceCache, device: SwitcherDevice, maxAge: nat, now: nat)
    ensures var r := DiscoverFromCacheOnly(true, Some(AddDevice(cache, device, now)), maxAge, now);
      r.Ok? && device.deviceId in r.value && r.value[device.deviceId] == device
  {
  }

  /** Cache-only discovery finds the same devices before and after old
      records are removed with the same window. */
  lemma CacheOnlyIgnoresRemoval(cache: DeviceCache, maxAge: nat, now: nat)
    ensures DiscoverFromCacheOnly(true, Some(RemoveOldDevices(cache, maxAge, now)), maxAge, now)
         == DiscoverFromCacheOnly(true, Some(cache), maxAge, now)
  {
    FreshAfterRemove(cache, maxAge, now);
  }
}

=== FILE: hex.dfy ===
/** Text renderings of bytes and numbers the protocol relies on: lowercase
    hex as produced by the `hex` crate's `encode`, the tolerant decoding of
    `hex::decode`, unsigned `from_str_radix(_, 16)`, the upper-case `{:02X}`
    format and decimal `{}` formatting of unsigned integers. */
module Hex {
  import opened Types

  /** The lowercase hex digit of `d` (what `hex::encode` and `{:x}` print). */
  function LowerDigit(d: nat): (c: char)
    requires d < 16
    ensures DigitValue(c) == Some(d)
    ensures '0' <= c <= '9' || 'a' <= c <= 'f'
  {
    if d < 10 then ('0' as int + d) as char else ('a' as int + d - 10) as char
  }

  /** The upper-case hex digit of `d` (what `{:X}` prints): the lowercase
      digit with its letter raised. */
  function UpperDigit(d: nat): (c: char)
    requires d < 16
    ensures DigitValue(c) == Some(d)
    ensures '0' <= c <= '9' || 'A' <= c <= 'F'
  {
    var lower := LowerDigit(d);
    if 'a' <= lower then (lower as int - 'a' as int + 'A' as int) as char else lower
  }

  /** Value of one hex digit; both letter cases are accepted, as by
      `hex::decode` and `from_str_radix`. */
  function DigitValue(c: char): (r: Option<nat>)
    ensures r.Some? ==> r.value < 16
  {
    if '0' <= c <= '9' then Some(c as int - '0' as int)
    else if 'a' <= c <= 'f' then Some(c as int - 'a' as int + 10)
    else if 'A' <= c <= 'F' then Some(c as int - 'A' as int + 10)
    else None
  }

  predicate IsHexDigit(c: char) {
    DigitValue(c).Some?
  }

  predicate IsLowerDigit(c: char) {
    '0' <= c <= '9' || 'a' <= c <= 'f'
  }

  predicate IsHex(s: string) {
    forall i :: 0 <= i < |s| ==> IsHexDigit(s[i])
  }

  /** Lowercase hex digits only: what `hex::encode` and `{:x}` produce. */
  predicate IsLowerHex(s: string) {
    forall i :: 0 <= i < |s| ==> IsLowerDigit(s[i])
  }

  /** Two lowercase hex digits, most significant first. */
  function EncodeByte(b: Byte): (s: string)
    ensures |s| == 2 && IsLowerHex(s)
    ensures DigitValue(s[0]) == Some(b / 16) && DigitValue(s[1]) == Some(b % 16)
  {
    [LowerDigit(b / 16), LowerDigit(b % 16)]
  }

  /** Two upper-case hex digits: the `{:02X}` format of a `u8`. */
  function UpperByte(b: Byte): (s: string)
    ensures |s| == 2
    ensures DigitValue(s[0]) == Some(b / 16) && DigitValue(s[1]) == Some(b % 16)
    ensures '0' <= s[0] <= '9' || 'A' <= s[0] <= 'F'
    ensures '0' <= s[1] <= '9' || 'A' <= s[1] <= 'F'
  {
    [UpperDigit(b / 16), UpperDigit(b % 16)]
  }

  /** `hex::encode`: every byte becomes two lowercase digits. */
  function Encode(bs: seq<Byte>): (s: string)
    ensures |s| == 2 * |bs|
  {
    if |bs| == 0 then [] else EncodeByte(bs[0]) + Encode(bs[1..])
  }

  /** `Encode` writes lower-case digits only. */
  lemma {:induction false} EncodeIsLowerHex(bs: seq<Byte>)
    ensures IsLowerHex(Encode(bs))
    decreases |bs|
  {
    if |bs| > 0 {
      EncodeIsLowerHex(bs[1..]);
      var head, tail := EncodeByte(bs[0]), Encode(bs[1..]);
      forall i | 0 <= i < |head| + |tail| ensures IsLowerDigit((head + tail)[i]) {
        if i >= |head| { assert (head + tail)[i] == tail[i - |head|]; }
      }
    }
  }

  /** `hex::decode`: `None` on odd length or on any non-hex character. */
  function Decode(s: string): (r: Option<seq<Byte>>)
    ensures r.Some? ==> |r.value| * 2 == |s|
    decreases |s|
  {
    if |s| == 0 then Some([])
    else if |s| == 1 then None
    else
      match (DigitValue(s[0]), DigitValue(s[1]), Decode(s[2..]))
      case (Some(hi), Some(lo), Some(rest)) => Some([hi * 16 + lo] + rest)
      case _ => None
  }

  /** Numeric value of a string of hex digits, most significant first
      (a non-digit counts as zero; callers check `IsHex` first). */
  function Value(s: string): nat {
    if |s| == 0 then 0 else Value(s[..|s| - 1]) * 16 + Digit(s[|s| - 1])
  }

  function Digit(c: char): (d: nat)
    ensures d < 16
  {
    match DigitValue(c)
    case Some(v) => v
    case None => 0
  }

  /** `u{N}::from_str_radix(s, 16)` for an unsigned type whose values are
      below `limit`, on strings without a sign: rejects the empty string,
      any non-digit and any value that does not fit. */
  function FromStrRadix16(s: string, limit: nat): (r: Option<nat>)
    ensures r.Some? <==> |s| > 0 && IsHex(s) && Value(s) < limit
    ensures r.Some? ==> r.value == Value(s)
  {
    if |s| == 0 || !IsHex(s) then None
    else if Value(s) < limit then Some(Value(s))
    else None
  }

  /** Big-endian value of a byte sequence. */
  function BigEndian(bs: seq<Byte>): nat {
    if |bs| == 0 then 0 else BigEndian(bs[..|bs| - 1]) * 256 + bs[|bs| - 1]
  }

  function DecimalDigit(d: nat): (c: char)
    requires d < 10
    ensures '0' <= c <= '9'
  {
    ('0' as int + d) as char
  }

  /** Decimal rendering of an unsigned integer, as Rust's `{}` prints it:
      no sign, no leading zeros, "0" for zero. */
  function Decimal(n: nat): (s: string)
    ensures |s| >= 1
    ensures forall i :: 0 <= i < |s| ==> '0' <= s[i] <= '9'
    ensures n < 10 <==> |s| == 1
    ensures |s| > 1 ==> s[0] != '0'
  {
    if n < 10 then [DecimalDigit(n)] else Decimal(n / 10) + [DecimalDigit(n % 10)]
  }

  /** Reading back a string of decimal digits. */
  function DecimalValue(s: string): nat
    requires forall i :: 0 <= i < |s| ==> '0' <= s[i] <= '9'
  {
    if |s| == 0 then 0
    else DecimalValue(s[..|s| - 1]) * 10 + (s[|s| - 1] as int - '0' as int)
  }

  // ---------------------------------------------------------------------
  // Round trips and positional facts about the encodings.

  /** Decoding what `Encode` produced gives the bytes back. */
  lemma {:induction false} DecodeEncode(bs: seq<Byte>)
    ensures Decode(Encode(bs)) == Some(bs)
  {
    if |bs| > 0 {
      var s := Encode(bs);
      assert s[..2] == EncodeByte(bs[0]);
      assert s[2..] == Encode(bs[1..]);
      DecodeEncode(bs[1..]);
      assert bs == [bs[0]] + bs[1..];
    }
  }

  lemma LowerDigitRoundTrip(c: char)
    requires IsLowerDigit(c)
    ensures DigitValue(c).Some? && LowerDigit(DigitValue(c).value) == c
  {
  }

  /** Conversely, a lowercase even-length hex string is re-encoded exactly
      by `Encode` after `Decode`, so the two are mutually inverse there. */
  lemma {:induction false} EncodeDecode(s: string)
    requires IsLowerHex(s) && |s| % 2 == 0
    ensures Decode(s).Some? && Encode(Decode(s).value) == s
    decreases |s|
  {
    if |s| > 0 {
      LowerDigitRoundTrip(s[0]);
      LowerDigitRoundTrip(s[1]);
      var tail := s[2..];
      assert IsLowerHex(tail) by {
        forall i | 0 <= i < |tail| ensures IsLowerDigit(tail[i]) {
          assert tail[i] == s[i + 2];
        }
      }
      EncodeDecode(tail);
      var hi, lo := DigitValue(s[0]).value, DigitValue(s[1]).value;
      var rest := Decode(tail).value;
      var b: Byte := hi * 16 + lo;
      assert Decode(s) == Some([b] + rest);
      EncodeDigits(hi, lo);
      EncodeCons(b, rest);
      assert s == [s[0], s[1]] + tail;
    }
  }

  /** `Decode` succeeds exactly on even-length strings of hex digits. */
  lemma {:induction false} DecodeDefined(s: string)
    ensures Decode(s).Some? <==> IsHex(s) && |s| % 2 == 0
    decreases |s|
  {
    if |s| >= 2 {
      DecodeDefined(s[2..]);
      if IsHex(s) {
        assert forall i :: 0 <= i < |s| - 2 ==> s[2..][i] == s[i + 2];
      }
      if IsHex(s[2..]) && IsHexDigit(s[0]) && IsHexDigit(s[1]) {
        assert forall i :: 2 <= i < |s| ==> s[i] == s[2..][i - 2];
      }
    }
  }

  /** Decoding a concatenation of even-length pieces decodes the pieces. */
  lemma {:induction false} DecodeAppend(a: string, b: string)
    requires Decode(a).Some? && Decode(b).Some?
    ensures Decode(a + b) == Some(Decode(a).value + Decode(b).value)
    decreases |a|
  {
    if |a| > 0 {
      var hi, lo := DigitValue(a[0]).value, DigitValue(a[1]).value;
      assert Decode(a) == Some([hi * 16 + lo] + Decode(a[2..]).value);
      assert (a + b)[2..] == a[2..] + b;
      assert (a + b)[0] == a[0] && (a + b)[1] == a[1];
      DecodeAppend(a[2..], b);
      assert Decode(a + b) == Some([hi * 16 + lo] + (Decode(a[2..]).value + Decode(b).value));
      assert [hi * 16 + lo] + (Decode(a[2..]).value + Decode(b).value)
          == ([hi * 16 + lo] + Decode(a[2..]).value) + Decode(b).value;
    } else {
      assert a + b == b;
      assert Decode(a).value == [];
      assert Decode(a).value + Decode(b).value == Decode(b).value;
    }
  }

  /** Encoding distributes over concatenation. */
  lemma {:induction false} EncodeAppend(a: seq<Byte>, b: seq<Byte>)
    ensures Encode(a + b) == Encode(a) + Encode(b)
    decreases |a|
  {
    if |a| == 0 {
      assert a + b == b;
    } else {
      assert (a + b)[1..] == a[1..] + b;
      EncodeAppend(a[1..], b);
    }
  }

  /** A slice of the encoding at even offsets is the encoding of the
      corresponding byte slice: hex offset `2*i` is byte offset `i`. */
  lemma EncodeSlice(bs: seq<Byte>, i: nat, j: nat)
    requires i <= j <= |bs|
    ensures Encode(bs)[2 * i..2 * j] == Encode(bs[i..j])
  {
    var front, middle, back := bs[..i], bs[i..j], bs[j..];
    SplitThree(bs, i, j);
    EncodeAppend(front + middle, back);
    EncodeAppend(front, middle);
    SliceMiddle(Encode(front), Encode(middle), Encode(back));
  }

  /** The pair of digits for a byte given by its two nibbles. */
  lemma EncodeDigits(hi: nat, lo: nat)
    requires hi < 16 && lo < 16
    ensures hi * 16 + lo < 0x100
    ensures EncodeByte(hi * 16 + lo) == [LowerDigit(hi), LowerDigit(lo)]
  {
    var b := hi * 16 + lo;
    assert b / 16 == hi && b % 16 == lo;
  }

  lemma EncodeCons(b: Byte, rest: seq<Byte>)
    ensures Encode([b] + rest) == EncodeByte(b) + Encode(rest)
  {
    var bs := [b] + rest;
    assert bs[0] == b && bs[1..] == rest;
  }

  lemma EncodeOne(b: Byte)
    ensures Encode([b]) == EncodeByte(b)
  {
    assert Encode([b]) == EncodeByte(b) + Encode([]);
  }

  lemma HexAppend(a: string, b: string)
    requires IsHex(a) && IsHex(b)
    ensures IsHex(a + b)
  {
    var ab := a + b;
    forall i | 0 <= i < |ab| ensures IsHexDigit(ab[i]) {
      if i < |a| { assert ab[i] == a[i]; } else { assert ab[i] == b[i - |a|]; }
    }
  }

  lemma HexPrefix(s: string, n: nat)
    requires IsHex(s) && n <= |s|
    ensures IsHex(s[..n])
  {
    forall i | 0 <= i < n ensures IsHexDigit(s[..n][i]) { assert s[..n][i] == s[i]; }
  }

  /** The value of a concatenation of digit strings. */
  lemma {:induction false} ValueAppend(a: string, b: string)
    ensures Value(a + b) == Value(a) * Pow16(|b|) + Value(b)
    decreases |b|
  {
    var ab := a + b;
    if |b| == 0 {
      assert ab == a;
    } else {
      var b' := b[..|b| - 1];
      var d := Digit(b[|b| - 1]);
      assert ab[..|ab| - 1] == a + b';
      assert ab[|ab| - 1] == b[|b| - 1];
      assert Value(ab) == Value(a + b') * 16 + d;
      assert Value(b) == Value(b') * 16 + d;
      ValueAppend(a, b');
      Distribute(Value(a), Pow16(|b'|), Value(b'), d);
    }
  }

  lemma Distribute(va: nat, p: nat, vb: nat, d: nat)
    ensures (va * p + vb) * 16 + d == va * (p * 16) + (vb * 16 + d)
  {
  }

  function Pow16(n: nat): (r: nat)
    ensures r >= 1
  {
    if n == 0 then 1 else 16 * Pow16(n - 1)
  }

  /** The hex text of bytes reads back as their big-endian value. */
  lemma {:induction false} ValueEncode(bs: seq<Byte>)
    ensures IsHex(Encode(bs))
    ensures Value(Encode(bs)) == BigEndian(bs)
    decreases |bs|
  {
    if |bs| > 0 {
      var init := bs[..|bs| - 1];
      var last := bs[|bs| - 1];
      assert bs == init + [last];
      EncodeAppend(init, [last]);
      EncodeOne(last);
      ValueEncode(init);
      var e := EncodeByte(last);
      assert Value(e) == last by {
        assert e[..1][..0] == [];
        assert Value(e[..1]) == last / 16;
      }
      ValueAppend(Encode(init), e);
      assert Pow16(2) == 256;
    }
  }

  /** Distinct byte strings have distinct encodings. */
  lemma EncodeInjective(a: seq<Byte>, b: seq<Byte>)
    requires Encode(a) == Encode(b)
    ensures a == b
  {
    DecodeEncode(a);
    DecodeEncode(b);
  }

  /** `from_str_radix(_, 16)` reads the hex text of bytes back as their
      big-endian value whenever that value fits the target type. */
  lemma ParseEncoded(bs: seq<Byte>, limit: nat)
    requires |bs| > 0 && BigEndian(bs) < limit
    ensures FromStrRadix16(Encode(bs), limit) == Some(BigEndian(bs))
  {
    ValueEncode(bs);
  }

  /** In particular `u8::from_str_radix` undoes the two-digit encoding of a
      byte. */
  lemma ParseByte(b: Byte)
    ensures FromStrRadix16(EncodeByte(b), U8_LIMIT) == Some(b)
  {
    EncodeOne(b);
    assert [b][..0] == [];
    assert BigEndian([b]) == b;
    ParseEncoded([b], U8_LIMIT);
  }

  /** Lowercase hex is hex. */
  lemma LowerHexIsHex(s: string)
    requires IsLowerHex(s)
    ensures IsHex(s)
  {
    forall i | 0 <= i < |s| ensures IsHexDigit(s[i]) {
      assert IsLowerDigit(s[i]);
    }
  }

  lemma {:induction false} HexRepeat(s: string, n: nat)
    requires IsHex(s)
    ensures IsHex(Repeat(s, n))
    decreases n
  {
    if n > 0 {
      HexRepeat(s, n - 1);
      HexAppend(s, Repeat(s, n - 1));
    }
  }

  /** The text of `n` copies of a byte is `n` copies of its text. */
  lemma {:induction false} EncodeRepeat(b: Byte, n: nat)
    ensures Encode(Repeat([b], n)) == Repeat(EncodeByte(b), n)
    decreases n
  {
    if n > 0 {
      EncodeRepeat(b, n - 1);
      EncodeAppend([b], Repeat([b], n - 1));
      EncodeOne(b);
    }
  }

  /** Byte `k` of a decoded string is read from characters `2k` and
      `2k+1`. */
  lemma {:induction false} DecodeAt(s: string, k: nat)
    requires Decode(s).Some? && k < |s| / 2
    ensures Decode(s).value[k] == Digit(s[2 * k]) * 16 + Digit(s[2 * k + 1])
    decreases k
  {
    var hi, lo := DigitValue(s[0]).value, DigitValue(s[1]).value;
    assert Decode(s).value == [hi * 16 + lo] + Decode(s[2..]).value;
    if k > 0 {
      DecodeAt(s[2..], k - 1);
      assert s[2..][2 * (k - 1)] == s[2 * k];
      assert s[2..][2 * (k - 1) + 1] == s[2 * k + 1];
    }
  }

  lemma HexSlice(s: string, i: nat, j: nat)
    requires IsHex(s) && i <= j <= |s|
    ensures IsHex(s[i..j])
  {
    forall k | 0 <= k < j - i ensures IsHexDigit(s[i..j][k]) {
      assert s[i..j][k] == s[i + k];
    }
  }

  /** Decoding works pair by pair: the bytes `i..j` of a decoded string
      are the decoding of its characters `2*i..2*j`. */
  lemma DecodeSlice(s: string, i: nat, j: nat)
    requires Decode(s).Some? && i <= j <= |s| / 2
    ensures Decode(s[2 * i..2 * j]) == Some(Decode(s).value[i..j])
  {
    var t := s[2 * i..2 * j];
    DecodeSliceDefined(s, i, j);
    var r := Decode(t);
    var d, e := Decode(s).value, r.value;
    forall k | 0 <= k < j - i ensures e[k] == d[i + k] {
      DecodeSliceAt(s, i, j, k);
    }
    assert e == d[i..j];
    assert r == Some(e);
  }

  lemma DecodeSliceDefined(s: string, i: nat, j: nat)
    requires Decode(s).Some? && i <= j <= |s| / 2
    ensures Decode(s[2 * i..2 * j]).Some?
    ensures |Decode(s[2 * i..2 * j]).value| == j - i
  {
    DecodeDefined(s);
    HexSlice(s, 2 * i, 2 * j);
    DecodeDefined(s[2 * i..2 * j]);
  }

  lemma DecodeSliceAt(s: string, i: nat, j: nat, k: nat)
    requires Decode(s).Some? && i + k < j <= |s| / 2 && Decode(s[2 * i..2 * j]).Some?
    ensures |Decode(s[2 * i..2 * j]).value| == j - i
    ensures Decode(s[2 * i..2 * j]).value[k] == Decode(s).value[i + k]
  {
    var t := s[2 * i..2 * j];
    DecodeAt(t, k);
    DecodeAt(s, i + k);
    assert t[2 * k] == s[2 * (i + k)] && t[2 * k + 1] == s[2 * (i + k) + 1];
  }

  /** Four bytes read as a big-endian number. */
  lemma BigEndian4(a: Byte, b: Byte, c: Byte, d: Byte)
    ensures BigEndian([a, b, c, d]) == a * 0x100_0000 + b * 0x1_0000 + c * 0x100 + d
  {
    BigEndian2(a, b);
    assert [a, b, c][..2] == [a, b];
    assert BigEndian([a, b, c]) == (a * 0x100 + b) * 0x100 + c;
    assert [a, b, c, d][..3] == [a, b, c];
    assert BigEndian([a, b, c, d]) == ((a * 0x100 + b) * 0x100 + c) * 0x100 + d;
  }

  lemma BigEndian2(a: Byte, b: Byte)
    ensures BigEndian([a, b]) == a * 0x100 + b
  {
    assert [a][..0] == [];
    assert BigEndian([a]) == a;
    assert [a, b][..1] == [a];
  }

  lemma BigEndianBound(bs: seq<Byte>)
    ensures BigEndian(bs) < Pow16(2 * |bs|)
  {
    if |bs| > 0 {
      BigEndianBound(bs[..|bs| - 1]);
      assert Pow16(2 * |bs|) == 256 * Pow16(2 * (|bs| - 1));
    }
  }

  /** `Decimal` and `DecimalValue` are mutually inverse on naturals. */
  lemma {:induction false} DecimalRoundTrip(n: nat)
    ensures DecimalValue(Decimal(n)) == n
  {
    var s := Decimal(n);
    if n < 10 {
      assert s[..0] == [];
    } else {
      DecimalRoundTrip(n / 10);
      assert s[..|s| - 1] == Decimal(n / 10);
      assert s[|s| - 1] == DecimalDigit(n % 10);
    }
  }

  /** A byte prints with one to three decimal digits. */
  lemma {:induction false} DecimalByteLength(b: Byte)
    ensures 1 <= |Decimal(b)| <= 3
  {
    if b >= 10 {
      if b / 10 >= 10 {
        assert b / 10 / 10 < 10;
      }
    }
  }
}

=== FILE: pairing.dfy ===
/** The pairing registry of `src/pairing.rs`: the devices the user has
    paired, keyed by device id, and the aliases that name them, keyed by
    alias. The clock reading that `current_timestamp` supplies is the
    parameter `now`. */
module Pairing {
  import opened Types
  import opened Device

  datatype PairedDevice = PairedDevice(device: SwitcherDevice, alias: string, pairedAt: nat, lastSeen: nat)

  /** `devices` maps a device id to its pairing, `aliases` an alias to a
      device id. */
  datatype PairingConfig = PairingConfig(
    devices: map<string, PairedDevice>,
    aliases: map<string, string>,
    lastUpdated: nat)

  datatype PairingError = AliasInUse(alias: string) | NoSuchAlias(alias: string)

  /** The registry after an operation, and whether the operation
      succeeded. */
  datatype Outcome = Outcome(config: PairingConfig, result: Result<(), PairingError>)

  /** `PairingConfig::new`. */
  function Empty(now: nat): (cfg: PairingConfig)
    ensures |cfg.devices| == 0 && |cfg.aliases| == 0 && Consistent(cfg)
  {
    PairingConfig(map[], map[], now)
  }

  /** The two maps describe the same pairing: an alias names a device
      exactly when that device's record carries the alias, and every
      record sits under its own device id. */
  predicate Consistent(cfg: PairingConfig) {
    (forall a :: a in cfg.aliases ==> cfg.aliases[a] in cfg.devices && cfg.devices[cfg.aliases[a]].alias == a)
    && (forall id :: id in cfg.devices ==>
          cfg.devices[id].alias in cfg.aliases && cfg.aliases[cfg.devices[id].alias] == id)
    && (forall id :: id in cfg.devices ==> cfg.devices[id].device.deviceId == id)
  }

  /** `pair_device`: an alias already in use is refused and nothing
      changes. Otherwise a device that was paired before loses its old
      alias, and the device is recorded under its id with the new alias. */
  function PairDevice(cfg: PairingConfig, device: SwitcherDevice, alias: string, now: nat): (r: Outcome)
    ensures r.result.Err? <==> alias in cfg.aliases
    ensures r.result.Err? ==> r.result.error == AliasInUse(alias) && r.config == cfg
    ensures r.result.Ok? ==> r.config.devices.Keys == cfg.devices.Keys + {device.deviceId}
    ensures r.result.Ok? ==> alias in r.config.aliases && r.config.aliases[alias] == device.deviceId
  {
    if alias in cfg.aliases then Outcome(cfg, Err(AliasInUse(alias)))
    else
      var id := device.deviceId;
      var aliases := if id in cfg.devices then cfg.aliases - {cfg.devices[id].alias} else cfg.aliases;
      var paired := PairedDevice(device, alias, now, now);
      Outcome(PairingConfig(cfg.devices[id := paired], aliases[alias := id], now), Ok(()))
  }

  /** `unpair_device`: an unknown alias is refused and nothing changes;
      otherwise the alias and the device it names are both removed. */
  function UnpairDevice(cfg: PairingConfig, alias: string, now: nat): (r: Outcome)
    ensures r.result.Err? <==> alias !in cfg.aliases
    ensures r.result.Err? ==> r.result.error == NoSuchAlias(alias) && r.config == cfg
    ensures r.result.Ok? ==> r.config.aliases == cfg.aliases - {alias}
    ensures r.result.Ok? ==> r.config.devices.Keys == cfg.devices.Keys - {cfg.aliases[alias]}
  {
    if alias !in cfg.aliases then Outcome(cfg, Err(NoSuchAlias(alias)))
    else
      var id := cfg.aliases[alias];
      Outcome(PairingConfig(cfg.devices - {id}, cfg.aliases - {alias}, now), Ok(()))
  }

  /** `get_device_by_alias`: follow the alias to its device id, then the
      id to its record. */
  function GetDeviceByAlias(cfg: PairingConfig, alias: string): (r: Option<PairedDevice>)
    ensures Consistent(cfg) ==> (r.Some? <==> alias in cfg.aliases)
    ensures Consistent(cfg) && r.Some? ==> r.value.alias == alias && r.value.device.deviceId == cfg.aliases[alias]
  {
    if alias in cfg.aliases && cfg.aliases[alias] in cfg.devices then Some(cfg.devices[cfg.aliases[alias]])
    else None
  }

  /** `update_device_info`: refresh the record of a paired device with
      newly seen information, keeping its alias; report whether the device
      was paired. */
  function UpdateDeviceInfo(cfg: PairingConfig, device: SwitcherDevice, now: nat): (r: (PairingConfig, bool))
    ensures r.1 <==> device.deviceId in cfg.devices
    ensures !r.1 ==> r.0 == cfg
    ensures r.0.devices.Keys == cfg.devices.Keys && r.0.aliases == cfg.aliases
    ensures r.1 ==>
      && r.0.devices[device.deviceId].device == device
      && r.0.devices[device.deviceId].alias == cfg.devices[device.deviceId].alias
      && r.0.devices[device.deviceId].lastSeen == now
    ensures forall id :: id in cfg.devices && id != device.deviceId ==> r.0.devices[id] == cfg.devices[id]
  {
    var id := device.deviceId;
    if id in cfg.devices then
      var entry := cfg.devices[id];
      (PairingConfig(cfg.devices[id := entry.(device := device, lastSeen := now)], cfg.aliases, now), true)
    else (cfg, false)
  }

  // ---------------------------------------------------------------------
  // Properties

  /** Pairing keeps the registry consistent. */
  lemma PairPreservesConsistency(cfg: PairingConfig, device: SwitcherDevice, alias: string, now: nat)
    requires Consistent(cfg)
    ensures Consistent(PairDevice(cfg, device, alias, now).config)
  {
    if alias !in cfg.aliases {
      var id := device.deviceId;
      var c := PairDevice(cfg, device, alias, now).config;
      forall a | a in c.aliases
        ensures c.aliases[a] in c.devices && c.devices[c.aliases[a]].alias == a
      {
        if a != alias {
          assert a in cfg.aliases && c.aliases[a] == cfg.aliases[a];
          assert cfg.aliases[a] != id;
        }
      }
      forall i | i in c.devices
        ensures c.devices[i].alias in c.aliases && c.aliases[c.devices[i].alias] == i
      {
        if i != id {
          var a := cfg.devices[i].alias;
          assert a in cfg.aliases && cfg.aliases[a] == i;
          assert a != alias;
          assert id in cfg.devices ==> cfg.devices[id].alias != a;
        }
      }
    }
  }

  /** Unpairing keeps the registry consistent. */
  lemma UnpairPreservesConsistency(cfg: PairingConfig, alias: string, now: nat)
    requires Consistent(cfg)
    ensures Consistent(UnpairDevice(cfg, alias, now).config)
  {
    if alias in cfg.aliases {
      var id := cfg.aliases[alias];
      var c := UnpairDevice(cfg, alias, now).config;
      forall a | a in c.aliases
        ensures c.aliases[a] in c.devices && c.devices[c.aliases[a]].alias == a
      {
        assert cfg.devices[cfg.aliases[a]].alias == a;
      }
    }
  }

  /** Updating a device keeps the registry consistent. */
  lemma UpdatePreservesConsistency(cfg: PairingConfig, device: SwitcherDevice, now: nat)
    requires Consistent(cfg)
    ensures Consistent(UpdateDeviceInfo(cfg, device, now).0)
  {
  }

  /** After a successful pairing the alias leads to the device just
      paired. */
  lemma PairThenLookUp(cfg: PairingConfig, device: SwitcherDevice, alias: string, now: nat)
    requires alias !in cfg.aliases
    ensures var r := GetDeviceByAlias(PairDevice(cfg, device, alias, now).config, alias);
      r.Some? && r.value.device == device && r.value.alias == alias
  {
  }

  /** A device paired again under a new alias loses its old alias: every
      device id keeps exactly one alias. */
  lemma RepairDropsOldAlias(cfg: PairingConfig, device: SwitcherDevice, alias: string, now: nat)
    requires Consistent(cfg) && alias !in cfg.aliases && device.deviceId in cfg.devices
    ensures var c := PairDevice(cfg, device, alias, now).config;
      cfg.devices[device.deviceId].alias !in c.aliases
      && forall a :: a in c.aliases && c.aliases[a] == device.deviceId ==> a == alias
  {
  }

  /** Pairing touches only the device paired, its new alias and its old
      one. */
  lemma PairLeavesOthers(cfg: PairingConfig, device: SwitcherDevice, alias: string, now: nat)
    requires Consistent(cfg) && alias !in cfg.aliases
    ensures var c := PairDevice(cfg, device, alias, now).config;
      (forall id :: id in cfg.devices && id != device.deviceId ==> c.devices[id] == cfg.devices[id])
      && (forall a :: a in cfg.aliases && cfg.aliases[a] != device.deviceId ==> a in c.aliases && c.aliases[a] == cfg.aliases[a])
  {
  }

  /** Pairing one device into an empty registry gives one device and one
      alias. */
  lemma PairIntoEmpty(device: SwitcherDevice, alias: string, created: nat, now: nat)
    ensures var r := PairDevice(Empty(created), device, alias, now);
      r.result.Ok? && |r.config.devices| == 1 && |r.config.aliases| == 1
  {
    var c := PairDevice(Empty(created), device, alias, now).config;
    assert c.devices.Keys == {device.deviceId};
    assert c.aliases.Keys == {alias};
  }

  /** Unpairing undoes the pairing of a device that was not paired before. */
  lemma UnpairUndoesPair(cfg: PairingConfig, device: SwitcherDevice, alias: string, now: nat, later: nat)
    requires Consistent(cfg) && alias !in cfg.aliases && device.deviceId !in cfg.devices
    ensures var paired := PairDevice(cfg, device, alias, now).config;
      var r := UnpairDevice(paired, alias, later);
      r.result.Ok? && r.config.devices == cfg.devices && r.config.aliases == cfg.aliases
  {
    var paired := PairDevice(cfg, device, alias, now).config;
    var c := UnpairDevice(paired, alias, later).config;
    assert c.devices == cfg.devices;
    assert c.aliases == cfg.aliases;
  }

  /** After an unpairing neither the alias nor the device is found. */
  lemma UnpairForgets(cfg: PairingConfig, alias: string, now: nat)
    requires Consistent(cfg) && alias in cfg.aliases
    ensures var c := UnpairDevice(cfg, alias, now).config;
      GetDeviceByAlias(c, alias).None? && cfg.aliases[alias] !in c.devices
  {
  }
}

=== FILE: session.dfy ===
/** The TCP exchanges of `SwitcherController` (`src/control.rs`): every
    operation opens one connection, logs in, writes one signed request and
    interprets the reply. The socket is replaced by a `Peer` that says how
    the plug answers that one connection, and the clock by the reading
    `now`; what the client writes is recorded as the list of packets as
    they appear on the wire. */
module Session {
  import opened Types
  import opened Hex
  import opened Device
  import opened Control
  import opened Utils

  /** `SwitcherController`: the plug's address and its device id. */
  datatype Controller = Controller(ipAddress: string, deviceId: string)

  /** Every reply is read into one 1024-byte buffer. */
  const READ_BUFFER_LEN: nat := 1024

  /** The plug's side of one connection: whether it accepts the
      connection, whether the `write_all` of the login request succeeds,
      the bytes the plug sends back after it, whether the `write_all` of
      the request proper succeeds, and the bytes it sends back after that.
      `None` means the read fails or times out; otherwise the read takes
      the first bytes sent, as `Received` says. */
  datatype Peer = Peer(accepts: bool, loginWrite: bool, loginReply: Option<seq<Byte>>,
                       requestWrite: bool, reply: Option<seq<Byte>>)

  /** The outcome of one connection and the packets written on it, in
      order. */
  datatype Exchange<T> = Exchange(result: Result<T, Error>, written: seq<seq<Byte>>)

  /** `sign_packet` unwraps the hex decoding of the whole request, so the
      device id it embeds must be hex of even length. */
  predicate ValidDeviceId(deviceId: string) {
    IsHex(deviceId) && |deviceId| % 2 == 0
  }

  /** What one `read` into the buffer returns of the bytes the plug sent. */
  function Received(data: seq<Byte>): (r: seq<Byte>)
    ensures |r| == if |data| <= READ_BUFFER_LEN then |data| else READ_BUFFER_LEN
    ensures r == data[..|r|]
  {
    if |data| <= READ_BUFFER_LEN then data else data[..READ_BUFFER_LEN]
  }

  /** A request as written: `hex::decode(sign_packet(packet))`, the payload
      bytes followed by their signature. */
  function Wire(hexPacket: string): (w: seq<Byte>)
    requires Decode(hexPacket).Some?
    ensures |w| * 2 == |hexPacket| + 8 && |w| == |Decode(hexPacket).value| + 4
    ensures w[..|w| - 4] == Decode(hexPacket).value
    ensures Authentic(w)
  {
    SignPacketWire(hexPacket);
    SignedPacketsAuthentic(hexPacket);
    Decode(SignPacket(hexPacket)).value
  }

  /** Every packet written carries a valid signature. */
  predicate AllAuthentic(packets: seq<seq<Byte>>) {
    forall i :: 0 <= i < |packets| ==> Authentic(packets[i])
  }

  /** A single request as written is authentic. */
  lemma WireAuthentic(hexPacket: string)
    requires Decode(hexPacket).Some?
    ensures AllAuthentic([Wire(hexPacket)])
  {
    var w := Wire(hexPacket);
    assert [w][0] == w;
  }

  /** The login reply the plug sent when it carries a session id. */
  predicate LoginAccepted(peer: Peer) {
    peer.loginReply.Some? && |peer.loginReply.value| >= MIN_LOGIN_RESPONSE_LEN
  }

  /** The connection is open and the login exchange yields a session id. */
  predicate LoggedIn(peer: Peer) {
    peer.accepts && peer.loginWrite && LoginAccepted(peer)
  }

  /** The session id the plug hands out in an accepted login reply. */
  function SessionId(peer: Peer): (sessionId: string)
    requires LoginAccepted(peer)
    ensures |sessionId| == 8 && IsLowerHex(sessionId) && IsHex(sessionId)
    ensures Decode(sessionId) == Some(peer.loginReply.value[16..20])
  {
    var id := ParseLoginResponse(peer.loginReply.value).value;
    LowerHexIsHex(id);
    id
  }

  /** `login`: write the signed login request, then read the reply and
      take the session id from it (see `ReadLoginReply`). A failed write
      ends the exchange before the read. */
  function Login(peer: Peer, timestamp: string): (x: Exchange<string>)
    requires IsHex(timestamp) && |timestamp| % 2 == 0
    ensures Decode(LoginPacket(timestamp)).Some?
    ensures x.written == (if peer.loginWrite then [Wire(LoginPacket(timestamp))] else [])
    ensures AllAuthentic(x.written)
    ensures x.result == if peer.loginWrite then ReadLoginReply(peer) else Err(WriteFailed)
  {
    LoginDecodes(timestamp);
    WireAuthentic(LoginPacket(timestamp));
    if !peer.loginWrite then Exchange(Err(WriteFailed), [])
    else Exchange(ReadLoginReply(peer), [Wire(LoginPacket(timestamp))])
  }

  /** The read that follows the login request. */
  function ReadLoginReply(peer: Peer): (r: Result<string, Error>)
    ensures r.Ok? <==> LoginAccepted(peer)
    ensures r.Ok? ==> r.value == SessionId(peer)
    ensures r.Err? ==> r.error == if peer.loginReply.None? then ReadFailed else LoginResponseTooShort
  {
    match peer.loginReply
    case None => Err(ReadFailed)
    case Some(reply) =>
      ReceivedPrefix(reply, 20);
      ParseLoginResponse(Received(reply))
  }

  /** The buffer keeps the first bytes of what the plug sent. */
  lemma ReceivedPrefix(data: seq<Byte>, n: nat)
    requires n <= READ_BUFFER_LEN
    ensures |Received(data)| >= n <==> |data| >= n
    ensures |data| >= n ==> Received(data)[..n] == data[..n]
  {
  }

  /** The packets written on a connection that logged in and then made
      one more exchange. */
  function AfterLogin<T>(login: Exchange<string>, next: Exchange<T>): (x: Exchange<T>)
    requires AllAuthentic(login.written) && AllAuthentic(next.written)
    ensures x.result == next.result && x.written == login.written + next.written
    ensures AllAuthentic(x.written)
  {
    AuthenticConcat(login.written, next.written);
    Exchange(next.result, login.written + next.written)
  }

  lemma AuthenticConcat(a: seq<seq<Byte>>, b: seq<seq<Byte>>)
    requires AllAuthentic(a) && AllAuthentic(b)
    ensures AllAuthentic(a + b)
  {
    assert forall i :: 0 <= i < |a| + |b| ==> (a + b)[i] == if i < |a| then a[i] else b[i - |a|];
  }

  /** The second packet written on a connection that wrote one before it. */
  lemma SecondOfTwo(first: seq<seq<Byte>>, second: seq<seq<Byte>>)
    requires |first| == 1 && |second| == 1
    ensures |first + second| == 2 && (first + second)[1] == second[0]
  {
  }

  /** The timestamp every request carries: 8 lowercase hex digits. */
  lemma TimestampIsHex(now: nat)
    requires now < U32_LIMIT
    ensures |TimestampHex(now)| == 8 && IsHex(TimestampHex(now))
  {
    TimestampHexRoundTrip(now);
    LowerHexIsHex(TimestampHex(now));
  }

  /** `get_status`: connect, log in, request the status and interpret the
      reply. */
  function GetStatus(c: Controller, peer: Peer, now: nat): (x: Exchange<DeviceStatus>)
    requires ValidDeviceId(c.deviceId) && now < U32_LIMIT
    ensures !peer.accepts ==> x == Exchange(Err(ConnectFailed), [])
    ensures x.result.Ok? <==> LoggedIn(peer) && peer.requestWrite
                              && peer.reply.Some? && |peer.reply.value| >= MIN_STATUS_RESPONSE_LEN
    ensures |x.written| <= 2 && AllAuthentic(x.written)
  {
    if !peer.accepts then Exchange(Err(ConnectFailed), [])
    else
      var timestamp := TimestampHex(now);
      TimestampIsHex(now);
      var login := Login(peer, timestamp);
      if login.result.Err? then Exchange(Err(login.result.error), login.written)
      else AfterLogin(login, StatusExchange(c, peer, timestamp, login.result.value))
  }

  /** The status request and its reply, once logged in. */
  function StatusExchange(c: Controller, peer: Peer, timestamp: string, sessionId: string): (x: Exchange<DeviceStatus>)
    requires ValidDeviceId(c.deviceId) && IsHex(timestamp) && |timestamp| % 2 == 0
    requires IsHex(sessionId) && |sessionId| % 2 == 0
    ensures Decode(StatusPacket(sessionId, timestamp, c.deviceId)).Some?
    ensures x.written == (if peer.requestWrite then [Wire(StatusPacket(sessionId, timestamp, c.deviceId))] else [])
    ensures AllAuthentic(x.written)
    ensures !peer.requestWrite ==> x.result == Err(WriteFailed)
    ensures x.result.Ok? <==> peer.requestWrite && peer.reply.Some? && |peer.reply.value| >= MIN_STATUS_RESPONSE_LEN
    ensures peer.requestWrite && peer.reply.Some? ==> x.result == ParseStatusResponse(Received(peer.reply.value))
  {
    StatusDecodes(sessionId, timestamp, c.deviceId);
    WireAuthentic(StatusPacket(sessionId, timestamp, c.deviceId));
    if !peer.requestWrite then Exchange(Err(WriteFailed), [])
    else Exchange(ReadStatusReply(peer), [Wire(StatusPacket(sessionId, timestamp, c.deviceId))])
  }

  /** The read that follows the status request. */
  function ReadStatusReply(peer: Peer): (r: Result<DeviceStatus, Error>)
    ensures r.Ok? <==> peer.reply.Some? && |peer.reply.value| >= MIN_STATUS_RESPONSE_LEN
    ensures peer.reply.None? ==> r == Err(ReadFailed)
    ensures peer.reply.Some? ==> r == ParseStatusResponse(Received(peer.reply.value))
  {
    match peer.reply
    case None => Err(ReadFailed)
    case Some(reply) =>
      ReceivedPrefix(reply, MIN_STATUS_RESPONSE_LEN);
      ParseStatusResponse(Received(reply))
  }

  /** `send_control_command`: connect, log in and write the control
      request; no reply is read, so the command has gone out exactly when
      both writes succeeded. */
  function SendControlCommand(c: Controller, peer: Peer, now: nat, command: string): (x: Exchange<()>)
    requires ValidDeviceId(c.deviceId) && now < U32_LIMIT && IsCommand(command)
    ensures !peer.accepts ==> x == Exchange(Err(ConnectFailed), [])
    ensures x.result.Ok? <==> LoggedIn(peer) && peer.requestWrite
    ensures LoggedIn(peer) && !peer.requestWrite ==> x.result == Err(WriteFailed)
    ensures AllAuthentic(x.written)
  {
    if !peer.accepts then Exchange(Err(ConnectFailed), [])
    else
      var timestamp := TimestampHex(now);
      TimestampIsHex(now);
      var login := Login(peer, timestamp);
      if login.result.Err? then
        Exchange(Err(login.result.error), login.written)
      else
        var control := ControlExchange(c, peer, timestamp, login.result.value, command);
        AfterLogin(login, control)
  }

  /** How many packets a control command puts on the wire: none when the
      connection or the login write fails, the login request alone when
      the login is refused or the control write fails, and both otherwise. */
  lemma ControlCommandWrites(c: Controller, peer: Peer, now: nat, command: string)
    requires ValidDeviceId(c.deviceId) && now < U32_LIMIT && IsCommand(command)
    ensures |SendControlCommand(c, peer, now, command).written|
         == if LoggedIn(peer) && peer.requestWrite then 2 else if peer.accepts && peer.loginWrite then 1 else 0
  {
    if peer.accepts {
      var ts := TimestampHex(now);
      TimestampIsHex(now);
      var login := Login(peer, ts);
      if LoggedIn(peer) {
        var control := ControlExchange(c, peer, ts, SessionId(peer), command);
        assert SendControlCommand(c, peer, now, command).written == login.written + control.written;
      }
    }
  }

  /** The control request, once logged in: it succeeds exactly when it is
      written. */
  function ControlExchange(c: Controller, peer: Peer, timestamp: string, sessionId: string, command: string)
    : (x: Exchange<()>)
    requires ValidDeviceId(c.deviceId) && IsHex(timestamp) && |timestamp| % 2 == 0
    requires IsHex(sessionId) && |sessionId| % 2 == 0 && IsCommand(command)
    ensures Decode(ControlPacket(sessionId, timestamp, c.deviceId, command)).Some?
    ensures x.result == if peer.requestWrite then Ok(()) else Err(WriteFailed)
    ensures x.written == if peer.requestWrite then [Wire(ControlPacket(sessionId, timestamp, c.deviceId, command))] else []
    ensures AllAuthentic(x.written)
  {
    ControlDecodes(sessionId, timestamp, c.deviceId, command);
    WireAuthentic(ControlPacket(sessionId, timestamp, c.deviceId, command));
    if !peer.requestWrite then Exchange(Err(WriteFailed), [])
    else Exchange(Ok(()), [Wire(ControlPacket(sessionId, timestamp, c.deviceId, command))])
  }

  /** `set_device_name`: connect, log in, and only then check the new
      name; a valid name is written in the rename request, whose
      acknowledgement must be at least 20 bytes. */
  function SetDeviceName(c: Controller, peer: Peer, now: nat, newName: seq<Byte>): (x: Exchange<()>)
    requires ValidDeviceId(c.deviceId) && now < U32_LIMIT
    ensures !peer.accepts ==> x == Exchange(Err(ConnectFailed), [])
    ensures x.result.Ok? <==> LoggedIn(peer) && MIN_NAME_LENGTH <= |newName| <= MAX_NAME_LENGTH
                              && peer.requestWrite
                              && peer.reply.Some? && |peer.reply.value| >= MIN_RENAME_RESPONSE_LEN
    ensures |x.written| <= 2 && AllAuthentic(x.written)
  {
    if !peer.accepts then Exchange(Err(ConnectFailed), [])
    else
      var timestamp := TimestampHex(now);
      TimestampIsHex(now);
      var login := Login(peer, timestamp);
      if login.result.Err? then Exchange(Err(login.result.error), login.written)
      else AfterLogin(login, RenameExchange(c, peer, timestamp, login.result.value, newName))
  }

  /** The name check, the rename request and its acknowledgement, once
      logged in. A bad name fails before anything is written. */
  function RenameExchange(c: Controller, peer: Peer, timestamp: string, sessionId: string, newName: seq<Byte>)
    : (x: Exchange<()>)
    requires ValidDeviceId(c.deviceId) && IsHex(timestamp) && |timestamp| % 2 == 0
    requires IsHex(sessionId) && |sessionId| % 2 == 0
    ensures x.result.Ok? <==> MIN_NAME_LENGTH <= |newName| <= MAX_NAME_LENGTH && peer.requestWrite
                              && peer.reply.Some? && |peer.reply.value| >= MIN_RENAME_RESPONSE_LEN
    ensures !(MIN_NAME_LENGTH <= |newName| <= MAX_NAME_LENGTH)
        ==> x == Exchange(Err(InvalidNameLength(|newName|)), [])
    ensures MIN_NAME_LENGTH <= |newName| <= MAX_NAME_LENGTH && !peer.requestWrite
        ==> x == Exchange(Err(WriteFailed), [])
    ensures MIN_NAME_LENGTH <= |newName| <= MAX_NAME_LENGTH && peer.requestWrite ==>
      && IsHex(NameToHex(newName).value)
      && Decode(RenamePacket(sessionId, timestamp, c.deviceId, NameToHex(newName).value)).Some?
      && x.written == [Wire(RenamePacket(sessionId, timestamp, c.deviceId, NameToHex(newName).value))]
    ensures |x.written| <= 1 && AllAuthentic(x.written)
  {
    match SetNamePacket(sessionId, timestamp, c.deviceId, newName)
    case Err(e) => Exchange(Err(e), [])
    case Ok(packet) =>
      var nameHex := NameToHex(newName).value;
      LowerHexIsHex(nameHex);
      RenameDecodes(sessionId, timestamp, c.deviceId, nameHex);
      WireAuthentic(packet);
      if !peer.requestWrite then Exchange(Err(WriteFailed), [])
      else Exchange(ReadRenameReply(peer), [Wire(packet)])
  }

  /** The read that follows the rename request. */
  function ReadRenameReply(peer: Peer): (r: Result<(), Error>)
    ensures r.Ok? <==> peer.reply.Some? && |peer.reply.value| >= MIN_RENAME_RESPONSE_LEN
    ensures peer.reply.None? ==> r == Err(ReadFailed)
    ensures peer.reply.Some? ==> r == CheckRenameResponse(Received(peer.reply.value))
  {
    match peer.reply
    case None => Err(ReadFailed)
    case Some(reply) =>
      ReceivedPrefix(reply, MIN_RENAME_RESPONSE_LEN);
      CheckRenameResponse(Received(reply))
  }

  // ---------------------------------------------------------------------
  // What the requests carry

  /** The payload bytes of a written request are the decoded template. */
  lemma WireBytes(hexPacket: string, i: nat, j: nat)
    requires Decode(hexPacket).Some? && i <= j <= |Decode(hexPacket).value|
    ensures Wire(hexPacket)[i..j] == Decode(hexPacket).value[i..j]
  {
    var w := Wire(hexPacket);
    var payload := Decode(hexPacket).value;
    SliceOfPrefix(w, |payload|, i, j);
  }

  /** A written request whose header length byte is right: byte 2 is the
      number of bytes on the wire. */
  predicate SelfDescribing(packet: seq<Byte>) {
    |packet| > 2 && packet[2] == |packet|
  }

  /** The login request is stamped with the clock reading. */
  lemma LoginRequestContent(peer: Peer, now: nat)
    requires now < U32_LIMIT && peer.loginWrite
    ensures |TimestampHex(now)| == 8 && IsHex(TimestampHex(now))
    ensures var w := Login(peer, TimestampHex(now)).written[0];
      |w| > 28 && BigEndian(w[24..28]) == now && SelfDescribing(w)
  {
    var ts := TimestampHex(now);
    TimestampBytes(now);
    LoginFields(ts);
    LoginLengthField(ts);
    LoginLayout(ts);
    WireBytes(LoginPacket(ts), 24, 28);
  }

  /** After a successful login the status request echoes the session id
      the plug handed out, is stamped with the clock reading and names the
      device. */
  lemma StatusRequestContent(c: Controller, peer: Peer, now: nat)
    requires ValidDeviceId(c.deviceId) && |c.deviceId| == 6 && now < U32_LIMIT
    requires LoggedIn(peer) && peer.requestWrite
    ensures |GetStatus(c, peer, now).written| == 2
    ensures var w := GetStatus(c, peer, now).written[1];
      |w| > 43 && w[8..12] == peer.loginReply.value[16..20] && BigEndian(w[24..28]) == now
      && Decode(c.deviceId) == Some(w[40..43]) && SelfDescribing(w)
  {
    StatusRequestSecond(c, peer, now);
    StatusRequestFields(SessionId(peer), now, c.deviceId);
  }

  lemma StatusRequestWritten(c: Controller, peer: Peer, now: nat)
    requires ValidDeviceId(c.deviceId) && now < U32_LIMIT
    requires LoggedIn(peer)
    ensures |TimestampHex(now)| == 8 && IsHex(TimestampHex(now))
    ensures var ts := TimestampHex(now);
      GetStatus(c, peer, now).written == Login(peer, ts).written + StatusExchange(c, peer, ts, SessionId(peer)).written
  {
    TimestampIsHex(now);
    var ts := TimestampHex(now);
    var login := Login(peer, ts);
    assert login.result == Ok(SessionId(peer));
    assert GetStatus(c, peer, now) == AfterLogin(login, StatusExchange(c, peer, ts, SessionId(peer)));
  }

  lemma StatusRequestSecond(c: Controller, peer: Peer, now: nat)
    requires ValidDeviceId(c.deviceId) && now < U32_LIMIT
    requires LoggedIn(peer) && peer.requestWrite
    ensures Decode(StatusPacket(SessionId(peer), TimestampHex(now), c.deviceId)).Some?
    ensures var x := GetStatus(c, peer, now);
      |x.written| == 2 && x.written[1] == Wire(StatusPacket(SessionId(peer), TimestampHex(now), c.deviceId))
  {
    StatusRequestWritten(c, peer, now);
    var ts := TimestampHex(now);
    SecondOfTwo(Login(peer, ts).written, StatusExchange(c, peer, ts, SessionId(peer)).written);
  }

  lemma StatusRequestFields(sessionId: string, now: nat, deviceId: string)
    requires |sessionId| == 8 && IsHex(sessionId) && |deviceId| == 6 && IsHex(deviceId) && now < U32_LIMIT
    ensures |TimestampHex(now)| == 8 && IsHex(TimestampHex(now))
    ensures Decode(StatusPacket(sessionId, TimestampHex(now), deviceId)).Some?
    ensures var w := Wire(StatusPacket(sessionId, TimestampHex(now), deviceId));
      |w| > 43 && Decode(sessionId) == Some(w[8..12]) && BigEndian(w[24..28]) == now
      && Decode(deviceId) == Some(w[40..43]) && SelfDescribing(w)
  {
    var ts := TimestampHex(now);
    TimestampBytes(now);
    StatusDecodes(sessionId, ts, deviceId);
    SessionWireFields("fef0300002320103", sessionId, now, deviceId, "00");
    StatusLengthField(sessionId, ts, deviceId);
  }

  /** The fields every request after login shares, as written. */
  lemma SessionWireFields(header: string, sessionId: string, now: nat, deviceId: string, rest: string)
    requires |header| == 16 && |sessionId| == 8 && |deviceId| == 6 && now < U32_LIMIT
    requires Decode(SessionHeader(header, sessionId, TimestampHex(now), deviceId) + rest).Some?
    ensures var w := Wire(SessionHeader(header, sessionId, TimestampHex(now), deviceId) + rest);
      |w| > 43 && Decode(sessionId) == Some(w[8..12]) && BigEndian(w[24..28]) == now
      && Decode(deviceId) == Some(w[40..43])
  {
    var ts := TimestampHex(now);
    TimestampBytes(now);
    var p := SessionHeader(header, sessionId, ts, deviceId) + rest;
    SessionFields(header, sessionId, ts, deviceId, rest);
    SessionLayout(header, sessionId, ts, deviceId, rest);
    WireBytes(p, 8, 12);
    WireBytes(p, 24, 28);
    WireBytes(p, 40, 43);
  }

  /** The byte the control request uses for a command: 1 switches on, 0
      switches off. */
  function CommandByte(command: string): Byte
    requires IsCommand(command)
  {
    if command == ON_COMMAND then 1 else 0
  }

  lemma CommandByteField(sessionId: string, timestamp: string, deviceId: string, command: string)
    requires |sessionId| == 8 && |timestamp| == 8 && |deviceId| == 6 && IsCommand(command)
    requires Decode(ControlPacket(sessionId, timestamp, deviceId, command)).Some?
    ensures |Decode(ControlPacket(sessionId, timestamp, deviceId, command)).value| == 89
    ensures Decode(ControlPacket(sessionId, timestamp, deviceId, command)).value[83] == CommandByte(command)
  {
    var p := ControlPacket(sessionId, timestamp, deviceId, command);
    var b := Decode(p).value;
    CommandField(sessionId, timestamp, deviceId, command);
    assert Decode(p[166..168]) == Some(b[83..84]) by {
      DecodeSlice(p, 83, 84);
    }
    assert b[83..84] == [CommandByte(command)] by {
      CommandBytesText();
    }
    assert b[83] == b[83..84][0];
  }

  lemma CommandBytesText()
    ensures Decode("0" + ON_COMMAND) == Some([1]) && Decode("0" + OFF_COMMAND) == Some([0])
  {
    EncodeOne(0);
    EncodeOne(1);
    assert EncodeByte(0) == "00" && EncodeByte(1) == "01";
    DecodeEncode([0]);
    DecodeEncode([1]);
  }

  /** After a successful login the control request echoes the session id,
      is stamped with the clock reading, names the device and carries the
      command in byte 83. */
  lemma ControlRequestContent(c: Controller, peer: Peer, now: nat, command: string)
    requires ValidDeviceId(c.deviceId) && |c.deviceId| == 6 && now < U32_LIMIT && IsCommand(command)
    requires LoggedIn(peer) && peer.requestWrite
    ensures |SendControlCommand(c, peer, now, command).written| == 2
    ensures var w := SendControlCommand(c, peer, now, command).written[1];
      |w| > 83 && w[8..12] == peer.loginReply.value[16..20] && BigEndian(w[24..28]) == now
      && Decode(c.deviceId) == Some(w[40..43]) && w[83] == CommandByte(command) && SelfDescribing(w)
  {
    ControlRequestSecond(c, peer, now, command);
    ControlRequestFields(SessionId(peer), now, c.deviceId, command);
  }

  lemma ControlRequestWritten(c: Controller, peer: Peer, now: nat, command: string)
    requires ValidDeviceId(c.deviceId) && now < U32_LIMIT && IsCommand(command)
    requires LoggedIn(peer)
    ensures |TimestampHex(now)| == 8 && IsHex(TimestampHex(now))
    ensures var ts := TimestampHex(now);
      SendControlCommand(c, peer, now, command).written
      == Login(peer, ts).written + ControlExchange(c, peer, ts, SessionId(peer), command).written
  {
    TimestampIsHex(now);
    var ts := TimestampHex(now);
    var login := Login(peer, ts);
    assert login.result == Ok(SessionId(peer));
    assert SendControlCommand(c, peer, now, command) == AfterLogin(login, ControlExchange(c, peer, ts, SessionId(peer), command));
  }

  lemma ControlRequestSecond(c: Controller, peer: Peer, now: nat, command: string)
    requires ValidDeviceId(c.deviceId) && now < U32_LIMIT && IsCommand(command)
    requires LoggedIn(peer) && peer.requestWrite
    ensures Decode(ControlPacket(SessionId(peer), TimestampHex(now), c.deviceId, command)).Some?
    ensures var x := SendControlCommand(c, peer, now, command);
      |x.written| == 2 && x.written[1] == Wire(ControlPacket(SessionId(peer), TimestampHex(now), c.deviceId, command))
  {
    ControlRequestWritten(c, peer, now, command);
    var ts := TimestampHex(now);
    SecondOfTwo(Login(peer, ts).written, ControlExchange(c, peer, ts, SessionId(peer), command).written);
  }

  lemma ControlRequestFields(sessionId: string, now: nat, deviceId: string, command: string)
    requires |sessionId| == 8 && IsHex(sessionId) && |deviceId| == 6 && IsHex(deviceId) && now < U32_LIMIT
    requires IsCommand(command)
    ensures |TimestampHex(now)| == 8 && IsHex(TimestampHex(now))
    ensures Decode(ControlPacket(sessionId, TimestampHex(now), deviceId, command)).Some?
    ensures var w := Wire(ControlPacket(sessionId, TimestampHex(now), deviceId, command));
      |w| > 83 && Decode(sessionId) == Some(w[8..12]) && BigEndian(w[24..28]) == now
      && Decode(deviceId) == Some(w[40..43]) && w[83] == CommandByte(command) && SelfDescribing(w)
  {
    ControlSessionFields(sessionId, now, deviceId, command);
    ControlCommandWire(sessionId, TimestampHex(now), deviceId, command);
  }

  lemma ControlSessionFields(sessionId: string, now: nat, deviceId: string, command: string)
    requires |sessionId| == 8 && IsHex(sessionId) && |deviceId| == 6 && IsHex(deviceId) && now < U32_LIMIT
    requires IsCommand(command)
    ensures |TimestampHex(now)| == 8 && IsHex(TimestampHex(now))
    ensures Decode(ControlPacket(sessionId, TimestampHex(now), deviceId, command)).Some?
    ensures var w := Wire(ControlPacket(sessionId, TimestampHex(now), deviceId, command));
      |w| > 43 && Decode(sessionId) == Some(w[8..12]) && BigEndian(w[24..28]) == now
      && Decode(deviceId) == Some(w[40..43])
  {
    var ts := TimestampHex(now);
    TimestampBytes(now);
    ControlDecodes(sessionId, ts, deviceId, command);
    PacketsSplit(sessionId, ts, deviceId, command, "");
    SessionWireFields("fef05d0002320102", sessionId, now, deviceId,
                      PAD_72_ZEROS + "000106000" + command + "00" + "00000000");
  }

  lemma ControlCommandWire(sessionId: string, timestamp: string, deviceId: string, command: string)
    requires |sessionId| == 8 && IsHex(sessionId) && |timestamp| == 8 && IsHex(timestamp)
    requires |deviceId| == 6 && IsHex(deviceId) && IsCommand(command)
    ensures Decode(ControlPacket(sessionId, timestamp, deviceId, command)).Some?
    ensures var w := Wire(ControlPacket(sessionId, timestamp, deviceId, command));
      |w| > 83 && w[83] == CommandByte(command) && SelfDescribing(w)
  {
    var p := ControlPacket(sessionId, timestamp, deviceId, command);
    ControlDecodes(sessionId, timestamp, deviceId, command);
    ControlLengthField(sessionId, timestamp, deviceId, command);
    CommandByteField(sessionId, timestamp, deviceId, command);
    WireBytes(p, 83, 84);
    assert Wire(p)[83] == Wire(p)[83..84][0];
  }

  /** After a successful login and with an acceptable name, the rename
      request echoes the session id, is stamped with the clock reading,
      names the device and carries the new name zero-padded to 32 bytes in
      bytes 80..112. */
  lemma RenameRequestContent(c: Controller, peer: Peer, now: nat, newName: seq<Byte>)
    requires ValidDeviceId(c.deviceId) && |c.deviceId| == 6 && now < U32_LIMIT
    requires LoggedIn(peer) && peer.requestWrite && MIN_NAME_LENGTH <= |newName| <= MAX_NAME_LENGTH
    ensures |SetDeviceName(c, peer, now, newName).written| == 2
    ensures var w := SetDeviceName(c, peer, now, newName).written[1];
      |w| > 112 && w[8..12] == peer.loginReply.value[16..20] && BigEndian(w[24..28]) == now
      && Decode(c.deviceId) == Some(w[40..43])
      && w[80..112] == newName + Repeat<Byte>([0], MAX_NAME_LENGTH - |newName|) && SelfDescribing(w)
  {
    RenameRequestSecond(c, peer, now, newName);
    RenameRequestFields(SessionId(peer), now, c.deviceId, newName);
  }

  lemma RenameRequestWritten(c: Controller, peer: Peer, now: nat, newName: seq<Byte>)
    requires ValidDeviceId(c.deviceId) && now < U32_LIMIT
    requires LoggedIn(peer)
    ensures |TimestampHex(now)| == 8 && IsHex(TimestampHex(now))
    ensures var ts := TimestampHex(now);
      SetDeviceName(c, peer, now, newName).written
      == Login(peer, ts).written + RenameExchange(c, peer, ts, SessionId(peer), newName).written
  {
    TimestampIsHex(now);
    var ts := TimestampHex(now);
    var login := Login(peer, ts);
    assert login.result == Ok(SessionId(peer));
    assert SetDeviceName(c, peer, now, newName) == AfterLogin(login, RenameExchange(c, peer, ts, SessionId(peer), newName));
  }

  lemma RenameRequestSecond(c: Controller, peer: Peer, now: nat, newName: seq<Byte>)
    requires ValidDeviceId(c.deviceId) && now < U32_LIMIT
    requires LoggedIn(peer) && peer.requestWrite && MIN_NAME_LENGTH <= |newName| <= MAX_NAME_LENGTH
    ensures IsHex(NameToHex(newName).value)
    ensures Decode(RenamePacket(SessionId(peer), TimestampHex(now), c.deviceId, NameToHex(newName).value)).Some?
    ensures var x := SetDeviceName(c, peer, now, newName);
      |x.written| == 2
      && x.written[1] == Wire(RenamePacket(SessionId(peer), TimestampHex(now), c.deviceId, NameToHex(newName).value))
  {
    RenameRequestWritten(c, peer, now, newName);
    var ts := TimestampHex(now);
    SecondOfTwo(Login(peer, ts).written, RenameExchange(c, peer, ts, SessionId(peer), newName).written);
  }

  lemma RenameRequestFields(sessionId: string, now: nat, deviceId: string, newName: seq<Byte>)
    requires |sessionId| == 8 && IsHex(sessionId) && |deviceId| == 6 && IsHex(deviceId) && now < U32_LIMIT
    requires MIN_NAME_LENGTH <= |newName| <= MAX_NAME_LENGTH
    ensures |TimestampHex(now)| == 8 && IsHex(TimestampHex(now)) && IsHex(NameToHex(newName).value)
    ensures Decode(RenamePacket(sessionId, TimestampHex(now), deviceId, NameToHex(newName).value)).Some?
    ensures var w := Wire(RenamePacket(sessionId, TimestampHex(now), deviceId, NameToHex(newName).value));
      |w| > 112 && Decode(sessionId) == Some(w[8..12]) && BigEndian(w[24..28]) == now
      && Decode(deviceId) == Some(w[40..43])
      && w[80..112] == newName + Repeat<Byte>([0], MAX_NAME_LENGTH - |newName|) && SelfDescribing(w)
  {
    var ts := TimestampHex(now);
    TimestampBytes(now);
    var nameHex := NameToHex(newName).value;
    LowerHexIsHex(nameHex);
    var p := RenamePacket(sessionId, ts, deviceId, nameHex);
    RenameDecodes(sessionId, ts, deviceId, nameHex);
    PacketsSplit(sessionId, ts, deviceId, ON_COMMAND, nameHex);
    SessionWireFields("fef0740002320202", sessionId, now, deviceId, PAD_72_ZEROS + "00" + nameHex);
    RenameLengthField(sessionId, ts, deviceId, nameHex);
    NameBytesField(sessionId, ts, deviceId, newName);
    WireBytes(p, 80, 112);
  }

  lemma NameBytesField(sessionId: string, timestamp: string, deviceId: string, newName: seq<Byte>)
    requires |sessionId| == 8 && |timestamp| == 8 && |deviceId| == 6
    requires MIN_NAME_LENGTH <= |newName| <= MAX_NAME_LENGTH
    requires Decode(RenamePacket(sessionId, timestamp, deviceId, NameToHex(newName).value)).Some?
    ensures var b := Decode(RenamePacket(sessionId, timestamp, deviceId, NameToHex(newName).value)).value;
      |b| == 112 && b[80..112] == newName + Repeat<Byte>([0], MAX_NAME_LENGTH - |newName|)
  {
    var nameHex := NameToHex(newName).value;
    var p := RenamePacket(sessionId, timestamp, deviceId, nameHex);
    RenameLayout(sessionId, timestamp, deviceId, nameHex);
    DecodeSlice(p, 80, 112);
    NameFieldBytes(newName);
  }

  /** The name is checked only once the connection is open and the login
      has succeeded: a bad name then fails with its length, the login
      request has already gone out, and no rename request is written. */
  lemma RenameValidatedAfterLogin(c: Controller, peer: Peer, now: nat, newName: seq<Byte>)
    requires ValidDeviceId(c.deviceId) && now < U32_LIMIT
    requires !(MIN_NAME_LENGTH <= |newName| <= MAX_NAME_LENGTH)
    ensures |SetDeviceName(c, peer, now, newName).written| == (if peer.accepts && peer.loginWrite then 1 else 0)
    ensures SetDeviceName(c, peer, now, newName).result == Err(InvalidNameLength(|newName|)) <==> LoggedIn(peer)
  {
    if peer.accepts {
      var ts := TimestampHex(now);
      TimestampIsHex(now);
      var login := Login(peer, ts);
      assert login.result.Ok? <==> peer.loginWrite && LoginAccepted(peer);
    }
  }

  /** A status reply carrying a state and a power reading is read back as
      that state and reading. */
  lemma GetStatusReadsReply(c: Controller, peer: Peer, now: nat, frame: seq<Byte>, state: DeviceState, power: nat)
    requires ValidDeviceId(c.deviceId) && now < U32_LIMIT
    requires POWER_BYTE_POS + 1 < |frame| <= READ_BUFFER_LEN && state != Unknown && power < U16_LIMIT
    requires LoggedIn(peer) && peer.requestWrite && peer.reply == Some(StatusReply(frame, state, power))
    ensures GetStatus(c, peer, now).result == Ok(DeviceStatus(state, power))
  {
    var reply := StatusReply(frame, state, power);
    GetStatusParsesReply(c, peer, now);
    assert Received(reply) == reply;
    StatusReplyRoundTrip(frame, state, power);
  }

  lemma GetStatusParsesReply(c: Controller, peer: Peer, now: nat)
    requires ValidDeviceId(c.deviceId) && now < U32_LIMIT
    requires LoggedIn(peer) && peer.requestWrite && peer.reply.Some?
    ensures GetStatus(c, peer, now).result == ParseStatusResponse(Received(peer.reply.value))
  {
    var ts := TimestampHex(now);
    TimestampIsHex(now);
    var login := Login(peer, ts);
    assert login.result == Ok(SessionId(peer));
  }

  /** A connection that is accepted but does not log in ends every
      operation with the login's own error, after what the login wrote:
      `WriteFailed`, `ReadFailed` or `LoginResponseTooShort`. */
  lemma LoginErrorPropagates(c: Controller, peer: Peer, now: nat, command: string, newName: seq<Byte>)
    requires ValidDeviceId(c.deviceId) && now < U32_LIMIT && IsCommand(command)
    requires peer.accepts && !LoggedIn(peer)
    ensures IsHex(TimestampHex(now)) && |TimestampHex(now)| == 8
    ensures var login := Login(peer, TimestampHex(now));
      && login.result.Err?
      && login.result.error == (if !peer.loginWrite then WriteFailed
                                else if peer.loginReply.None? then ReadFailed
                                else LoginResponseTooShort)
      && GetStatus(c, peer, now) == Exchange(Err(login.result.error), login.written)
      && SendControlCommand(c, peer, now, command) == Exchange(Err(login.result.error), login.written)
      && SetDeviceName(c, peer, now, newName) == Exchange(Err(login.result.error), login.written)
  {
    TimestampIsHex(now);
  }

  /** Once logged in, each operation ends with the result of its own
      exchange: the status read (or `WriteFailed`), the control write, or
      the name check, rename write and acknowledgement. */
  lemma LoggedInResults(c: Controller, peer: Peer, now: nat, command: string, newName: seq<Byte>)
    requires ValidDeviceId(c.deviceId) && now < U32_LIMIT && IsCommand(command)
    requires LoggedIn(peer)
    ensures IsHex(TimestampHex(now)) && |TimestampHex(now)| == 8
    ensures GetStatus(c, peer, now).result == if peer.requestWrite then ReadStatusReply(peer) else Err(WriteFailed)
    ensures SendControlCommand(c, peer, now, command).result == if peer.requestWrite then Ok(()) else Err(WriteFailed)
    ensures SetDeviceName(c, peer, now, newName).result
         == RenameExchange(c, peer, TimestampHex(now), SessionId(peer), newName).result
  {
    TimestampIsHex(now);
    assert Login(peer, TimestampHex(now)).result == Ok(SessionId(peer));
  }

  // ---------------------------------------------------------------------
  // Switching with confirmation

  /** How `turn_on` and `turn_off` ended, and how many status polls they
      made. */
  datatype SwitchRun = SwitchRun(result: Result<(), Error>, polls: nat)

  /** The confirmation policy: after the command has been sent, poll the
      status; if it does not show the target state, poll once more. A
      failed step ends the run with its error; an unknown state is not the
      target. */
  function Confirm(target: DeviceState, sent: Result<(), Error>,
                   first: Result<DeviceStatus, Error>, second: Result<DeviceStatus, Error>): (run: SwitchRun)
    ensures run.polls <= 2
    ensures sent.Err? ==> run == SwitchRun(Err(sent.error), 0)
    ensures sent.Ok? && first.Ok? && first.value.state != target && second.Ok? && second.value.state != target
        ==> run == SwitchRun(Err(CommandNotConfirmed(target)), 2)
  {
    if sent.Err? then SwitchRun(Err(sent.error), 0)
    else if first.Err? then SwitchRun(Err(first.error), 1)
    else if first.value.state == target then SwitchRun(Ok(()), 1)
    else if second.Err? then SwitchRun(Err(second.error), 2)
    else if second.value.state == target then SwitchRun(Ok(()), 2)
    else SwitchRun(Err(CommandNotConfirmed(target)), 2)
  }

  /** Reference reading of the policy over the sequence of status results:
      the run succeeds exactly when one of the first two polls shows the
      target and every poll before it succeeded without showing it. */
  predicate ConfirmedBy(target: DeviceState, statuses: seq<Result<DeviceStatus, Error>>) {
    exists k :: 0 <= k < 2 && k < |statuses| && Shows(statuses[k], target)
      && forall j :: 0 <= j < k ==> statuses[j].Ok? && !Shows(statuses[j], target)
  }

  predicate Shows(status: Result<DeviceStatus, Error>, target: DeviceState) {
    status.Ok? && status.value.state == target
  }

  /** The policy succeeds exactly when the command went out and the status
      polls confirm the target in the sense of `ConfirmedBy`. */
  lemma ConfirmMatchesReference(target: DeviceState, sent: Result<(), Error>,
                                first: Result<DeviceStatus, Error>, second: Result<DeviceStatus, Error>)
    ensures Confirm(target, sent, first, second).result.Ok?
        <==> sent.Ok? && ConfirmedBy(target, [first, second])
  {
    var statuses := [first, second];
    if sent.Ok? && Confirm(target, sent, first, second).result.Ok? {
      if Shows(first, target) {
        assert Shows(statuses[0], target);
      } else {
        assert Shows(statuses[1], target) && statuses[0].Ok? && !Shows(statuses[0], target);
      }
    }
    if sent.Ok? && ConfirmedBy(target, statuses) {
      var k :| 0 <= k < 2 && k < |statuses| && Shows(statuses[k], target)
        && forall j :: 0 <= j < k ==> statuses[j].Ok? && !Shows(statuses[j], target);
      if k == 1 {
        assert statuses[0].Ok? && !Shows(statuses[0], target);
      }
    }
  }

  /** A failure ends the run where it happens and is reported unchanged:
      a failed send makes no poll, a failed first poll no second one; two
      polls that both succeed without showing the target end in
      `CommandNotConfirmed`. */
  lemma ConfirmPropagatesErrors(target: DeviceState, sent: Result<(), Error>,
                                first: Result<DeviceStatus, Error>, second: Result<DeviceStatus, Error>)
    ensures sent.Ok? && first.Err? ==> Confirm(target, sent, first, second) == SwitchRun(Err(first.error), 1)
    ensures sent.Ok? && first.Ok? && first.value.state != target && second.Err?
        ==> Confirm(target, sent, first, second) == SwitchRun(Err(second.error), 2)
    ensures sent.Ok? && first.Ok? && first.value.state != target && second.Ok? && second.value.state != target
        ==> Confirm(target, sent, first, second) == SwitchRun(Err(CommandNotConfirmed(target)), 2)
    ensures Confirm(target, sent, first, second).polls == 2 <==> sent.Ok? && first.Ok? && first.value.state != target
  {
  }

  /** A plug that reports an unknown state never confirms a switch to on
      or off: both polls are spent and the run fails. */
  lemma UnknownNeverConfirms(target: DeviceState, first: Result<DeviceStatus, Error>, second: Result<DeviceStatus, Error>)
    requires target != Unknown
    requires first.Ok? && first.value.state == Unknown
    requires second.Ok? && second.value.state == Unknown
    ensures Confirm(target, Ok(()), first, second) == SwitchRun(Err(CommandNotConfirmed(target)), 2)
  {
  }

  /** The connections of one switch: the command, then up to two polls,
      with the clock reading at the start of each. */
  datatype SwitchPeers = SwitchPeers(command: Peer, firstPoll: Peer, secondPoll: Peer)
  datatype SwitchClock = SwitchClock(sendAt: nat, firstPollAt: nat, secondPollAt: nat)

  predicate ClockFits(clock: SwitchClock) {
    clock.sendAt < U32_LIMIT && clock.firstPollAt < U32_LIMIT && clock.secondPollAt < U32_LIMIT
  }

  /** `turn_on`/`turn_off` with `command` and the state it should produce:
      the confirmation policy applied to the command's connection and the
      two polls' connections. A poll the policy does not reach makes no
      difference to the run. */
  function Switch(c: Controller, command: string, target: DeviceState, peers: SwitchPeers, clock: SwitchClock): (run: SwitchRun)
    requires ValidDeviceId(c.deviceId) && ClockFits(clock) && IsCommand(command)
    ensures run.polls <= 2
    ensures !(LoggedIn(peers.command) && peers.command.requestWrite) ==>
      run == SwitchRun(Err(SendControlCommand(c, peers.command, clock.sendAt, command).result.error), 0)
    ensures run.result.Ok?
        <==> LoggedIn(peers.command) && peers.command.requestWrite
             && ConfirmedBy(target, [GetStatus(c, peers.firstPoll, clock.firstPollAt).result,
                                    GetStatus(c, peers.secondPoll, clock.secondPollAt).result])
  {
    var sent := SendControlCommand(c, peers.command, clock.sendAt, command).result;
    var first := GetStatus(c, peers.firstPoll, clock.firstPollAt).result;
    var second := GetStatus(c, peers.secondPoll, clock.secondPollAt).result;
    ConfirmMatchesReference(target, sent, first, second);
    Confirm(target, sent, first, second)
  }

  /** `turn_on`: send "1" and confirm the plug reports On. */
  function TurnOn(c: Controller, peers: SwitchPeers, clock: SwitchClock): (run: SwitchRun)
    requires ValidDeviceId(c.deviceId) && ClockFits(clock)
    ensures run.polls <= 2
    ensures run.result.Ok?
        <==> LoggedIn(peers.command) && peers.command.requestWrite
             && ConfirmedBy(On, [GetStatus(c, peers.firstPoll, clock.firstPollAt).result,
                                GetStatus(c, peers.secondPoll, clock.secondPollAt).result])
  {
    Switch(c, ON_COMMAND, On, peers, clock)
  }

  /** `turn_off`: send "0" and confirm the plug reports Off. */
  function TurnOff(c: Controller, peers: SwitchPeers, clock: SwitchClock): (run: SwitchRun)
    requires ValidDeviceId(c.deviceId) && ClockFits(clock)
    ensures run.polls <= 2
    ensures run.result.Ok?
        <==> LoggedIn(peers.command) && peers.command.requestWrite
             && ConfirmedBy(Off, [GetStatus(c, peers.firstPoll, clock.firstPollAt).result,
                                 GetStatus(c, peers.secondPoll, clock.secondPollAt).result])
  {
    Switch(c, OFF_COMMAND, Off, peers, clock)
  }
}

=== FILE: types.dfy ===
/** Basic value types shared by every module of the model: bytes and the
    two failure-carrying wrappers that stand in for Rust's `Option` and
    `Result`. */
module Types {

  /** An unsigned 8-bit value (`u8`). */
  type Byte = b: int | 0 <= b < 256

  /** Exclusive upper bounds of the unsigned integer widths the client uses. */
  const U8_LIMIT: nat := 0x100
  const U16_LIMIT: nat := 0x1_0000
  const U32_LIMIT: nat := 0x1_0000_0000

  datatype Option<+T> = None | Some(value: T)

  datatype Result<+T, +E> = Ok(value: T) | Err(error: E)

  /** `n` copies of `s` one after the other (Rust's `str::repeat`). */
  function Repeat<T>(s: seq<T>, n: nat): (r: seq<T>)
    ensures |r| == n * |s|
  {
    if n == 0 then [] else s + Repeat(s, n - 1)
  }

  /** Concatenation regroups. */
  lemma AppendAssoc<T>(a: seq<T>, b: seq<T>, c: seq<T>)
    ensures a + b + c == a + (b + c)
  {
  }

  /** A sequence is its three parts cut at `i` and `j`. */
  lemma SplitThree<T>(s: seq<T>, i: nat, j: nat)
    requires i <= j <= |s|
    ensures s == s[..i] + s[i..j] + s[j..]
  {
  }

  /** The middle part of a concatenation of three, sliced back out. */
  lemma SliceMiddle<T>(a: seq<T>, b: seq<T>, c: seq<T>)
    ensures (a + b + c)[|a|..|a| + |b|] == b
  {
  }

  /** A slice of a prefix is the same slice of the whole. */
  lemma SliceOfPrefix<T>(s: seq<T>, n: nat, i: nat, j: nat)
    requires i <= j <= n <= |s|
    ensures s[..n][i..j] == s[i..j]
  {
  }
}

=== FILE: utils.dfy ===
/** The two time helpers of `src/utils.rs`. Reading the clock is left to
    the caller: both take the current time (whole seconds since the Unix
    epoch) as a parameter. */
module Utils {
  import opened Types
  import opened Hex

  /** Lowercase hex digits of `n` without leading zeros, as `{:x}` prints. */
  function LowerHexDigits(n: nat): (s: string)
    ensures |s| >= 1 && IsLowerHex(s)
    ensures Value(s) == n
    decreases n
  {
    if n < 16 then [LowerDigit(n)]
    else
      var prefix := LowerHexDigits(n / 16);
      var s := prefix + [LowerDigit(n % 16)];
      assert s[..|s| - 1] == prefix;
      s
  }

  /** `format!("{:08x}", t)`: the hex timestamp sent in every packet. */
  function TimestampHex(t: nat): (s: string)
    ensures |s| >= 8 && IsLowerHex(s)
    ensures Value(s) == t
  {
    var digits := LowerHexDigits(t);
    if |digits| >= 8 then digits
    else
      var zeros := Repeat("0", 8 - |digits|);
      ZerosValue(8 - |digits|);
      ValueAppend(zeros, digits);
      zeros + digits
  }

  lemma {:induction false} ZerosValue(k: nat)
    ensures IsLowerHex(Repeat("0", k)) && Value(Repeat("0", k)) == 0
    decreases k
  {
    if k > 0 {
      ZerosValue(k - 1);
      ValueAppend("0", Repeat("0", k - 1));
      assert "0"[..0] == [];
    }
  }

  /** A number below `16^k` needs at most `k` hex digits. */
  lemma {:induction false} LowerHexDigitsWidth(n: nat, k: nat)
    requires 1 <= k && n < Pow16(k)
    ensures |LowerHexDigits(n)| <= k
    decreases k
  {
    if n >= 16 {
      if k == 1 {
        assert false;
      }
      LowerHexDigitsWidth(n / 16, k - 1);
    }
  }

  /** Every timestamp below 2^32 is exactly eight characters and reads back
      as itself with `u32::from_str_radix`. */
  lemma TimestampHexRoundTrip(t: nat)
    requires t < U32_LIMIT
    ensures |TimestampHex(t)| == 8
    ensures FromStrRadix16(TimestampHex(t), U32_LIMIT) == Some(t)
  {
    assert Pow16(8) == U32_LIMIT;
    LowerHexDigitsWidth(t, 8);
    var s := TimestampHex(t);
    assert IsHex(s) by {
      forall i | 0 <= i < |s| ensures IsHexDigit(s[i]) {
        assert IsLowerDigit(s[i]);
      }
    }
  }

  /** On the wire the timestamp field is four bytes holding the time
      big-endian. */
  lemma TimestampBytes(t: nat)
    requires t < U32_LIMIT
    ensures |TimestampHex(t)| == 8 && IsHex(TimestampHex(t))
    ensures Decode(TimestampHex(t)).Some?
    ensures |Decode(TimestampHex(t)).value| == 4 && BigEndian(Decode(TimestampHex(t)).value) == t
  {
    TimestampHexRoundTrip(t);
    var s := TimestampHex(t);
    LowerHexIsHex(s);
    EncodeDecode(s);
    ValueEncode(Decode(s).value);
  }

  /** `format_timestamp(timestamp)` against the clock reading `now`: a
      past or present time is reported as a number of units ago, a future
      one as "in the future". */
  function FormatTimestamp(timestamp: nat, now: nat): (text: string)
    ensures |text| > 0
    ensures timestamp <= now <==> '0' <= text[0] <= '9'
    ensures timestamp > now ==> text == "in the future"
  {
    if timestamp > now then "in the future"
    else
      var secs := now - timestamp;
      if secs < 60 then Decimal(secs) + " seconds ago"
      else if secs < 3600 then Decimal(secs / 60) + " minutes ago"
      else if secs < 86400 then Decimal(secs / 3600) + " hours ago"
      else Decimal(secs / 86400) + " days ago"
  }

  /** The unit in which an elapsed time is reported, and its length in
      seconds. */
  datatype TimeUnit = Seconds | Minutes | Hours | Days

  function UnitSeconds(u: TimeUnit): nat {
    match u
    case Seconds => 1
    case Minutes => 60
    case Hours => 3600
    case Days => 86400
  }

  function UnitName(u: TimeUnit): string {
    match u
    case Seconds => "seconds"
    case Minutes => "minutes"
    case Hours => "hours"
    case Days => "days"
  }

  /** The next larger unit, if any. */
  function Next(u: TimeUnit): Option<TimeUnit> {
    match u
    case Seconds => Some(Minutes)
    case Minutes => Some(Hours)
    case Hours => Some(Days)
    case Days => None
  }

  /** `u` fits an elapsed time when at least one whole `u` has passed
      (seconds always qualify) and not yet one whole next unit. */
  predicate Fits(u: TimeUnit, secs: nat) {
    (u != Seconds ==> secs >= UnitSeconds(u))
    && (Next(u).Some? ==> secs < UnitSeconds(Next(u).value))
  }

  /** A past time is reported as "N <unit> ago" in the unit that fits, N
      being the number of whole units elapsed. */
  lemma FormatTimestampBuckets(timestamp: nat, now: nat, u: TimeUnit)
    requires timestamp <= now && Fits(u, now - timestamp)
    ensures FormatTimestamp(timestamp, now)
         == Decimal((now - timestamp) / UnitSeconds(u)) + (" " + UnitName(u) + " ago")
  {
    var secs := now - timestamp;
    match u
    case Seconds =>
      assert " " + "seconds" + " ago" == " seconds ago";
      assert secs / 1 == secs;
    case Minutes => assert " " + "minutes" + " ago" == " minutes ago";
    case Hours => assert " " + "hours" + " ago" == " hours ago";
    case Days => assert " " + "days" + " ago" == " days ago";
  }

  /** Exactly one unit fits any elapsed time. */
  lemma {:induction false} OneUnitFits(secs: nat)
    ensures exists u :: Fits(u, secs)
    ensures forall u, v :: Fits(u, secs) && Fits(v, secs) ==> u == v
  {
    if secs < 60 {
      assert Fits(Seconds, secs);
    } else if secs < 3600 {
      assert Fits(Minutes, secs);
    } else if secs < 86400 {
      assert Fits(Hours, secs);
    } else {
      assert Fits(Days, secs);
    }
  }
}
